=== FILE: README.md ===
# A Dafny model of the certifyhub core

certifyhub issues PDF participation certificates for student clubs. A platform administrator
creates clubs and their administrators. A club administrator uploads certificate templates
(a background image plus text-field descriptors) and attendee rosters (CSV files). A student
then looks themselves up by club, student id and name and downloads a certificate whose id
encodes the club slug and the student id. Every generation is counted against the attendee.

This project models the decision logic between the HTTP handlers and the SQL of that system,
as pure functions over an immutable database record (`Store.Db`, one sequence per table), and
proves properties of it:

- roster ingestion: header normalisation and the alias table, required columns, row
  trimming and skipping (`CsvTable`, `CsvParser`); the order-stable new/duplicate split
  (`Dedup`); the stricter validator with its abort/collect policy and the attendee upload
  (`AttendeeService`); the import handlers with their role, audience, template and
  storage-quota gates, role defaulting, record building and preview (`AdminImports`); the
  loose re-reader of a stored roster (`ImportReader`);
- templates: descriptor validation with its aliases, defaults and bounds (`TemplateSchema`),
  and create, update, deactivate, list and statistics with version bumping (`TemplateService`);
- clubs: create with slug normalisation, lookup, deactivate, list totals and analytics
  (`ClubService`); reactivation, the permanent delete checked statement by statement against
  the schema's foreign keys, administrator activation and password reset (`Platform`);
- certificates: attendee matching in one club and across clubs, template resolution, the
  event override, the certificate id and the generation ledger (`CertificateService`); field
  values, alignment, hex colours and the text layout (`CertificateRender`);
- login and password change (`Auth`).

`Wrappers`, `Text` and `Seqs` hold the result types, ASCII case and whitespace functions and
sequence helpers the rest shares.

Wall-clock time, fresh ids (`uuid4()`), the width of a rendered text, date formatting, password
hashing and password verification are parameters: the model is deterministic in them. A CSV
file arrives already tokenized (its header names and the cells of each record); Python's `csv`
quoting is not re-implemented, but `csv.DictReader`'s behaviour on the tokens is (a repeated
header name reads the last such column; a short record reads `None` past its end).

Where the system's written description and its code differ, the model follows the code:

- the importer's alias table has no roll-number spellings (only the import-rows reader tries
  them), so a roster whose id column is headed "Roll No" is refused for a missing `student_id`;
- the cross-club attendee lookup orders by `attendees.updated_at`, a column no migration
  creates; the model gives attendees that field;
- the event lookup of `generate_certificate_pdf` is not restricted to the requested club;
- the upload-file handler writes its import record without the file's size, and its attendees
  without an import id.

## Model

| member | source | states |
|---|---|---|
| CsvTable.Lookup | app/services/csv_parser.py:67-71 | `row.get(key)` on a `DictReader` row: absent for a name not in the header and for a record too short to reach it, otherwise the cell under the last occurrence of the name |
| CsvTable.LookupFullRecord | app/services/csv_parser.py:67-71 | a record as long as the header yields, for a name that does not recur later, exactly its own cell |
| CsvParser.AliasesDisjoint | app/services/csv_parser.py:16-22 | the five alias sets are pairwise disjoint, so a header belongs to at most one column |
| CsvParser.ColumnOfIsAliasMembership | app/services/csv_parser.py:35-37 | a normalised header maps to column `c` if and only if it is one of `c`'s aliases; a header in no alias set maps to nothing |
| CsvParser.NormalizeHeader | app/services/csv_parser.py:25-28 | empty input gives ""; the result has no upper-case letter, no leading byte-order mark, no trailing whitespace and is no longer than the input |
| CsvParser.MapHeadersByLastWins | app/services/csv_parser.py:31-38 | for any header classifier, a column is in the map iff some header maps to it, and then it holds the last such header in header order |
| CsvParser.MapHeadersLastWins | app/services/csv_parser.py:31-38 | with the real alias table: a column is mapped iff some header normalises into its alias set, and the last such header wins |
| CsvParser.UnmappedColumn | app/services/csv_parser.py:31-38 | a column that no header maps to is absent from the header map (unmatched headers are ignored) |
| CsvParser.MappedColumn | app/services/csv_parser.py:31-38 | a column that some header maps to is present in the header map |
| CsvParser.MissingRequired | app/services/csv_parser.py:55-61 | the missing required columns: empty iff both name and student_id are mapped, each listed iff unmapped, in sorted order when both are missing |
| CsvParser.Extract | app/services/csv_parser.py:67-71 | every field of a parsed row is trimmed; an unmapped email or course gives "", an unmapped role gives None, a mapped role is lower-cased |
| CsvParser.ParseRowsBy | app/services/csv_parser.py:63-82 | only rows with a non-empty trimmed name and student id survive, never more rows than records, and none at all iff every record is skipped |
| CsvParser.ParseRowsAppend | app/services/csv_parser.py:63-82 | parsing two batches of records is parsing each in turn and concatenating, so surviving rows keep input order |
| CsvParser.ParseRowsFromRecords | app/services/csv_parser.py:63-82 | every surviving row is the row extracted from some record |
| CsvParser.ParseRowsSingle | app/services/csv_parser.py:73-82 | one record yields its row, or nothing when the row's name or id is empty |
| CsvParser.ParseAttendeeCsv | app/services/csv_parser.py:41-90 | no headers is the "empty or no headers" error; an unmapped required column is the missing-columns error listing exactly the missing keys; no surviving row is the "no valid rows" error; otherwise the non-empty list of surviving rows |
| CsvParserExamples.NormalizeStripped | app/services/csv_parser.py:25-28 | a header whose stripped form does not start with a byte-order mark normalises to its stripped, lower-cased form |
| CsvParserExamples.StudentIdSpelledOut | app/services/csv_parser.py:16-28 | the header "Student ID" maps to the student-id column |
| CsvParserExamples.StudentIdAfterBom | app/services/csv_parser.py:25-28 | a byte-order mark before "ID" is dropped, so the header maps to the student-id column |
| CsvParserExamples.FullNameIsName | app/services/csv_parser.py:16-28 | the header "Full Name" maps to the name column |
| CsvParserExamples.RollNoUnmapped | app/services/csv_parser.py:16-22 | "Roll No" is in no alias set of the importer |
| CsvParserExamples.HyphenatedMailUnmapped | app/services/csv_parser.py:16-22 | "E-Mail" is in no alias set, so a file spelling the email column that way loses it |
| CsvParserExamples.MissingStudentIdOnly | app/services/csv_parser.py:54-61 | a file whose headers give the name column but not the student-id column is rejected listing only student_id |
| CsvParserExamples.RollNumberHeaderRejected | app/services/csv_parser.py:54-61 | a file headed "Name, Roll No, ..." is rejected for its missing student-id column, whatever its records |
| Dedup.CheckDuplicates | app/services/csv_parser.py:93-122 | when no row has an id the result is no new records and the whole input as duplicates; otherwise the loop's partition |
| Dedup.CheckDuplicatesLoop | app/services/csv_parser.py:147-160 | the single pass with a `seen` set computes exactly the partition `CheckDuplicates` defines |
| Dedup.FreshIdsAreFirstOccurrences | app/services/csv_parser.py:112-120 | an id is among the new records iff it is non-empty, not stored, and carried by some row |
| Dedup.StepMatchesFate | app/services/csv_parser.py:116-120 | the loop's `seen`/stored test at a row agrees with the reference fate: duplicate iff its id is stored or occurred at an earlier index |
| Dedup.PartitionMatchesFates | app/services/csv_parser.py:109-122 | after any prefix of rows, the new records and duplicates are exactly the rows of that prefix whose reference fate is new, resp. duplicate, in input order |
| Dedup.CheckDuplicatesMatchesFates | app/services/csv_parser.py:93-122 | on a file with an id, the result is the fate-by-fate selection of the whole input |
| Dedup.FreshIdsDistinctAndNew | app/services/csv_parser.py:116-120 | the ids of the new records are pairwise distinct and none is in the stored set |
| Dedup.PartitionCountsIdRows | app/services/csv_parser.py:113-118 | every row with an id lands in exactly one list, rows without an id in neither |
| Dedup.FreshIdsAreUnstoredIds | app/services/csv_parser.py:109-122 | the set of new ids is the set of row ids minus the stored ones |
| Dedup.RepartitionKeepsFresh | app/services/csv_parser.py:112-122 | partitioning the new records again against the same stored set returns them all as new and no duplicates |
| Dedup.DistinctUnstoredAllFresh | app/services/csv_parser.py:112-122 | rows with distinct, non-empty, unstored ids are all new |
| Dedup.AllStoredAllDuplicates | app/services/csv_parser.py:112-122 | when every id is stored, nothing is new and the duplicates are exactly the rows with an id |
| Dedup.SecondImportAllDuplicates | app/services/csv_parser.py:93-122 | once the new records' ids are stored, checking the same file again finds no new record and every row with an id a duplicate |
| AttendeeService.FirstOccurrences | app/services/attendee_service.py:68-70 | the keys of the re-keyed row dict: exactly the distinct normalised names, each once |
| AttendeeService.RowValueSingleKey | app/services/attendee_service.py:68-76 | when a column name is the only header that normalises to it, the re-keyed row reads the same cell `DictReader` put under it |
| AttendeeService.RowValueAbsent | app/services/attendee_service.py:73-76 | a column no header normalises to reads as "" |
| AttendeeService.NormalizedHeaders | app/services/attendee_service.py:56-61 | the reader's field names, each trimmed, stripped of a leading byte-order mark and lower-cased, in the same positions |
| AttendeeService.CandidateOf | app/services/attendee_service.py:73-76 | name and id are trimmed; the email is absent iff its cell is empty and trimmed otherwise; an empty role cell takes `default_role`, a present one is lower-cased |
| AttendeeService.Check | app/services/attendee_service.py:79-106 | a row passes iff it is well formed (non-empty, name at most 200, id at most 50), its id is neither reserved earlier nor stored, its email is empty or has '@' and 5 characters, and its role is student or management; it is an in-file duplicate iff well formed with a reserved id; already stored iff well formed, not reserved, stored |
| AttendeeService.Collect | app/services/attendee_service.py:65-121 | in collecting mode every record ends up either accepted or as an error |
| AttendeeService.SeenIsReservedIds | app/services/attendee_service.py:89-97 | the reserved set after the loop is the ids of all well-formed rows not stored in the club: an id is reserved before the email and role checks |
| AttendeeService.DuplicateInFileIff | app/services/attendee_service.py:89-97 | a row is an in-file duplicate iff it is well formed, its id is not stored, and an earlier well-formed row has the same id, even if that row failed its email or role check |
| AttendeeService.LastStep | app/services/attendee_service.py:65-121 | the last row is checked against the ids its predecessors reserved, and appending a row never changes an earlier row's verdict |
| AttendeeService.ErrorsAreProblems | app/services/attendee_service.py:115-121 | every collected error carries the number of a data row (header is row 1) and that row's reference verdict |
| AttendeeService.ErrorsInFileOrder | app/services/attendee_service.py:115-121 | collected errors appear in strictly increasing row order |
| AttendeeService.ProblemsAreErrors | app/services/attendee_service.py:115-121 | every row with a problem has its error collected |
| AttendeeService.CleanRowsAccepted | app/services/attendee_service.py:108-113 | every row without a problem is accepted |
| AttendeeService.AcceptedRowsClean | app/services/attendee_service.py:108-113 | every accepted row is a row of the file without a problem |
| AttendeeService.ValidRowsSound | app/services/attendee_service.py:79-113 | every accepted row passes every check, the accepted ids are pairwise distinct and not stored, and each is reserved |
| AttendeeService.ValidateRows | app/services/attendee_service.py:115-127 | with `skip_errors` the accepted rows and every error in order; without it success iff no row fails, and otherwise the first failing row |
| AttendeeService.ErrorsOnlyGrow | app/services/attendee_service.py:65-121 | the errors of a prefix of the file are a prefix of the errors of the whole file |
| AttendeeService.Validation | app/services/attendee_service.py:46-137 | no headers is the 400 refusal; accepted rows are well formed, unstored and have a valid role; with `skip_errors` accepted plus errors count every record; without it a success carries no errors |
| AttendeeService.ParseAndValidateCsv | app/services/attendee_service.py:20-137 | the method returns the `Validation` outcome: refusal iff no headers, the collected outcome with `skip_errors`, otherwise success iff no error and else the first rejected row |
| AttendeeService.StudentIdsIn | app/services/attendee_service.py:40-44 | the student ids of exactly the rows of one club |
| AttendeeService.StudentIdsAppend | app/services/attendee_service.py:40-44 | the club's ids in two concatenated tables are the union of each table's ids |
| AttendeeService.UploadAttendees | app/services/attendee_service.py:140-202 | an empty list inserts nothing and returns 0; otherwise the count is the list length and one row per attendee is appended after the existing ones, with the given id, the club, the attendee's fields, count 0 and the given import id; no other table changes |
| AttendeeService.UploadRows | app/services/attendee_service.py:151-162 | one record per accepted attendee, in order |
| AttendeeService.UploadRowsIds | app/services/attendee_service.py:151-162 | the inserted rows carry exactly the accepted student ids, all in the uploading club |
| AttendeeService.UploadAddsIds | app/services/attendee_service.py:140-202 | after an upload the club holds exactly its old ids plus the accepted ones |
| AttendeeService.SecondUploadAcceptsNothing | app/services/attendee_service.py:89-97 | once the accepted ids are stored, validating the same roster again accepts no row |
| TemplateSchema.ParseFieldType | app/schemas/template.py:13-19 | a parsed field type is the member whose value is exactly the input |
| TemplateSchema.FieldTypeRoundTrip | app/schemas/template.py:13-19 | every member's value parses back to that member |
| TemplateSchema.FieldTypeAccepts | app/schemas/template.py:13-19 | a type name is accepted iff it is one of name, student_id, achievement, date, custom |
| TemplateSchema.Choice | app/schemas/template.py:24-43 | an aliased field is absent iff none of its keys is present; otherwise it is the value under one of its keys |
| TemplateSchema.CanonicalKeyWins | app/schemas/template.py:26 | when both spellings are present the canonical key's value is used, not the alias's |
| TemplateSchema.AsString | app/schemas/template.py:39-45 | an absent string field takes its default; a present one validates iff it is a JSON string, and then is that string |
| TemplateSchema.AsInt | app/schemas/template.py:36-38 | an absent integer field takes its default; a present one validates iff it is a JSON integer, a boolean (as 0 or 1) or a string holding a signed decimal literal once stripped, and then is that value |
| TemplateSchema.ParseShowRoundTrip | app/schemas/template.py:36-38 | lax integer reading inverts decimal printing: any integer's decimal form, padded with whitespace, reads back as the integer |
| TemplateSchema.AsIntReadsDecimal | app/schemas/template.py:36-38 | a coordinate or font size sent as the string form of an integer, padded or not, is read as that integer |
| TemplateSchema.Bounded | app/schemas/template.py:36-38 | a value survives iff present and within its `ge`/`le` bounds, unchanged |
| TemplateSchema.ValidateDescriptor | app/schemas/template.py:22-45 | an accepted descriptor has field_name of 1..50 characters, x and y at least 0 and font_size in 8..200; a rejection names at least one field |
| TemplateSchema.Dump | app/schemas/template.py:22-45 | a dump has every field under its canonical name |
| TemplateSchema.DumpFields | app/schemas/template.py:22-45 | each dumped field holds the descriptor's value, the type as its enum value |
| TemplateSchema.DumpValidateRoundTrip | app/schemas/template.py:22-45 | validating the dump of a valid descriptor gives the same descriptor back |
| TemplateSchema.ValidateIdempotent | app/schemas/template.py:22-45 | re-validating the dump of an accepted object accepts the same descriptor |
| TemplateSchema.DescriptorDefaults | app/schemas/template.py:24-45 | an object spelling type and name with their aliases and giving only x and y takes font_size 40, colour "#000000", family "Arial" and align "left" |
| TemplateSchema.ValidateFromFields | app/schemas/template.py:22-45 | an object whose eight fields all read as those of a descriptor validates to it |
| TemplateSchema.ItemErrors | app/schemas/template.py:64 | a `text_fields` list has no item error iff every item is an object that validates; each error names an item position |
| TemplateSchema.Descriptors | app/schemas/template.py:64 | a list of valid items yields, position by position, their validated descriptors |
| TemplateSchema.ValidateCreate | app/schemas/template.py:59-64 | an accepted request has a template name of 1..100 characters and valid descriptors; an absent audience defaults to "student" and absent text fields to the empty list; a rejection names at least one field |
| TemplateService.DumpAll | app/services/template_service.py:72 | the stored list has one dumped descriptor per descriptor, in order |
| TemplateService.DumpAllRoundTrip | app/services/template_service.py:72 | each stored item of a list of valid descriptors validates back to its descriptor |
| TemplateService.CreateTemplate | app/services/template_service.py:31-115 | fails iff the club is missing (404) or the club has a template with the same name and audience (409, naming the template); otherwise appends one template with the fresh id, the request's name, image and audience, version 1, active, storing each descriptor's dump |
| TemplateService.GetTemplate | app/services/template_service.py:118-132 | 404 iff no template has the id; otherwise a stored template with that id |
| TemplateService.CreatedTemplateIsFound | app/services/template_service.py:31-132 | a created template is found under its fresh id, and its stored fields validate back to the request's descriptors |
| TemplateService.CreateTwiceConflicts | app/services/template_service.py:53-66 | repeating a creation with the same name and audience is the 409 naming it; the same name under another audience succeeds whenever it would have before |
| TemplateService.ListTotal | app/services/template_service.py:135-188 | 404 iff the club is missing; the total is at most the number of templates, and is 0 iff every template of the club is inactive while only active ones are counted |
| TemplateService.NextVersion | app/services/template_service.py:210 | a missing or zero version counts as 1, so the next version is 2; any other version is incremented |
| TemplateService.UpdateCoordinates | app/services/template_service.py:191-204 | 404 iff no template has the id |
| TemplateService.UpdateChangesOnlyCoordinates | app/services/template_service.py:206-224 | every row with the id gets the new stored fields, the next version and the update time and nothing else; every other row and table is unchanged |
| TemplateService.UpdateStep | app/services/template_service.py:191-237 | updating a template the lookup finds succeeds, and the lookup then sees the new fields, the next version, and the same image, name, audience, club and active flag |
| TemplateService.UpdateKeepsFirst | app/services/template_service.py:191-237 | the row the lookup finds after an update is the update of the row it found before |
| TemplateService.DeactivateTemplate | app/services/template_service.py:240-259 | 404 iff no template has the id; otherwise the rows with the id become inactive with the new update time, and every other row and table is unchanged |
| TemplateService.DeactivateActiveTotal | app/services/template_service.py:151-155 | after deactivation the club's active total counts exactly its active templates with another id |
| TemplateService.LatestGeneration | app/services/template_service.py:305-308 | `MAX(generated_at)`: absent iff there are no generations, otherwise the time of one of them and at least every other's |
| TemplateService.TemplateStats | app/services/template_service.py:283-314 | 404 iff the template is unknown; otherwise the number of its generations, and a last-used time absent iff that number is 0 and no earlier than any of them |
| ClubService.CreateClub | app/services/club_service.py:16-66 | fails iff the lower-cased slug or the contact e-mail (compared as given) is taken, always with 409: the reason naming the slug as given iff the slug is taken, else the one naming the e-mail; otherwise appends one active club with the fresh id, the request's name and e-mail and the lower-cased slug, changing no other table |
| ClubService.GetClubBySlug | app/services/club_service.py:86-100 | 404 iff no active club has the lower-cased input as its slug; otherwise such a stored club |
| ClubService.CreatedClubIsFound | app/services/club_service.py:16-100 | a created club is what the slug lookup returns, for any spelling of the slug with the same lower-case form |
| ClubService.SecondCreateConflicts | app/services/club_service.py:20-29 | creating a second club whose slug differs only in letter case is the slug conflict, naming the second request's slug |
| ClubService.SetClubActive | app/services/club_service.py:181-199 | 404 iff no club has the id; otherwise exactly the rows with the id get the new flag and time and nothing else changes |
| ClubService.DeactivateClub | app/services/club_service.py:178-206 | 404 iff no club has the id; afterwards every club row with the id is inactive |
| ClubService.DeactivatedClubHidden | app/services/club_service.py:86-100 | after deactivation no slug lookup returns the club |
| ClubService.ListTotal | app/services/club_service.py:107-112 | the total is at most the number of clubs, and with `active_only` it is 0 iff no club is active |
| ClubService.DeactivateActiveTotal | app/services/club_service.py:107-112 | after deactivating a club the active total counts exactly the active clubs with another id |
| ClubService.PlatformAnalytics | app/services/club_service.py:209-231 | total and active counts are the two list totals, and `inactive_clubs`, total minus active, is the number of inactive clubs, so it is between 0 and the total |
| CertificateService.GetClubBySlugAsWritten | app/services/certificate_service.py:27-37 | the slug lookup as written: 404 iff no active club has exactly the given slug, otherwise such a club |
| CertificateService.CapitalisedSlugMissed | app/services/certificate_service.py:27-31 | with lower-case stored slugs, a slug typed with a capital misses an active club that the club service's lower-casing lookup finds |
| CertificateService.FindAttendee | app/services/certificate_service.py:40-72 | 404 iff no attendee has the club, the exact student id, the name ignoring case and, when a non-empty role is given, that role; otherwise such an attendee |
| CertificateService.NameCaseIgnored | app/services/certificate_service.py:40-72 | names that differ only in letter case find the same attendee |
| CertificateService.RoleOnlyNarrows | app/services/certificate_service.py:46-66 | a match with a role given is also a match without one |
| CertificateService.FindAttendeeAnyClub | app/services/certificate_service.py:75-114 | 404 iff no attendee of an active club matches id, name ignoring case and role; otherwise a match updated no earlier than any other match |
| CertificateService.AnyClubAgreesWithClubLookup | app/services/certificate_service.py:40-114 | the cross-club answer is also found by the in-club lookup of its own club |
| CertificateService.ResolveTemplate | app/services/certificate_service.py:117-157 | the result is an active template of the club; with an explicit id it succeeds iff that id names one, with only the attendee's id likewise for it, with neither iff an active template fits the audience, and then it is the most recently updated one; a miss in the chosen tier is 404 with no fall-through |
| CertificateService.CertificateIdParts | app/services/certificate_service.py:346 | the id is "CERT-", the upper-cased slug, a dash and the student id, at known positions |
| CertificateService.CertificateIdDeterminesStudent | app/services/certificate_service.py:346 | for one slug, equal certificate ids mean equal student ids |
| CertificateService.CertificateIdIgnoresSlugCase | app/services/certificate_service.py:346 | slugs that differ only in letter case give the same certificate id |
| CertificateService.RecordGenerationAsWritten | alembic/versions/b7f2f1d9c9a2_add_activity_logs_and_generation_constraints.py:45-68 | the generation insert fires the counting trigger and the service then updates the same attendee row again; only the generations and attendees tables change |
| CertificateService.AsWrittenCountsTwice | app/services/certificate_service.py:347-374 | with both writers, an attendee whose counter matched its generation records before reads one more than its records afterwards, so the ledger is no longer exact |
| CertificateService.RecordGeneration | app/services/certificate_service.py:364-374 | one writer: the issued attendee's counter is `(count or 0) + 1`, its first-generated time kept when set and otherwise set, its last-generated time now and its template the one used; every other row is unchanged |
| CertificateService.RecordKeepsLedgerExact | app/services/certificate_service.py:347-374 | with one writer every attendee's counter stays equal to its number of generation records |
| CertificateService.TargetFor | app/services/certificate_service.py:244-286 | without an event, exactly the in-club lookup with the caller's template; with one, an active event with that id and an attendee of the club, the event's import and role, with the event's date and name and the event's template; every failure is 404 |
| CertificateService.GenerateAsWritten | app/services/certificate_service.py:233-374 | the handler as written: every failure the model covers is 404, and no active club with exactly the asked slug means failure; a success issues the certificate id of the slug and student id for an attendee of that club, uses an active template of the club, appends one generation with those values, raises the attendee's counter by two (trigger and update), and lays out one text per stored descriptor |
| CertificateService.Generate | app/services/certificate_service.py:233-374 | the corrected handler: the same outcome (every failure the model covers is 404), except that the club is looked up by its lower-cased slug and the attendee's counter rises by one |
| CertificateService.EventOverridesRequest | app/services/certificate_service.py:244-279 | with an event, the template, role, import and date used are the event's, whatever the request named |
| CertificateService.GenerateAsWrittenBreaksLedger | app/services/certificate_service.py:346-374 | as written, issuing from an exact ledger leaves the issued attendee's counter out of step with its generation records |
| CertificateService.GenerateKeepsLedgerExact | app/services/certificate_service.py:346-374 | the corrected issuance keeps every attendee's counter equal to its number of generation records |
| CertificateService.GenerateAgreesBeyondLedger | app/services/certificate_service.py:233-374 | with slugs stored lower-case, whatever the handler as written issues the corrected one issues identically, differing only in the attendees' counters |
| CertificateRender.FieldTypeText | app/services/certificate_service.py:328 | the type text read from a stored descriptor is lower-case |
| CertificateRender.FieldValue | app/services/certificate_service.py:203-217 | an unknown type prints ""; an achievement prints "" only when course and both event names are empty; a custom field prints its `field_name` when that is non-empty |
| CertificateRender.FieldTypeTextOfDump | app/services/certificate_service.py:328 | a stored descriptor is read back as its own type |
| CertificateRender.StoredDescriptorValue | app/services/certificate_service.py:203-217 | a stored descriptor prints the name, the student id, the event date or else today, the first non-empty of course, attendee event and template event, or its own label, by type |
| CertificateRender.AlignedX | app/services/certificate_service.py:220-230 | empty text and any alignment other than center or right (ignoring case, absent counting as left) keep x; right ends the text at x; center starts it half its width, rounded down, left of x |
| CertificateRender.AlignmentIgnoresCase | app/services/certificate_service.py:223 | alignment names that differ only in letter case align alike |
| CertificateRender.PairValue | app/services/certificate_service.py:178 | two hex digits give their byte value; any accepted pair, a sign included, lies in -15..255 |
| CertificateRender.RgbOfBody | app/services/certificate_service.py:175-180 | six hex digits give the three byte values they spell |
| CertificateRender.HexToRgb | app/services/certificate_service.py:171-180 | empty input or a body that is not six characters after trimming and dropping '#' gives black; otherwise the colour of the body |
| CertificateRender.HexRoundTrip | app/services/certificate_service.py:171-180 | parsing the `#rrggbb` spelling of a byte colour gives the colour back |
| CertificateRender.ByteBodyRoundTrip | app/services/certificate_service.py:175-180 | six hex digits of three bytes parse back to those bytes |
| CertificateRender.SignedColorIsNotAByte | app/services/certificate_service.py:178 | `int` accepts a sign, so "-f" and four hex digits give a negative red component: no 0..255 bound holds in general |
| CertificateRender.Layout | app/services/certificate_service.py:327-340 | one placement per stored descriptor, in order |
| CertificateRender.StoredLeftDescriptorPlacement | app/services/certificate_service.py:327-340 | a stored left-aligned descriptor is drawn at its own coordinates, in its own colour when that is spelled `#rrggbb` |
| AdminImports.CheckQuota | app/routes/admin.py:99-125 | refused with the 400 quota message exactly when the club's used bytes plus the new bytes exceed 100 MiB; otherwise the used bytes |
| AdminImports.RecordCharges | app/routes/admin.py:664-681 | an import record adds its file size to its own club's used bytes and nothing to any other club's |
| AdminImports.DefaultRole | app/routes/admin.py:456-459 | one row per row; a row with a non-empty role is untouched, any other row takes the form's role, and no other cell changes |
| AdminImports.DefaultRoleKeepsIds | app/routes/admin.py:456-459 | defaulting roles keeps the set of student ids and keeps every row's id non-empty |
| AdminImports.RoleOr | app/routes/admin.py:519 | never empty; it is the row's role exactly when that role is present and non-empty |
| AdminImports.StoredRoleAfterDefault | app/routes/admin.py:456-459 | with a non-empty form role, the stored role is the row's own when it had one and the form's otherwise |
| AdminImports.ParsedRowsHaveIds | app/services/csv_parser.py:73-82 | every row an accepted parse returns carries a non-empty student id |
| AdminImports.StoredIds | app/services/csv_parser.py:98-107 | the ids the duplicate query reads are exactly the student ids of the club's attendees, narrowed to the template when one is given |
| AdminImports.ImportRecords | app/routes/admin.py:510-521 | one record per new row, in order, with consecutive fresh ids |
| AdminImports.ImportRecordsIds | app/routes/admin.py:510-552 | the inserted records are in scope and carry exactly the rows' student ids |
| AdminImports.ImportCore | app/routes/admin.py:499-552 | only the attendees table changes, and not at all when no row is new |
| AdminImports.ImportCoreSplit | app/routes/admin.py:499-552 | every row is counted once as new or duplicate, and the new rows have distinct ids none of which was stored in scope |
| AdminImports.InsertStoresIds | app/routes/admin.py:510-552 | inserting records adds exactly the rows' ids to those stored in scope |
| AdminImports.NewIdsComplete | app/services/csv_parser.py:109-122 | the stored ids together with the new rows' ids are the stored ids together with all the rows' ids |
| AdminImports.ImportCoreStoresEveryId | app/routes/admin.py:499-552 | after an import the ids stored in scope are the previous ones plus every id of the rows |
| AdminImports.ParseFile | app/routes/admin.py:611 | accepted exactly when the parser accepts, with its rows, each carrying an id; a parser refusal is a 400 |
| AdminImports.ImportAccepted | app/routes/admin.py:613-686 | templates and clubs are unchanged, and nothing is written when no row is new |
| AdminImports.ImportAcceptedAccounts | app/routes/admin.py:613-686 | imported plus duplicates is the number of rows, and the file's size is charged to the club exactly when something was imported |
| AdminImports.ImportAcceptedStoresEveryId | app/routes/admin.py:613-660 | afterwards every id of the rows is stored in scope, and no other id was added |
| AdminImports.ImportAcceptedTwice | app/routes/admin.py:618-625 | accepting the same rows again writes nothing and reports every row as a duplicate |
| AdminImports.FileRows | app/routes/admin.py:611-616 | as many rows as the parser returned, with the same ids, each non-empty |
| AdminImports.ImportFile | app/routes/admin.py:554-688 | role not student or management: 400; template not in the club: 403; over quota: 400; a parser refusal: 400; in that order, and accepted exactly when none applies, with the template-scoped import recorded with the file's size |
| AdminImports.ImportFileAccounts | app/routes/admin.py:554-688 | every parsed row is counted once, the file is charged exactly when something is imported, and the club stays within its quota |
| AdminImports.ImportFileStoresEveryId | app/routes/admin.py:554-688 | afterwards the template holds every student id of the file |
| AdminImports.ImportFileTwice | app/routes/admin.py:618-625 | importing the same file for the same template again imports nothing and changes nothing |
| AdminImports.ImportSimple | app/routes/admin.py:690-800 | role 400, quota 400, parser 400, and otherwise the club-wide import, recorded under the batch name or else the file name |
| AdminImports.ImportSimpleAccounts | app/routes/admin.py:690-800 | every parsed row counted once, the club holds every id of the file afterwards, charged exactly when something is imported, within quota |
| AdminImports.ScopedIdsWithinClub | app/services/csv_parser.py:93-145 | the club-wide duplicate query sees every id the template-scoped one sees |
| AdminImports.PreviewFile | app/routes/admin.py:435-471 | template not in the club: 403; accepted exactly when the parser accepts; the payload is the new rows of the template-scoped split, and the preview is its first 50 |
| AdminImports.PreviewPredictsImport | app/routes/admin.py:435-688 | the preview's counts add up to the file's rows, its payload has distinct unstored ids, and import-file on the same database reports the same counts and inserts exactly the payload |
| AdminImports.ImportPayload | app/routes/admin.py:474-552 | template not in the club: 403; a payload that is not a list: 400; no import record is written; a payload without ids is all duplicates |
| AdminImports.FreshRowsAllNew | app/services/csv_parser.py:109-122 | rows with distinct ids none of which is stored are all new |
| AdminImports.PayloadOfPreviewImportsAll | app/routes/admin.py:435-552 | submitting the preview's payload right away imports all of it with no duplicates |
| AdminImports.FreshIds | app/routes/admin.py:513 | one fresh id per row |
| AdminImports.ValidateFile | app/routes/admin.py:318-323 | accepted exactly when the validating parser accepts against the club's stored ids, with its outcome |
| AdminImports.UploadValid | app/routes/admin.py:325-337 | the counts are the inserted rows, the refused rows and their sum; the club's stored ids grow by exactly the accepted ids; imports and templates unchanged |
| AdminImports.UploadCsv | app/routes/admin.py:292-337 | accepted exactly when validation accepts; with skip_errors every data record is counted as processed; no import record |
| AdminImports.UploadFileRecording | app/routes/admin.py:340-433 | role 400, then quota 400, then validation; when accepted the used bytes grow by exactly the size written on the record and every record is counted with skip_errors |
| AdminImports.UploadFileAsWritten | app/routes/admin.py:408-421 | an accepted upload leaves the club's used bytes unchanged |
| AdminImports.UploadFile | app/routes/admin.py:340-433 | an accepted upload charges the file's size and leaves the club within its quota |
| AdminImports.UploadFileEscapesQuota | app/routes/admin.py:362-421 | as written, an empty club accepts two full-quota files in a row and still uses 0 bytes; with the size recorded the second is refused with the quota 400 |
| AdminImports.UploadTemplate | app/routes/admin.py:76-154 | audience not student or management: 400; over quota: 400; `text_fields` that do not decode: 400 "Invalid text_fields JSON"; a name outside 1..100 characters (or any other failed request validation): unhandled, 500; an accepted template has the given id, club, name, image URL and audience, is active at version 1, and stores the dump of each decoded descriptor, none when `text_fields` is empty |
| AdminImports.UploadTemplateCharges | app/routes/admin.py:99-154 | with a fresh id, an accepted template charges exactly the image's size and leaves the club within its quota |
| AdminImports.UploadTemplateStoresDumps | app/routes/admin.py:132-143 | descriptors sent as their own dumps are stored as exactly those dumps |
| ImportReader.SplitOn | app/routes/admin.py:873 | at least one part, none containing the separator |
| ImportReader.SplitJoin | app/routes/admin.py:873 | joining the parts with the separator gives the line back |
| ImportReader.JoinSplit | app/routes/admin.py:873 | splitting a join of separator-free parts gives the parts back |
| ImportReader.Remove | app/routes/admin.py:872 | the character is gone and every other character is kept |
| ImportReader.Headers | app/routes/admin.py:872-873 | one header per comma-separated part, trimmed and lower-cased, none with a comma |
| ImportReader.NormalizeKeyChars | app/routes/admin.py:877-878 | the normal form keeps exactly the characters that are not a space, underscore or hyphen |
| ImportReader.NormalizeKeyIdempotent | app/routes/admin.py:877-878 | normalizing twice is normalizing once |
| ImportReader.MappedHeader | app/routes/admin.py:880 | none exactly when no header has the key's normal form; otherwise the last header that has it |
| ImportReader.FirstUsable | app/routes/admin.py:888-894 | "" exactly when no value is usable; otherwise the first usable value |
| ImportReader.StudentIdFrom | app/routes/admin.py:887-894 | empty exactly when no alias yields a non-empty value; otherwise the value of the first alias that does |
| ImportReader.FirstCell | app/routes/admin.py:900-901 | "" exactly when every listed cell is empty; otherwise the first non-empty one |
| ImportReader.ShowRow | app/routes/admin.py:896-904 | name, email and course trimmed; the role is never empty |
| ImportReader.ShowRows | app/routes/admin.py:885-904 | at most `limit` rows, the i-th shown from the i-th data record |
| ImportReader.FindImport | app/routes/admin.py:842-852 | none exactly when no import has that id in the caller's club; otherwise such an import |
| ImportReader.ReadImportRows | app/routes/admin.py:829-906 | limit outside 1..200: 422; import not in the club: 404; no stored path, or a local file that is missing: 404 "CSV file not found"; a URL the storage service cannot fetch: 404 "Stored file not found"; success shows at most `limit` rows; an empty file shows none; otherwise the header comes from the first line and the rows from the records after it |
| ImportReader.SpellingsMatch | app/routes/admin.py:877-891 | two spellings with the same normal form match the same header |
| ImportReader.SeparatedSpellingsMatch | app/routes/admin.py:877-891 | two words joined by a space, underscore or hyphen match the same header as the words written together |
| Platform.DeleteGenerations | app/routes/platform.py:191 | only generations change, and exactly those of other clubs are kept |
| Platform.DeleteEvents | alembic/versions/b1d2c3e4f5a6_add_certificate_events_and_attendee_import_id.py:33-58 | refused with the integrity error, or only events change and exactly those of other clubs are kept |
| Platform.DeleteLogs | app/routes/platform.py:193 | only activity logs change, and exactly those not of the club are kept |
| Platform.DeleteAttendees | alembic/versions/180e46c592d8_create_all_initial_tables.py:112-125 | the club's attendees go, and the generations of a deleted attendee go with them; nothing else changes |
| Platform.DeleteImports | alembic/versions/b1d2c3e4f5a6_add_certificate_events_and_attendee_import_id.py:20-37 | refused with the integrity error, or only imports change and exactly those of other clubs are kept |
| Platform.DeleteTemplates | alembic/versions/180e46c592d8_create_all_initial_tables.py:82-124 | refused with the integrity error, or only templates change and exactly those of other clubs are kept |
| Platform.DeleteAdmins | alembic/versions/b7f2f1d9c9a2_add_activity_logs_and_generation_constraints.py:31-32 | refused with the integrity error, or the club's administrators go and every log keeps its place with its reference to a deleted administrator cleared |
| Platform.DeleteClubRow | alembic/versions/180e46c592d8_create_all_initial_tables.py:60-124 | refused with the integrity error, or exactly the other clubs are kept |
| Platform.Cascade | alembic/versions/180e46c592d8_create_all_initial_tables.py:60-124 | refused with the integrity error, or exactly the other clubs are kept |
| Platform.DeleteFromLogs | app/routes/platform.py:193-203 | the only error a statement raises is the integrity error |
| Platform.AsWrittenStatements | app/routes/platform.py:189-203 | the only error a statement raises is the integrity error |
| Platform.Statements | app/routes/platform.py:189-203 | the only error a statement raises is the integrity error |
| Platform.Answer | app/routes/platform.py:182-205 | 404 with nothing deleted exactly when no club has the id; a success names a club with that id |
| Platform.DeleteClubAsWritten | app/routes/platform.py:175-205 | 404 with nothing deleted exactly when no club has the id |
| Platform.DeleteClub | app/routes/platform.py:175-205 | 404 with nothing deleted exactly when no club has the id |
| Platform.StepEvents | alembic/versions/b1d2c3e4f5a6_add_certificate_events_and_attendee_import_id.py:33-58 | once the club's generations are gone its events can be deleted, given that references stay within a club |
| Platform.StepImports | alembic/versions/b1d2c3e4f5a6_add_certificate_events_and_attendee_import_id.py:20-37 | once the club's events and attendees are gone its imports can be deleted |
| Platform.StepTemplates | alembic/versions/180e46c592d8_create_all_initial_tables.py:103-124 | once the club's attendees, generations and events are gone its templates can be deleted |
| Platform.StepAdmins | alembic/versions/180e46c592d8_create_all_initial_tables.py:82-105 | once the club's templates and attendees are gone its administrators can be deleted |
| Platform.StepClubs | alembic/versions/180e46c592d8_create_all_initial_tables.py:60-124 | once every other row of the club is gone the club row can be deleted |
| Platform.DeleteClubRemovesEveryRow | app/routes/platform.py:175-205 | with references kept within a club, the corrected delete succeeds exactly when the club exists, and then the club's rows are gone from every table and every row of another club is kept |
| Platform.EventBlocksDelete | app/routes/platform.py:189-203 | as written, a club with an event over one of its imports cannot be deleted: the delete fails at `attendee_imports` after the club's generations, logs and attendees are already gone, while the club, its imports and its events remain |
| Platform.AsWrittenAgreesWithoutEvents | app/routes/platform.py:189-203 | for a club without events the handler as written and the corrected one do exactly the same |
| Platform.ReactivateClub | app/routes/platform.py:155-171 | 404 exactly when no club has the id; otherwise that club is active and every other row is unchanged |
| Platform.ReactivateUndoesDeactivate | app/routes/platform.py:155-171 | deactivating an active club and then reactivating it gives back the same database, apart from the club's `updated_at` |
| Platform.ActivateAdmin | app/routes/platform.py:219-238 | 404 exactly when no administrator has the id; otherwise the rows with that id are active and nothing else changes |
| Platform.ResetPassword | app/routes/platform.py:242-275 | 404 exactly when no administrator has the id; otherwise the answer is that administrator's e-mail and the temporary password, and the rows with that id get its hash and must change it, nothing else changing |
| Auth.FindAccount | app/routes/auth.py:49-106 | a platform administrator when one has the e-mail, otherwise a club administrator with it, and none exactly when neither table has it; the account carries that e-mail |
| Auth.Login | app/routes/auth.py:37-149 | 403 exactly when the account found is inactive, sending platform accounts to support and club accounts to their club owner; 401 exactly when no account is found or the password does not verify; otherwise the session of the first row with the e-mail, with a club id exactly for club administrators and its `must_change_password` |
| Auth.StoredHash | app/routes/auth.py:175-186 | none exactly when the token's table has no row with the e-mail |
| Auth.ChangePassword | app/routes/auth.py:153-213 | mismatch 400 exactly when the passwords differ; too-short 400 exactly when they agree and have fewer than 8 characters; accepted exactly when in addition a row exists and the current password verifies; then every row of that table with the e-mail gets the new hash and no longer must change it, and nothing else changes |
| Auth.LoginAfterChange | app/routes/auth.py:37-213 | after a password change an active account logs in with the new password and is no longer asked to change it |
| Auth.LoginAfterPlatformChange | app/routes/auth.py:49-94 | a platform administrator whose rows got a hash the password verifies logs in with it |
| Auth.LoginAfterClubChange | app/routes/auth.py:97-143 | a club administrator whose rows got a hash the password verifies logs in with it |
| Auth.LoginAfterActivation | app/routes/platform.py:219-238 | a club administrator reactivated by the platform logs in again with the password it had |
| Auth.LoginAfterReset | app/routes/platform.py:242-275 | after a reset the administrator logs in with the temporary password and is told to change it |

## Left out

- Storage and network I/O: uploads to and fetches from the storage bucket, the template image fetch, local file reads, and e-mail. A file arrives as its tokenized text, its size and the URL the bucket returned; a stored file to re-read arrives as its lines and records, or as missing.
- SQL execution, the `databases` driver and the ORM models. Tables are sequences of rows; `fetch_one` is the first matching row.
- Each statement of the permanent delete is modelled as committing on its own. The cascades of `ON DELETE CASCADE` and `SET NULL` are modelled table by table, in the order of the schema's foreign keys, not as the database's single statement-level check.
- Image and PDF work: PIL decoding and drawing, font loading (`_load_font`), `img2pdf`, and `app/services/image_optimizer.py`. The width of a rendered text is a parameter, and `Layout` stops at the list of texts with their positions and colours.
- CertificateRender.FieldValue: the `date` field's `strftime` formatting is a parameter, and the JSON decoding of a template's stored `text_fields` (`_parse_text_fields`) is not modelled; descriptors are read as structured values.
- JSON text decoding: the `json.loads` of the template upload's `text_fields` is the parameter `decode` of `AdminImports.UploadTemplate`, returning no value for malformed text.
- CertificateService.GenerateAsWritten / CertificateService.Generate: the template image fetch and decode (certificate_service.py:297-321) are not modelled. Nor is the width of `certificate_generations.certificate_id`, which is String(100) in alembic/versions/180e46c592d8_create_all_initial_tables.py:118. The id `"CERT-" + upper(slug) + "-" + student_id` reaches 106 characters with a 50-character slug and a 50-character student id, and 101 characters already with a 45-character slug. An id over 100 characters makes the generation insert at certificate_service.py:347-362 raise after rendering. Nothing catches that, so the system answers 500. Both models answer Ok and append the generation instead. Outside development, a fetch that does not answer 200 and an image PIL cannot open both answer 400 "Invalid template image: …" in the system, and neither model has that 400. In development the system draws on a blank 1200×800 image instead, and that fallback is not modelled either.
- AdminImports.ImportRecord / AdminImports.UploadValid: the attendee column widths are not modelled. The widths are `name` String(200), `student_id` String(50), `email` String(255) and `course` String(100) (alembic/versions/180e46c592d8_create_all_initial_tables.py:92-95). The three roster imports (`ImportFile`, `ImportSimple`, `ImportPayload`) bound no cell. A wider cell makes their attendee insert raise, so the system answers 500 and writes no attendees. The models store the row, and `ImportFileStoresEveryId`, `ImportSimpleAccounts` and the other lemmas about those imports speak of that stored row. The validating uploads (`UploadCsv`, `UploadFileRecording`) bound only the name (200) and the student id (50). An e-mail over 255 characters or a course over 100 ends in the 500 "Failed to insert attendees: …" of attendee_service.py:204-207, where `UploadValid` inserts the row.
- AdminImports.ImportPayload: the decoded `attendees_json` is taken to be a list of objects with string `name`, `student_id`, `email` and `course` and an optional `role`. Three behaviours of the system are not modelled. A list item that is not an object fails at `a.get` with a 500. An item with an id but no name fails the NOT NULL insert with a 500, where the model stores "". An item without `email` or `course` stores NULL, where the model stores an empty string.
- bcrypt, JWT creation and decoding, `secrets` and random password generation: `verify`, `hash` and the temporary password are parameters.
- The `last_login`, `password_changed_at`, `created_at` and `updated_at` stamps that only record the time, except where an operation's result depends on them: template and attendee ordering, and the generation ledger.
- Platform.ResetPassword: the answer omits the administrator's `full_name`, which no property uses.
- The activity log service and the logging calls whose failures are swallowed. Activity log rows exist only so that the delete cascade over them can be modelled.
- `app/services/admin_service.py`: `deactivate_admin`, aggregate counts, random passwords and e-mail.
- Pydantic's `EmailStr` check on request bodies, and FastAPI's own 422 answers for malformed bodies. The one 422 modelled is the bound on the import-rows `limit`.
- Ids are uuids, so no id is ever the empty string. The Python truthiness of an empty id (`if template_id:`) is not modelled.
- Concurrency between requests: the read-then-insert duplicate check and the quota check are not atomic in the system. The model runs one request at a time.
- Unicode case folding and digits: `Lower` and `Upper` fold ASCII letters only, where Python's `str.lower()` and `str.upper()` fold every cased letter; and `CertificateRender.PairValue` reads ASCII hexadecimal digits only, where Python's `int(p, 16)` also accepts any other Unicode decimal digit.
- The upload of a template through `POST /templates` with a JSON body performs no quota or audience check. Only `POST /templates/upload`, which does, is modelled (`AdminImports.UploadTemplate`), together with `TemplateService.CreateTemplate`, which both call.
- AdminImports.UploadFileAsWritten: models the import record as written with size 0. If the driver instead refuses the unused `file_size_bytes` parameter, the handler swallows the failure and writes no record. The quota sees 0 bytes either way.
- The HTTP 401 answers for a token without a club, which the dependency layer decides.
- TemplateSchema.AsInt: reads the lax-mode integer forms a decoded JSON body can carry as integers, booleans and sign-and-digit strings; digit strings with `_` separators or a `.0` tail, floats with no fractional part, and the 4300-digit limit are not modelled, because the model's decoded JSON value has no float case and those string forms are rare refinements of the same rule.

## Findings

| source | as written | input that shows it | evidently intended | confidence | as-written member | corrected member |
|---|---|---|---|---|---|---|
| app/services/certificate_service.py:27-31 | the certificate slug lookup compares the slug as given, while club creation stores slugs lower-cased | an active club stored with slug "robotics", asked for as "Robotics": 404 | lower-case the slug before comparing, as `ClubService.GetClubBySlug` does | high, not executed | CertificateService.GetClubBySlugAsWritten, CertificateService.CapitalisedSlugMissed, CertificateService.GenerateAsWritten | ClubService.GetClubBySlug, ClubService.CreatedClubIsFound, CertificateService.Generate, CertificateService.GenerateAgreesBeyondLedger |
| alembic/versions/b7f2f1d9c9a2_add_activity_logs_and_generation_constraints.py:45-68 | a trigger on `certificate_generations` increments the attendee's counter, and the service's `UPDATE` after the insert increments it again | an attendee with count 0 and no generation records gets one certificate: its count reads 2 against 1 record | one writer, so the counter equals the attendee's number of generation records | high, not executed | CertificateService.RecordGenerationAsWritten, CertificateService.AsWrittenCountsTwice, CertificateService.GenerateAsWritten, CertificateService.GenerateAsWrittenBreaksLedger | CertificateService.RecordGeneration, CertificateService.RecordKeepsLedgerExact, CertificateService.Generate, CertificateService.GenerateKeepsLedgerExact |
| app/routes/platform.py:189-203 | the permanent delete never deletes the club's `certificate_events`, which reference its `attendee_imports` with no cascade | a club with one import and one event over that import: the `attendee_imports` delete fails after generations, logs and attendees are already gone | delete the club's events after its generations and before its imports and templates | high, not executed | Platform.DeleteClubAsWritten, Platform.EventBlocksDelete | Platform.DeleteClub, Platform.DeleteClubRemovesEveryRow |
| app/routes/admin.py:408-421 | the upload-file import record is inserted without `file_size_bytes`, so the file is never charged to the storage quota | a club using 0 bytes uploads two files of 100 MiB each: both are accepted and it still uses 0 bytes | record the file's size, as import-file and import-simple do | high, not executed | AdminImports.UploadFileAsWritten, AdminImports.UploadFileEscapesQuota | AdminImports.UploadFile, AdminImports.UploadFileEscapesQuota |

=== FILE: admin_imports.dfy ===
/** The roster and template upload handlers of `app/routes/admin.py`: the per-club storage
    quota, the role, audience and template gates, role defaulting, the new/duplicate split,
    and the attendee rows and import records each handler writes. An uploaded file arrives
    tokenized (`Table`) together with its size in bytes and the URL the storage bucket
    returned for it; the bucket itself is not modelled. Fresh row ids are drawn from a
    caller-supplied `firstId` upwards, standing in for `uuid4()`. */
module AdminImports {
  import opened Wrappers
  import opened Text
  import opened Seqs
  import opened CsvTable
  import opened CsvParser
  import opened Dedup
  import AttendeeService
  import opened Store
  import TemplateSchema
  import TemplateService

  // ---------------------------------------------------------------------------
  // Failures

  /** Why a handler refuses: an explicit `HTTPException`, or one of the 400s raised inside
      `parse_attendee_csv` or `parse_and_validate_csv`. */
  datatype ImportError =
    | Http(e: HttpError)
    | BadCsv(p: ParseError)
    | BadRows(r: AttendeeService.Refusal)

  /** The status code of a refusal: every parser refusal is a 400. */
  function Status(e: ImportError): (s: int)
    ensures !e.Http? ==> s == BadRequest
  {
    if e.Http? then e.e.status else BadRequest
  }

  const QuotaExceeded := "Storage limit exceeded (100 MB per club)."
  const BadRole := "Role must be student or management"
  const BadAudience := "Audience must be student or management"
  const TemplateDenied := "Template not found or access denied"
  const BadPayload := "Invalid attendees payload"
  const BadTextFields := "Invalid text_fields JSON"
  /** The answer to an exception no handler catches. */
  const Unhandled := "Internal Server Error"

  // ---------------------------------------------------------------------------
  // The storage quota

  /** 100 MiB per club, over template images and roster files together. */
  const MaxBytes: nat := 100 * 1024 * 1024

  function TemplateSize(clubId: Id): Template -> nat {
    (t: Template) => if t.clubId == clubId then t.imageBytes else 0
  }

  function ImportSize(clubId: Id): ImportBatch -> nat {
    (b: ImportBatch) => if b.clubId == clubId then b.fileBytes else 0
  }

  /** `used_bytes`: the image sizes of the club's templates plus the file sizes of its
      import records (`COALESCE(SUM(..), 0)` makes an empty table count 0). */
  function UsedBytes(db: Db, clubId: Id): nat {
    Sum(db.templates, TemplateSize(clubId)) + Sum(db.imports, ImportSize(clubId))
  }

  /** The quota gate: refused with 400 exactly when the new bytes would take the club past
      the limit; filling it exactly is allowed. On success it yields the bytes in use. */
  function CheckQuota(db: Db, clubId: Id, size: nat): (r: Result<nat, ImportError>)
    ensures r.Ok? <==> UsedBytes(db, clubId) + size <= MaxBytes
    ensures r.Ok? ==> r.value == UsedBytes(db, clubId)
    ensures r.Err? ==> r.error == Http(HttpError(BadRequest, QuotaExceeded))
  {
    var used := UsedBytes(db, clubId);
    if used + size > MaxBytes then Err(Http(HttpError(BadRequest, QuotaExceeded))) else Ok(used)
  }

  /** Appending an `attendee_imports` row. */
  function Record(db: Db, b: ImportBatch): Db {
    db.(imports := db.imports + [b])
  }

  /** An import record is charged to its own club and to no other. */
  lemma RecordCharges(db: Db, b: ImportBatch, clubId: Id)
    ensures UsedBytes(Record(db, b), clubId) == UsedBytes(db, clubId) + (if b.clubId == clubId then b.fileBytes else 0)
  {
    SumAppend(db.imports, [b], ImportSize(clubId));
    assert Sum([b], ImportSize(clubId)) == ImportSize(clubId)(b) + Sum([b][1..], ImportSize(clubId));
  }

  // ---------------------------------------------------------------------------
  // Role defaulting and the rows an import writes

  /** A row whose role cell is present and non-empty (Python-truthy). */
  predicate HasRole(r: Row) {
    r.role.Some? && r.role.value != ""
  }

  /** The loop `if not row.get("role"): row["role"] = role`: a row without a truthy role takes
      the form's role; nothing else about any row changes. */
  function DefaultRole(rows: seq<Row>, role: string): (rs: seq<Row>)
    ensures |rs| == |rows|
    ensures forall i :: 0 <= i < |rows| ==> rs[i].(role := rows[i].role) == rows[i]
    ensures forall i :: 0 <= i < |rows| && HasRole(rows[i]) ==> rs[i] == rows[i]
    ensures forall i :: 0 <= i < |rows| && !HasRole(rows[i]) ==> rs[i].role == Some(role)
  {
    seq(|rows|, i requires 0 <= i < |rows| => if HasRole(rows[i]) then rows[i] else rows[i].(role := Some(role)))
  }

  /** Defaulting roles touches no student id. */
  lemma DefaultRoleKeepsIds(rows: seq<Row>, role: string)
    ensures Ids(DefaultRole(rows, role)) == Ids(rows)
    ensures AllIds(rows) ==> AllIds(DefaultRole(rows, role))
  {
    var rs := DefaultRole(rows, role);
    forall x | x in Ids(rs) ensures x in Ids(rows) {
      var r :| r in rs && Sid(r) == x;
      var i :| 0 <= i < |rs| && rs[i] == r;
      assert rows[i] in rows;
    }
    forall x | x in Ids(rows) ensures x in Ids(rs) {
      var r :| r in rows && Sid(r) == x;
      var i :| 0 <= i < |rows| && rows[i] == r;
      assert rs[i] in rs;
    }
  }

  /** `attendee.get("role") or "student"`. */
  function RoleOr(role: Option<string>): (r: string)
    ensures r != ""
    ensures role.Some? && role.value != "" <==> role == Some(r)
  {
    if role.Some? && role.value != "" then role.value else "student"
  }

  /** After defaulting with a non-empty form role, the stored role of every row is its own
      role when it had one and the form's role otherwise: the "student" fallback is dead. */
  lemma StoredRoleAfterDefault(rows: seq<Row>, role: string, i: nat)
    requires role != "" && i < |rows|
    ensures RoleOr(DefaultRole(rows, role)[i].role) == if HasRole(rows[i]) then rows[i].role.value else role
  {
  }

  /** Every row has a non-empty student id, as every row `parse_attendee_csv` returns has. */
  predicate AllIds(rows: seq<Row>) {
    forall r :: r in rows ==> Sid(r) != ""
  }

  lemma ParsedRowsHaveIds(t: Table)
    requires ParseAttendeeCsv(t).Ok?
    ensures AllIds(ParseAttendeeCsv(t).value)
  {
  }

  /** Keeping the rows with an id keeps every row of a list where each has one. */
  lemma {:induction false} IdRowsAll(rows: seq<Row>)
    requires AllIds(rows)
    ensures IdRows(rows) == rows
  {
    if rows != [] {
      var init := rows[..|rows| - 1];
      var last := rows[|rows| - 1];
      assert last in rows;
      assert AllIds(init) by {
        forall r | r in init ensures Sid(r) != "" {
          var k :| 0 <= k < |init| && init[k] == r;
          assert rows[k] in rows;
        }
      }
      IdRowsAll(init);
      assert rows == init + [last];
    }
  }

  /** An attendee the duplicate query sees: in the club and, when `scope` names a template,
      attached to it (`:template_id IS NULL OR template_id = :template_id`). */
  predicate InScope(a: Attendee, clubId: Id, scope: Option<Id>) {
    a.clubId == clubId && (scope.None? || a.templateId == scope)
  }

  /** `existing_ids`: the student ids already stored in scope. */
  function StoredIds(rows: seq<Attendee>, clubId: Id, scope: Option<Id>): (ids: set<string>)
    ensures forall a :: a in rows && InScope(a, clubId, scope) ==> a.studentId in ids
    ensures forall s :: s in ids ==> exists a :: a in rows && InScope(a, clubId, scope) && a.studentId == s
  {
    set a | a in rows && InScope(a, clubId, scope) :: a.studentId
  }

  lemma StoredIdsAppend(xs: seq<Attendee>, ys: seq<Attendee>, clubId: Id, scope: Option<Id>)
    ensures StoredIds(xs + ys, clubId, scope) == StoredIds(xs, clubId, scope) + StoredIds(ys, clubId, scope)
  {
  }

  /** The row the import handlers insert for one new record: `template_id` is the scope,
      `import_id` stays unset, the ledger count takes its column default 0. */
  function ImportRecord(clubId: Id, scope: Option<Id>, adminId: Option<Id>, row: Row, id: Id, now: int): Attendee {
    Attendee(id, clubId, row.name, row.studentId, Some(row.email), Some(row.course), RoleOr(row.role),
             None, None, scope, None, adminId, Some(0), None, None, now)
  }

  /** One record per new row, in order, with consecutive fresh ids. */
  function ImportRecords(clubId: Id, scope: Option<Id>, adminId: Option<Id>, rows: seq<Row>, firstId: Id, now: int)
    : (recs: seq<Attendee>)
    ensures |recs| == |rows|
    ensures forall i :: 0 <= i < |rows| ==> recs[i] == ImportRecord(clubId, scope, adminId, rows[i], firstId + i, now)
  {
    seq(|rows|, i requires 0 <= i < |rows| => ImportRecord(clubId, scope, adminId, rows[i], firstId + i, now))
  }

  /** The inserted records are all in scope and carry exactly the rows' student ids. */
  lemma ImportRecordsIds(clubId: Id, scope: Option<Id>, adminId: Option<Id>, rows: seq<Row>, firstId: Id, now: int)
    ensures StoredIds(ImportRecords(clubId, scope, adminId, rows, firstId, now), clubId, scope) == Ids(rows)
  {
    StoredIdsFromRows(clubId, scope, adminId, rows, firstId, now);
    RowIdsStored(clubId, scope, adminId, rows, firstId, now);
  }

  /** Every id stored in scope by the records comes from a row. */
  lemma StoredIdsFromRows(clubId: Id, scope: Option<Id>, adminId: Option<Id>, rows: seq<Row>, firstId: Id, now: int)
    ensures StoredIds(ImportRecords(clubId, scope, adminId, rows, firstId, now), clubId, scope) <= Ids(rows)
  {
    var recs := ImportRecords(clubId, scope, adminId, rows, firstId, now);
    forall s | s in StoredIds(recs, clubId, scope) ensures s in Ids(rows) {
      var a :| a in recs && InScope(a, clubId, scope) && a.studentId == s;
      var k :| 0 <= k < |recs| && recs[k] == a;
      assert rows[k] in rows;
    }
  }

  /** Every row's id is stored in scope by the records. */
  lemma RowIdsStored(clubId: Id, scope: Option<Id>, adminId: Option<Id>, rows: seq<Row>, firstId: Id, now: int)
    ensures Ids(rows) <= StoredIds(ImportRecords(clubId, scope, adminId, rows, firstId, now), clubId, scope)
  {
    var recs := ImportRecords(clubId, scope, adminId, rows, firstId, now);
    forall s | s in Ids(rows) ensures s in StoredIds(recs, clubId, scope) {
      var r :| r in rows && Sid(r) == s;
      var i :| 0 <= i < |rows| && rows[i] == r;
      assert recs[i] in recs;
    }
  }

  /** What the three import handlers share once a file is accepted: split the rows against
      the ids stored in scope and, when some are new, insert one record per new row. */
  function ImportCore(db: Db, clubId: Id, scope: Option<Id>, adminId: Option<Id>, rows: seq<Row>, firstId: Id, now: int)
    : (r: (Db, Split))
    ensures r.0 == db.(attendees := r.0.attendees)
    ensures r.1.added == [] ==> r.0 == db
  {
    var split := CheckDuplicates(rows, StoredIds(db.attendees, clubId, scope));
    if split.added == [] then (db, split)
    else (db.(attendees := db.attendees + ImportRecords(clubId, scope, adminId, split.added, firstId, now)), split)
  }

  /** Every row of the file is counted once, as new or as duplicate, and the new rows have
      pairwise distinct ids none of which was stored in scope. */
  lemma ImportCoreSplit(db: Db, clubId: Id, scope: Option<Id>, adminId: Option<Id>, rows: seq<Row>, firstId: Id, now: int)
    requires AllIds(rows)
    ensures var split := ImportCore(db, clubId, scope, adminId, rows, firstId, now).1;
            |split.added| + |split.dups| == |rows|
            && DistinctIds(split.added) && AllUnstored(split.added, StoredIds(db.attendees, clubId, scope))
  {
    if rows != [] {
      var existing := StoredIds(db.attendees, clubId, scope);
      assert rows[0] in rows;
      PartitionCountsIdRows(rows, existing);
      FreshIdsDistinctAndNew(rows, existing);
      IdRowsAll(rows);
    }
  }

  /** Inserting the records of some rows adds exactly their ids to the ids stored in scope. */
  lemma InsertStoresIds(db: Db, clubId: Id, scope: Option<Id>, adminId: Option<Id>, rows: seq<Row>, firstId: Id, now: int)
    ensures StoredIds(db.attendees + ImportRecords(clubId, scope, adminId, rows, firstId, now), clubId, scope)
            == StoredIds(db.attendees, clubId, scope) + Ids(rows)
  {
    StoredIdsAppend(db.attendees, ImportRecords(clubId, scope, adminId, rows, firstId, now), clubId, scope);
    ImportRecordsIds(clubId, scope, adminId, rows, firstId, now);
  }

  /** The new rows of a split bring exactly the row ids that were not stored. */
  lemma NewIdsComplete(rows: seq<Row>, existing: set<string>)
    requires AllIds(rows)
    ensures existing + Ids(CheckDuplicates(rows, existing).added) == existing + Ids(rows)
  {
    if rows != [] {
      assert rows[0] in rows;
      FreshIdsAreUnstoredIds(rows, existing);
      IdRowsAll(rows);
    }
  }

  /** After an import every id of the file is stored in scope, and nothing else was added. */
  lemma ImportCoreStoresEveryId(db: Db, clubId: Id, scope: Option<Id>, adminId: Option<Id>, rows: seq<Row>, firstId: Id, now: int)
    requires AllIds(rows)
    ensures StoredIds(ImportCore(db, clubId, scope, adminId, rows, firstId, now).0.attendees, clubId, scope)
            == StoredIds(db.attendees, clubId, scope) + Ids(rows)
  {
    var existing := StoredIds(db.attendees, clubId, scope);
    var split := CheckDuplicates(rows, existing);
    NewIdsComplete(rows, existing);
    if split.added != [] {
      InsertStoresIds(db, clubId, scope, adminId, split.added, firstId, now);
    }
  }

  // ---------------------------------------------------------------------------
  // The handlers

  /** An uploaded file: its tokenized text, its size in bytes, its name and the URL the
      storage bucket returned for it. */
  datatype Upload = Upload(table: Table, size: nat, filename: string, url: string)

  /** The `{imported, duplicates}` answer of the import handlers. */
  datatype Imported = Imported(imported: nat, duplicates: nat)

  predicate IsRole(role: string) {
    AttendeeService.IsRole(role)
  }

  /** `SELECT id FROM certificate_templates WHERE id = :template_id AND club_id = :club_id`. */
  predicate TemplateInClub(db: Db, templateId: Id, clubId: Id) {
    exists t :: t in db.templates && t.id == templateId && t.clubId == clubId
  }

  /** `parse_attendee_csv`, its refusals as 400s. */
  function ParseFile(t: Table): (r: Result<seq<Row>, ImportError>)
    ensures r.Ok? <==> ParseAttendeeCsv(t).Ok?
    ensures r.Ok? ==> r.value == ParseAttendeeCsv(t).value && AllIds(r.value)
    ensures r.Err? ==> r.error == BadCsv(ParseAttendeeCsv(t).error)
  {
    match ParseAttendeeCsv(t)
    case Ok(rows) => Ok(rows)
    case Err(e) => Err(BadCsv(e))
  }

  /** What an accepted import writes, once the rows are parsed and their roles defaulted:
      nothing when no row is new; otherwise the new rows, then the import record `batch`
      with its `rows_count` set to the new plus the duplicate rows. */
  function ImportAccepted(db: Db, clubId: Id, scope: Option<Id>, adminId: Option<Id>, rows: seq<Row>,
                          batch: ImportBatch, firstId: Id, now: int): (r: (Db, Imported))
    ensures r.0.templates == db.templates && r.0.clubs == db.clubs
    ensures r.1.imported == 0 ==> r.0 == db
  {
    var (db1, split) := ImportCore(db, clubId, scope, adminId, rows, firstId, now);
    if split.added == [] then (db, Imported(0, |split.dups|))
    else (Record(db1, batch.(rowsCount := |split.added| + |split.dups|)), Imported(|split.added|, |split.dups|))
  }

  /** An accepted import counts every row once, as new or as duplicate, and charges the
      file's size to the club exactly when it writes. */
  lemma ImportAcceptedAccounts(db: Db, clubId: Id, scope: Option<Id>, adminId: Option<Id>, rows: seq<Row>,
                               batch: ImportBatch, firstId: Id, now: int)
    requires AllIds(rows) && batch.clubId == clubId
    ensures var (db', n) := ImportAccepted(db, clubId, scope, adminId, rows, batch, firstId, now);
            n.imported + n.duplicates == |rows|
            && UsedBytes(db', clubId) == UsedBytes(db, clubId) + (if n.imported == 0 then 0 else batch.fileBytes)
  {
    ImportCoreSplit(db, clubId, scope, adminId, rows, firstId, now);
    var (db1, split) := ImportCore(db, clubId, scope, adminId, rows, firstId, now);
    if split.added != [] {
      RecordCharges(db1, batch.(rowsCount := |split.added| + |split.dups|), clubId);
    }
  }

  /** After an accepted import every id of the rows is stored in scope. */
  lemma ImportAcceptedStoresEveryId(db: Db, clubId: Id, scope: Option<Id>, adminId: Option<Id>, rows: seq<Row>,
                                    batch: ImportBatch, firstId: Id, now: int)
    requires AllIds(rows)
    ensures StoredIds(ImportAccepted(db, clubId, scope, adminId, rows, batch, firstId, now).0.attendees, clubId, scope)
            == StoredIds(db.attendees, clubId, scope) + Ids(rows)
  {
    ImportCoreStoresEveryId(db, clubId, scope, adminId, rows, firstId, now);
  }

  /** Accepting the same rows again writes nothing and reports every row as a duplicate. */
  lemma ImportAcceptedTwice(db: Db, clubId: Id, scope: Option<Id>, adminId: Option<Id>, rows: seq<Row>,
                            batch: ImportBatch, firstId: Id, now: int, batch2: ImportBatch, firstId2: Id, now2: int)
    requires AllIds(rows)
    ensures var db' := ImportAccepted(db, clubId, scope, adminId, rows, batch, firstId, now).0;
            ImportAccepted(db', clubId, scope, adminId, rows, batch2, firstId2, now2) == (db', Imported(0, |rows|))
  {
    var db' := ImportAccepted(db, clubId, scope, adminId, rows, batch, firstId, now).0;
    ImportAcceptedStoresEveryId(db, clubId, scope, adminId, rows, batch, firstId, now);
    var stored := StoredIds(db'.attendees, clubId, scope);
    if rows != [] {
      assert rows[0] in rows;
      AllStoredAllDuplicates(rows, stored);
      IdRowsAll(rows);
    }
  }

  /** The parsed rows of an accepted file with the form's role filled in. */
  function FileRows(t: Table, role: string): (rows: seq<Row>)
    requires ParseAttendeeCsv(t).Ok?
    ensures AllIds(rows) && |rows| == |ParseAttendeeCsv(t).value|
    ensures Ids(rows) == Ids(ParseAttendeeCsv(t).value)
  {
    DefaultRoleKeepsIds(ParseAttendeeCsv(t).value, role);
    DefaultRole(ParseAttendeeCsv(t).value, role)
  }

  /** `POST /attendees/import-file`: role (400), template in the club (403), quota (400),
      parse (400); then the template-scoped import, recording the file with its size. */
  function ImportFile(db: Db, clubId: Id, adminId: Option<Id>, templateId: Id, role: string, file: Upload,
                      firstId: Id, importId: Id, now: int): (r: Result<(Db, Imported), ImportError>)
    ensures !IsRole(role) ==> r == Err(Http(HttpError(BadRequest, BadRole)))
    ensures IsRole(role) && !TemplateInClub(db, templateId, clubId) ==> r == Err(Http(HttpError(Forbidden, TemplateDenied)))
    ensures IsRole(role) && TemplateInClub(db, templateId, clubId) && UsedBytes(db, clubId) + file.size > MaxBytes ==>
              r == Err(Http(HttpError(BadRequest, QuotaExceeded)))
    ensures r.Ok? <==> IsRole(role) && TemplateInClub(db, templateId, clubId)
                       && UsedBytes(db, clubId) + file.size <= MaxBytes && ParseAttendeeCsv(file.table).Ok?
    ensures r.Ok? ==> r.value == ImportAccepted(db, clubId, Some(templateId), adminId, FileRows(file.table, role),
                                                ImportBatch(importId, clubId, file.filename, file.url, role, 0, file.size), firstId, now)
  {
    if !IsRole(role) then Err(Http(HttpError(BadRequest, BadRole)))
    else if !TemplateInClub(db, templateId, clubId) then Err(Http(HttpError(Forbidden, TemplateDenied)))
    else
      var used :- CheckQuota(db, clubId, file.size);
      var parsed :- ParseFile(file.table);
      Ok(ImportAccepted(db, clubId, Some(templateId), adminId, FileRows(file.table, role),
                        ImportBatch(importId, clubId, file.filename, file.url, role, 0, file.size), firstId, now))
  }

  /** An accepted import-file counts every parsed row, charges the file's size exactly when
      it writes, and leaves the club within its quota. */
  lemma ImportFileAccounts(db: Db, clubId: Id, adminId: Option<Id>, templateId: Id, role: string, file: Upload,
                           firstId: Id, importId: Id, now: int)
    requires ImportFile(db, clubId, adminId, templateId, role, file, firstId, importId, now).Ok?
    ensures var (db', n) := ImportFile(db, clubId, adminId, templateId, role, file, firstId, importId, now).value;
            n.imported + n.duplicates == |ParseAttendeeCsv(file.table).value|
            && UsedBytes(db', clubId) == UsedBytes(db, clubId) + (if n.imported == 0 then 0 else file.size)
            && UsedBytes(db', clubId) <= MaxBytes
  {
    ImportAcceptedAccounts(db, clubId, Some(templateId), adminId, FileRows(file.table, role),
                           ImportBatch(importId, clubId, file.filename, file.url, role, 0, file.size), firstId, now);
  }

  /** After an accepted import-file the template holds every student id of the file. */
  lemma ImportFileStoresEveryId(db: Db, clubId: Id, adminId: Option<Id>, templateId: Id, role: string, file: Upload,
                                firstId: Id, importId: Id, now: int)
    requires ImportFile(db, clubId, adminId, templateId, role, file, firstId, importId, now).Ok?
    ensures var db' := ImportFile(db, clubId, adminId, templateId, role, file, firstId, importId, now).value.0;
            StoredIds(db'.attendees, clubId, Some(templateId))
            == StoredIds(db.attendees, clubId, Some(templateId)) + Ids(ParseAttendeeCsv(file.table).value)
  {
    DefaultRoleKeepsIds(ParseAttendeeCsv(file.table).value, role);
    ImportAcceptedStoresEveryId(db, clubId, Some(templateId), adminId, FileRows(file.table, role),
                                ImportBatch(importId, clubId, file.filename, file.url, role, 0, file.size), firstId, now);
  }

  /** Importing the same file for the same template twice imports nothing the second time. */
  lemma ImportFileTwice(db: Db, clubId: Id, adminId: Option<Id>, templateId: Id, role: string, file: Upload,
                        firstId: Id, importId: Id, now: int, firstId2: Id, importId2: Id, now2: int)
    requires ImportFile(db, clubId, adminId, templateId, role, file, firstId, importId, now).Ok?
    ensures var db' := ImportFile(db, clubId, adminId, templateId, role, file, firstId, importId, now).value.0;
            var again := ImportFile(db', clubId, adminId, templateId, role, file, firstId2, importId2, now2);
            again.Ok? ==> again.value == (db', Imported(0, |ParseAttendeeCsv(file.table).value|))
  {
    ImportAcceptedTwice(db, clubId, Some(templateId), adminId, FileRows(file.table, role),
                        ImportBatch(importId, clubId, file.filename, file.url, role, 0, file.size), firstId, now,
                        ImportBatch(importId2, clubId, file.filename, file.url, role, 0, file.size), firstId2, now2);
  }

  /** `POST /attendees/import-simple`: like import-file without a template: role (400), quota
      (400), parse (400), then the club-wide split (`check_duplicates_simple`); the import
      record is named after the batch, or after the file when no batch name is given. */
  function ImportSimple(db: Db, clubId: Id, adminId: Option<Id>, batchName: string, role: string, file: Upload,
                        firstId: Id, importId: Id, now: int): (r: Result<(Db, Imported), ImportError>)
    ensures !IsRole(role) ==> r == Err(Http(HttpError(BadRequest, BadRole)))
    ensures IsRole(role) && UsedBytes(db, clubId) + file.size > MaxBytes ==> r == Err(Http(HttpError(BadRequest, QuotaExceeded)))
    ensures r.Ok? <==> IsRole(role) && UsedBytes(db, clubId) + file.size <= MaxBytes && ParseAttendeeCsv(file.table).Ok?
    ensures r.Ok? ==> r.value == ImportAccepted(db, clubId, None, adminId, FileRows(file.table, role),
                                                ImportBatch(importId, clubId, Or(batchName, file.filename), file.url, role, 0, file.size),
                                                firstId, now)
  {
    if !IsRole(role) then Err(Http(HttpError(BadRequest, BadRole)))
    else
      var used :- CheckQuota(db, clubId, file.size);
      var parsed :- ParseFile(file.table);
      Ok(ImportAccepted(db, clubId, None, adminId, FileRows(file.table, role),
                        ImportBatch(importId, clubId, Or(batchName, file.filename), file.url, role, 0, file.size), firstId, now))
  }

  /** After an accepted import-simple the club holds every student id of the file, the
      quota is charged exactly when it writes, and the club stays within it. */
  lemma ImportSimpleAccounts(db: Db, clubId: Id, adminId: Option<Id>, batchName: string, role: string, file: Upload,
                             firstId: Id, importId: Id, now: int)
    requires ImportSimple(db, clubId, adminId, batchName, role, file, firstId, importId, now).Ok?
    ensures var (db', n) := ImportSimple(db, clubId, adminId, batchName, role, file, firstId, importId, now).value;
            n.imported + n.duplicates == |ParseAttendeeCsv(file.table).value|
            && StoredIds(db'.attendees, clubId, None) == StoredIds(db.attendees, clubId, None) + Ids(ParseAttendeeCsv(file.table).value)
            && UsedBytes(db', clubId) == UsedBytes(db, clubId) + (if n.imported == 0 then 0 else file.size)
            && UsedBytes(db', clubId) <= MaxBytes
  {
    var batch := ImportBatch(importId, clubId, Or(batchName, file.filename), file.url, role, 0, file.size);
    DefaultRoleKeepsIds(ParseAttendeeCsv(file.table).value, role);
    ImportAcceptedAccounts(db, clubId, None, adminId, FileRows(file.table, role), batch, firstId, now);
    ImportAcceptedStoresEveryId(db, clubId, None, adminId, FileRows(file.table, role), batch, firstId, now);
  }

  /** The two duplicate queries: the club-wide one sees every id the template-scoped one sees. */
  lemma ScopedIdsWithinClub(rows: seq<Attendee>, clubId: Id, templateId: Id)
    ensures StoredIds(rows, clubId, Some(templateId)) <= StoredIds(rows, clubId, None)
  {
  }

  /** `POST /attendees/preview`'s answer. */
  datatype Preview = Preview(totalRows: nat, newRecords: nat, duplicateRecords: nat, preview: seq<Row>, payload: seq<Row>)

  const PreviewLimit := 50

  /** `POST /attendees/preview`: template in the club (403), parse (400), then the split
      import-file would make, without writing anything; the preview shows the first 50 new rows.
      The form's role is not checked here. */
  function PreviewFile(db: Db, clubId: Id, templateId: Id, role: string, t: Table): (r: Result<Preview, ImportError>)
    ensures !TemplateInClub(db, templateId, clubId) ==> r == Err(Http(HttpError(Forbidden, TemplateDenied)))
    ensures r.Ok? <==> TemplateInClub(db, templateId, clubId) && ParseAttendeeCsv(t).Ok?
    ensures r.Ok? ==> r.value.totalRows == |ParseAttendeeCsv(t).value| && r.value.newRecords == |r.value.payload|
    ensures r.Ok? ==> r.value.preview <= r.value.payload
                      && |r.value.preview| == if |r.value.payload| < PreviewLimit then |r.value.payload| else PreviewLimit
    ensures r.Ok? ==> r.value.payload == CheckDuplicates(FileRows(t, role), StoredIds(db.attendees, clubId, Some(templateId))).added
  {
    if !TemplateInClub(db, templateId, clubId) then Err(Http(HttpError(Forbidden, TemplateDenied)))
    else
      var parsed :- ParseFile(t);
      var rows := FileRows(t, role);
      var split := CheckDuplicates(rows, StoredIds(db.attendees, clubId, Some(templateId)));
      var shown := if |split.added| < PreviewLimit then split.added else split.added[..PreviewLimit];
      Ok(Preview(|parsed|, |split.added|, |split.dups|, shown, split.added))
  }

  /** The preview predicts the import: the counts add up to the file's rows, the payload has
      distinct ids none of which the template holds, and import-file on the same database and
      file inserts exactly the payload and reports the same counts. */
  lemma PreviewPredictsImport(db: Db, clubId: Id, adminId: Option<Id>, templateId: Id, role: string, file: Upload,
                              firstId: Id, importId: Id, now: int)
    requires PreviewFile(db, clubId, templateId, role, file.table).Ok?
    ensures var p := PreviewFile(db, clubId, templateId, role, file.table).value;
            p.newRecords + p.duplicateRecords == p.totalRows
            && DistinctIds(p.payload) && AllUnstored(p.payload, StoredIds(db.attendees, clubId, Some(templateId)))
    ensures var p := PreviewFile(db, clubId, templateId, role, file.table).value;
            var r := ImportFile(db, clubId, adminId, templateId, role, file, firstId, importId, now);
            r.Ok? ==> r.value.1 == Imported(p.newRecords, p.duplicateRecords)
                      && (p.payload != [] ==>
                            r.value.0.attendees == db.attendees + ImportRecords(clubId, Some(templateId), adminId, p.payload, firstId, now))
  {
    ImportCoreSplit(db, clubId, Some(templateId), adminId, FileRows(file.table, role), firstId, now);
  }

  /** `POST /attendees/import`: template in the club (403), a payload that is a JSON list (400),
      then the template-scoped split and insert; no import record is written. A payload whose
      rows all lack an id comes back entirely as duplicates. */
  function ImportPayload(db: Db, clubId: Id, adminId: Option<Id>, templateId: Id, payload: Option<seq<Row>>,
                         firstId: Id, now: int): (r: Result<(Db, Imported), ImportError>)
    ensures !TemplateInClub(db, templateId, clubId) ==> r == Err(Http(HttpError(Forbidden, TemplateDenied)))
    ensures TemplateInClub(db, templateId, clubId) && payload.None? ==> r == Err(Http(HttpError(BadRequest, BadPayload)))
    ensures r.Ok? <==> TemplateInClub(db, templateId, clubId) && payload.Some?
    ensures r.Ok? ==> r.value.0.imports == db.imports && r.value.0.templates == db.templates
    ensures r.Ok? && (forall x :: x in payload.value ==> Sid(x) == "") ==> r.value == (db, Imported(0, |payload.value|))
  {
    if !TemplateInClub(db, templateId, clubId) then Err(Http(HttpError(Forbidden, TemplateDenied)))
    else if payload.None? then Err(Http(HttpError(BadRequest, BadPayload)))
    else
      var (db1, split) := ImportCore(db, clubId, Some(templateId), adminId, payload.value, firstId, now);
      if split.added == [] then Ok((db, Imported(0, |split.dups|)))
      else Ok((db1, Imported(|split.added|, |split.dups|)))
  }

  /** Rows with distinct ids none of which is stored are all new. */
  lemma FreshRowsAllNew(rows: seq<Row>, existing: set<string>)
    requires DistinctIds(rows) && AllUnstored(rows, existing)
    ensures CheckDuplicates(rows, existing) == Split(rows, [])
  {
    if rows != [] {
      assert rows[0] in rows;
      DistinctUnstoredAllFresh(rows, existing);
    }
  }

  /** Submitting a preview's payload right after the preview imports all of it, with no duplicates. */
  lemma PayloadOfPreviewImportsAll(db: Db, clubId: Id, adminId: Option<Id>, templateId: Id, role: string, t: Table,
                                   firstId: Id, now: int)
    requires PreviewFile(db, clubId, templateId, role, t).Ok?
    ensures var p := PreviewFile(db, clubId, templateId, role, t).value;
            ImportPayload(db, clubId, adminId, templateId, Some(p.payload), firstId, now).value.1 == Imported(|p.payload|, 0)
  {
    var p := PreviewFile(db, clubId, templateId, role, t).value;
    var existing := StoredIds(db.attendees, clubId, Some(templateId));
    ImportCoreSplit(db, clubId, Some(templateId), adminId, FileRows(t, role), firstId, now);
    FreshRowsAllNew(p.payload, existing);
  }

  // ---------------------------------------------------------------------------
  // The validating uploads

  /** The `CSVUploadResponse` counts. */
  datatype Totals = Totals(processed: nat, successful: nat, failed: nat)

  /** Consecutive fresh ids for `n` rows. */
  function FreshIds(firstId: Id, n: nat): (ids: seq<Id>)
    ensures |ids| == n
  {
    seq(n, i requires 0 <= i < n => firstId + i)
  }

  /** `parse_and_validate_csv` against the club's stored ids, its refusals as 400s. */
  function ValidateFile(db: Db, clubId: Id, t: Table, skipErrors: bool, role: string)
    : (r: Result<AttendeeService.Outcome, ImportError>)
    ensures r.Ok? <==> AttendeeService.Validation(t, AttendeeService.ClubStudentIds(db, clubId), skipErrors, role).Ok?
    ensures r.Ok? ==> r.value == AttendeeService.Validation(t, AttendeeService.ClubStudentIds(db, clubId), skipErrors, role).value
  {
    match AttendeeService.Validation(t, AttendeeService.ClubStudentIds(db, clubId), skipErrors, role)
    case Ok(o) => Ok(o)
    case Err(e) => Err(BadRows(e))
  }

  /** The accepted rows go in through `upload_attendees` (no import id); the answer counts
      inserted and failed rows. */
  function UploadValid(db: Db, clubId: Id, o: AttendeeService.Outcome, firstId: Id, now: int): (r: (Db, Totals))
    ensures r.1.successful == |o.valid| && r.1.failed == |o.errors| && r.1.processed == |o.valid| + |o.errors|
    ensures r.0.imports == db.imports && r.0.templates == db.templates
    ensures AttendeeService.ClubStudentIds(r.0, clubId)
            == AttendeeService.ClubStudentIds(db, clubId) + set c | c in o.valid :: c.studentId
  {
    var ids := FreshIds(firstId, |o.valid|);
    AttendeeService.UploadAddsIds(db, clubId, o.valid, ids, None, now);
    var (db1, n) := AttendeeService.UploadAttendees(db, clubId, o.valid, ids, None, now);
    (db1, Totals(n + |o.errors|, n, |o.errors|))
  }

  /** `POST /attendees/upload`: no role or quota gate; validate with the request's role as
      default, insert the accepted rows, report the counts. */
  function UploadCsv(db: Db, clubId: Id, t: Table, skipErrors: bool, role: string, firstId: Id, now: int)
    : (r: Result<(Db, Totals), ImportError>)
    ensures r.Ok? <==> AttendeeService.Validation(t, AttendeeService.ClubStudentIds(db, clubId), skipErrors, role).Ok?
    ensures r.Ok? && skipErrors ==> r.value.1.processed == |t.records|
    ensures r.Ok? ==> r.value.0.imports == db.imports
  {
    var o :- ValidateFile(db, clubId, t, skipErrors, role);
    Ok(UploadValid(db, clubId, o, firstId, now))
  }

  /** `POST /attendees/upload-file` with the size the import record is written with as a
      parameter: role (400), quota (400), validation (400), insert, then the import record. */
  function UploadFileRecording(db: Db, clubId: Id, role: string, skipErrors: bool, file: Upload,
                               firstId: Id, importId: Id, now: int, recorded: nat): (r: Result<(Db, Totals), ImportError>)
    ensures !IsRole(role) ==> r == Err(Http(HttpError(BadRequest, BadRole)))
    ensures IsRole(role) && UsedBytes(db, clubId) + file.size > MaxBytes ==> r == Err(Http(HttpError(BadRequest, QuotaExceeded)))
    ensures r.Ok? <==> IsRole(role) && UsedBytes(db, clubId) + file.size <= MaxBytes
                       && AttendeeService.Validation(file.table, AttendeeService.ClubStudentIds(db, clubId), skipErrors, role).Ok?
    ensures r.Ok? ==> UsedBytes(r.value.0, clubId) == UsedBytes(db, clubId) + recorded
    ensures r.Ok? && skipErrors ==> r.value.1.processed == |file.table.records|
  {
    if !IsRole(role) then Err(Http(HttpError(BadRequest, BadRole)))
    else
      var used :- CheckQuota(db, clubId, file.size);
      var o :- ValidateFile(db, clubId, file.table, skipErrors, role);
      var (db1, totals) := UploadValid(db, clubId, o, firstId, now);
      var batch := ImportBatch(importId, clubId, file.filename, file.url, role, totals.processed, recorded);
      RecordCharges(db1, batch, clubId);
      Ok((Record(db1, batch), totals))
  }

  /** upload-file as written: its `INSERT` lists no `file_size_bytes` column, so the record
      takes the column default 0 and the file is never charged to the quota. (Should the driver
      instead refuse the unused bound parameter, the swallowed failure leaves no record at all:
      the quota sees the same 0.) */
  function UploadFileAsWritten(db: Db, clubId: Id, role: string, skipErrors: bool, file: Upload,
                               firstId: Id, importId: Id, now: int): (r: Result<(Db, Totals), ImportError>)
    ensures r.Ok? ==> UsedBytes(r.value.0, clubId) == UsedBytes(db, clubId)
  {
    UploadFileRecording(db, clubId, role, skipErrors, file, firstId, importId, now, 0)
  }

  /** upload-file as intended: the record carries the file's size, as the other two roster
      handlers write it, so an accepted upload is charged and the club stays within its quota. */
  function UploadFile(db: Db, clubId: Id, role: string, skipErrors: bool, file: Upload,
                      firstId: Id, importId: Id, now: int): (r: Result<(Db, Totals), ImportError>)
    ensures r.Ok? ==> UsedBytes(r.value.0, clubId) == UsedBytes(db, clubId) + file.size
    ensures r.Ok? ==> UsedBytes(r.value.0, clubId) <= MaxBytes
  {
    UploadFileRecording(db, clubId, role, skipErrors, file, firstId, importId, now, file.size)
  }

  /** The quota is never reached through upload-file as written: a club with nothing stored can
      upload two files of the full 100 MiB one after the other, and its used bytes stay 0.
      With the size recorded, the second upload is refused. */
  lemma UploadFileEscapesQuota(db: Db, clubId: Id, role: string, file: Upload, firstId: Id, importId: Id, now: int,
                               firstId2: Id, importId2: Id, now2: int)
    requires IsRole(role) && file.table.fieldnames != [] && file.size == MaxBytes && UsedBytes(db, clubId) == 0
    ensures var first := UploadFileAsWritten(db, clubId, role, true, file, firstId, importId, now);
            first.Ok?
            && var second := UploadFileAsWritten(first.value.0, clubId, role, true, file, firstId2, importId2, now2);
               second.Ok? && UsedBytes(second.value.0, clubId) == 0
    ensures var first := UploadFile(db, clubId, role, true, file, firstId, importId, now);
            first.Ok?
            && UploadFile(first.value.0, clubId, role, true, file, firstId2, importId2, now2)
               == Err(Http(HttpError(BadRequest, QuotaExceeded)))
  {
  }

  /** The form of `POST /templates/upload` as the object `CreateTemplateRequest` is built from. */
  function UploadForm(name: string, imageUrl: string, audience: string, fields: TemplateSchema.Json): TemplateSchema.Object {
    map["template_name" := TemplateSchema.JStr(name), "template_image_url" := TemplateSchema.JStr(imageUrl),
        "audience" := TemplateSchema.JStr(audience), "text_fields" := fields]
  }

  /** The `text_fields` form value as the handler decodes it: an empty value is the empty list,
      anything else goes through `decode`, which stands for `json.loads` (None for a
      `JSONDecodeError`). */
  function DecodeTextFields(textFields: string, decode: string -> Option<TemplateSchema.Json>): Option<TemplateSchema.Json> {
    if textFields == "" then Some(TemplateSchema.JArr([])) else decode(textFields)
  }

  /** `POST /templates/upload`: audience (400), quota (400), the `text_fields` JSON (400), the
      creation request's validation (whose failure nothing catches: 500), then `create_template`
      (404 for a missing club, 409 for a name already used for the audience); the new template's
      stored image size is then set to the image's length. The answer is the template as created,
      before that update. The image's storage URL is a parameter. */
  function UploadTemplate(db: Db, clubId: Id, name: string, audience: string, imageUrl: string, size: nat,
                          textFields: string, decode: string -> Option<TemplateSchema.Json>,
                          id: Id, now: int): (r: Result<(Db, Template), ImportError>)
    ensures !IsRole(audience) ==> r == Err(Http(HttpError(BadRequest, BadAudience)))
    ensures IsRole(audience) && UsedBytes(db, clubId) + size > MaxBytes ==> r == Err(Http(HttpError(BadRequest, QuotaExceeded)))
    ensures IsRole(audience) && UsedBytes(db, clubId) + size <= MaxBytes && textFields != "" && decode(textFields).None?
            ==> r == Err(Http(HttpError(BadRequest, BadTextFields)))
    ensures (IsRole(audience) && UsedBytes(db, clubId) + size <= MaxBytes && DecodeTextFields(textFields, decode).Some?
             && !(1 <= |name| <= 100)) ==> r == Err(Http(HttpError(ServerError, Unhandled)))
    ensures r.Ok? ==> IsRole(audience) && UsedBytes(db, clubId) + size <= MaxBytes && 1 <= |name| <= 100
    ensures r.Ok? ==>
              var t := r.value.1;
              t.id == id && t.clubId == clubId && t.name == name && t.imageUrl == imageUrl
              && t.audience == audience && t.version == Some(1) && t.isActive
              && (textFields == "" ==> t.textFields == [])
              && exists items: seq<TemplateSchema.Json> :: DecodeTextFields(textFields, decode) == Some(TemplateSchema.JArr(items))
                   && |t.textFields| == |items|
                   && forall i :: 0 <= i < |items| ==>
                        items[i].JObj? && TemplateSchema.ValidateDescriptor(items[i].fields).Ok?
                        && t.textFields[i] == TemplateSchema.Dump(TemplateSchema.ValidateDescriptor(items[i].fields).value)
  {
    if !IsRole(audience) then Err(Http(HttpError(BadRequest, BadAudience)))
    else
      var used :- CheckQuota(db, clubId, size);
      match DecodeTextFields(textFields, decode)
      case None => Err(Http(HttpError(BadRequest, BadTextFields)))
      case Some(fields) =>
        match TemplateSchema.ValidateCreate(UploadForm(name, imageUrl, audience, fields))
        case Err(_) => Err(Http(HttpError(ServerError, Unhandled)))
        case Ok(req) =>
          match TemplateService.CreateTemplate(db, clubId, req, id, now)
          case Err(e) => Err(Http(e))
          case Ok((db1, t)) =>
            Ok((db1.(templates := MapWhere(db1.templates, (x: Template) => x.id == t.id, (x: Template) => x.(imageBytes := size))), t))
  }

  /** Setting the size of a template appended under a fresh id charges exactly that size. */
  lemma ChargeAppended(db: Db, clubId: Id, t: Template, size: nat)
    requires forall x :: x in db.templates ==> x.id != t.id
    requires t.clubId == clubId
    ensures UsedBytes(db.(templates := MapWhere(db.templates + [t], (x: Template) => x.id == t.id, (x: Template) => x.(imageBytes := size))), clubId)
            == UsedBytes(db, clubId) + size
  {
    var p := (x: Template) => x.id == t.id;
    var f := (x: Template) => x.(imageBytes := size);
    var all := db.templates + [t];
    var updated := MapWhere(all, p, f);
    assert updated == db.templates + [f(t)] by {
      assert forall i :: 0 <= i < |db.templates| ==> all[i] == db.templates[i] && !p(db.templates[i]);
    }
    SumAppend(db.templates, [f(t)], TemplateSize(clubId));
    assert Sum([f(t)], TemplateSize(clubId)) == TemplateSize(clubId)(f(t)) + Sum([f(t)][1..], TemplateSize(clubId));
  }

  /** With a fresh template id, an accepted template upload charges the image's size to the
      club and leaves it within its quota. */
  lemma UploadTemplateCharges(db: Db, clubId: Id, name: string, audience: string, imageUrl: string, size: nat,
                              textFields: string, decode: string -> Option<TemplateSchema.Json>, id: Id, now: int)
    requires forall t :: t in db.templates ==> t.id != id
    ensures var r := UploadTemplate(db, clubId, name, audience, imageUrl, size, textFields, decode, id, now);
            r.Ok? ==> UsedBytes(r.value.0, clubId) == UsedBytes(db, clubId) + size && UsedBytes(r.value.0, clubId) <= MaxBytes
  {
    if UploadTemplate(db, clubId, name, audience, imageUrl, size, textFields, decode, id, now).Err? { return; }
    var fields := DecodeTextFields(textFields, decode).value;
    var req := TemplateSchema.ValidateCreate(UploadForm(name, imageUrl, audience, fields)).value;
    var (db1, t) := TemplateService.CreateTemplate(db, clubId, req, id, now).value;
    ChargeAppended(db, clubId, t, size);
  }

  /** Descriptors sent as their own dumps are stored as exactly those dumps. */
  lemma UploadTemplateStoresDumps(db: Db, clubId: Id, name: string, audience: string, imageUrl: string, size: nat,
                                  textFields: string, decode: string -> Option<TemplateSchema.Json>, id: Id, now: int,
                                  ds: seq<TemplateSchema.Descriptor>)
    requires forall i :: 0 <= i < |ds| ==> TemplateSchema.ValidDescriptor(ds[i])
    requires DecodeTextFields(textFields, decode)
             == Some(TemplateSchema.JArr(seq(|ds|, i requires 0 <= i < |ds| => TemplateSchema.JObj(TemplateSchema.Dump(ds[i])))))
    ensures var r := UploadTemplate(db, clubId, name, audience, imageUrl, size, textFields, decode, id, now);
            r.Ok? ==> r.value.1.textFields == TemplateService.DumpAll(ds)
  {
    if UploadTemplate(db, clubId, name, audience, imageUrl, size, textFields, decode, id, now).Err? { return; }
    var t := UploadTemplate(db, clubId, name, audience, imageUrl, size, textFields, decode, id, now).value.1;
    forall i | 0 <= i < |ds|
      ensures t.textFields[i] == TemplateService.DumpAll(ds)[i]
    {
      TemplateSchema.DumpValidateRoundTrip(ds[i]);
    }
  }
}

=== FILE: attendee_service.dfy ===
/** `AttendeeService` of `app/services/attendee_service.py`: the stricter roster
    validator behind the attendee upload endpoints, with its abort-or-collect error
    policy, and the attendee records an upload inserts. */
module AttendeeService {
  import opened Wrappers
  import opened Text
  import opened Seqs
  import opened CsvTable
  import CsvParser
  import opened Store

  // ---------------------------------------------------------------------------
  // Reading one row

  /** The distinct names in order of first occurrence: the key order of the dict
      `csv.DictReader` builds from a record. */
  function FirstOccurrences(names: seq<string>): (keys: seq<string>)
    ensures forall k :: k in keys <==> k in names
  {
    if names == [] then []
    else
      var init := FirstOccurrences(names[..|names| - 1]);
      var last := names[|names| - 1];
      assert names == names[..|names| - 1] + [last];
      if last in init then init else init + [last]
  }

  /** The second key normalisation applied to every row: `(k or "").strip().lower()`. */
  function RowKey(k: string): string {
    Lower(Strip(k))
  }

  /** `row.get(target, "")` on the re-keyed row: rebuilding the dict visits the
      reader's keys in insertion order, so a later key with the same normalised
      form overwrites an earlier one; a `None` cell reads as "". */
  function RowValue(names: seq<string>, cells: Record, target: string): string {
    var keys := FirstOccurrences(names);
    var j := LastIndexWhere(keys, k => RowKey(k) == target);
    if j < 0 then "" else CellText(names, cells, keys[j])
  }

  /** When `target` is the only header that normalises to itself, re-keying changes
      nothing: the value is the reader's own cell under `target`. */
  lemma RowValueSingleKey(names: seq<string>, cells: Record, target: string)
    requires target in names && RowKey(target) == target
    requires forall n :: n in names && RowKey(n) == target ==> n == target
    ensures RowValue(names, cells, target) == CellText(names, cells, target)
  {
    var keys := FirstOccurrences(names);
    var p := (k: string) => RowKey(k) == target;
    assert target in keys;
    var k :| 0 <= k < |keys| && keys[k] == target;
    assert p(keys[k]);
    var j := LastIndexWhere(keys, p);
    assert keys[j] in names;
  }

  /** A column no header normalises to reads as "". */
  lemma RowValueAbsent(names: seq<string>, cells: Record, target: string)
    requires forall n :: n in names ==> RowKey(n) != target
    ensures RowValue(names, cells, target) == ""
  {
  }

  /** The reader's field names after the first normalisation (trim, drop a BOM, lowercase). */
  function NormalizedHeaders(fieldnames: seq<string>): (hs: seq<string>)
    ensures |hs| == |fieldnames|
    ensures forall i :: 0 <= i < |fieldnames| ==> hs[i] == CsvParser.NormalizeHeader(fieldnames[i])
  {
    seq(|fieldnames|, i requires 0 <= i < |fieldnames| => CsvParser.NormalizeHeader(fieldnames[i]))
  }

  /** One row's values as the validator reads them, before any check. */
  datatype Candidate = Candidate(name: string, studentId: string, email: Option<string>, role: string)

  /** Name and id are trimmed; the email is trimmed when the cell is non-empty and absent
      otherwise; the role is trimmed and lowercased when non-empty, else `defaultRole`. */
  function CandidateOf(headers: seq<string>, cells: Record, defaultRole: string): (c: Candidate)
    ensures IsStripped(c.name) && IsStripped(c.studentId)
    ensures c.email.None? <==> RowValue(headers, cells, "email") == ""
    ensures c.email.Some? ==> IsStripped(c.email.value)
    ensures RowValue(headers, cells, "role") == "" ==> c.role == defaultRole
    ensures RowValue(headers, cells, "role") != "" ==> HasNoUpper(c.role)
  {
    var email := RowValue(headers, cells, "email");
    var role := RowValue(headers, cells, "role");
    Candidate(Strip(RowValue(headers, cells, "name")), Strip(RowValue(headers, cells, "student_id")),
              if email != "" then Some(Strip(email)) else None,
              if role != "" then Lower(Strip(role)) else defaultRole)
  }

  /** The candidates of every record of a table. */
  function Candidates(t: Table, defaultRole: string): (cs: seq<Candidate>)
    ensures |cs| == |t.records|
  {
    var headers := NormalizedHeaders(t.fieldnames);
    seq(|t.records|, i requires 0 <= i < |t.records| => CandidateOf(headers, t.records[i], defaultRole))
  }

  // ---------------------------------------------------------------------------
  // Checking one row

  const MaxNameLength := 200
  const MaxStudentIdLength := 50

  /** The two roles an attendee may have. */
  predicate IsRole(r: string) {
    r == "student" || r == "management"
  }

  /** Why a row is rejected, one case per `ValueError` the loop raises. */
  datatype Problem =
    | EmptyName
    | EmptyStudentId
    | NameTooLong
    | StudentIdTooLong
    | DuplicateInFile(studentId: string)
    | AlreadyStored(studentId: string)
    | InvalidEmail(email: string)
    | InvalidRole

  /** The first four checks: both required values present and within their length bounds. */
  predicate WellFormed(c: Candidate) {
    c.name != "" && c.studentId != "" && |c.name| <= MaxNameLength && |c.studentId| <= MaxStudentIdLength
  }

  /** A non-empty email without '@' or shorter than five characters. An empty trimmed email passes. */
  predicate BadEmail(e: Option<string>) {
    e.Some? && e.value != "" && ('@' !in e.value || |e.value| < 5)
  }

  /** The first failing check of a row, given the ids reserved so far and the club's stored ids. */
  function Check(c: Candidate, seen: set<string>, existing: set<string>): (r: Option<Problem>)
    ensures r.None? <==> WellFormed(c) && c.studentId !in seen && c.studentId !in existing
                         && !BadEmail(c.email) && IsRole(c.role)
    ensures r == Some(DuplicateInFile(c.studentId)) <==> WellFormed(c) && c.studentId in seen
    ensures r == Some(AlreadyStored(c.studentId)) <==> WellFormed(c) && c.studentId !in seen && c.studentId in existing
  {
    if c.name == "" then Some(EmptyName)
    else if c.studentId == "" then Some(EmptyStudentId)
    else if |c.name| > MaxNameLength then Some(NameTooLong)
    else if |c.studentId| > MaxStudentIdLength then Some(StudentIdTooLong)
    else if c.studentId in seen then Some(DuplicateInFile(c.studentId))
    else if c.studentId in existing then Some(AlreadyStored(c.studentId))
    else if BadEmail(c.email) then Some(InvalidEmail(c.email.value))
    else if !IsRole(c.role) then Some(InvalidRole)
    else None
  }

  /** Whether a row reaches `seen_student_ids.add`: after the duplicate checks, before the email and role checks. */
  predicate Reserves(c: Candidate, seen: set<string>, existing: set<string>) {
    WellFormed(c) && c.studentId !in seen && c.studentId !in existing
  }

  /** A rejected row: its number in the file (the header is row 1) and the reason. */
  datatype RowError = RowError(row: nat, problem: Problem)

  /** The loop state: reserved ids, accepted rows and collected errors. */
  datatype Progress = Progress(seen: set<string>, valid: seq<Candidate>, errors: seq<RowError>)

  /** The record at index i is row i + 2. */
  function RowNumber(i: nat): nat {
    i + 2
  }

  /** One iteration of the loop in collecting mode. */
  function StepRow(p: Progress, c: Candidate, row: nat, existing: set<string>): Progress {
    var seen := if Reserves(c, p.seen, existing) then p.seen + {c.studentId} else p.seen;
    match Check(c, p.seen, existing)
    case None => Progress(seen, p.valid + [c], p.errors)
    case Some(problem) => Progress(seen, p.valid, p.errors + [RowError(row, problem)])
  }

  /** The loop run over every row with `skip_errors` set. */
  function Collect(cands: seq<Candidate>, existing: set<string>): (p: Progress)
    ensures |p.valid| + |p.errors| == |cands|
  {
    if cands == [] then Progress({}, [], [])
    else StepRow(Collect(cands[..|cands| - 1], existing), cands[|cands| - 1], RowNumber(|cands| - 1), existing)
  }

  lemma CollectSnoc(cands: seq<Candidate>, existing: set<string>, n: nat)
    requires n < |cands|
    ensures Collect(cands[..n + 1], existing) == StepRow(Collect(cands[..n], existing), cands[n], RowNumber(n), existing)
  {
    assert cands[..n + 1][..n] == cands[..n];
  }

  // ---------------------------------------------------------------------------
  // The reference: what each row's verdict is, independent of the loop

  /** The ids of the well-formed rows among `cands`. */
  function WellFormedIds(cands: seq<Candidate>): set<string> {
    set i | 0 <= i < |cands| && WellFormed(cands[i]) :: cands[i].studentId
  }

  lemma WellFormedIdsSnoc(cands: seq<Candidate>, c: Candidate)
    ensures WellFormedIds(cands + [c]) == WellFormedIds(cands) + (if WellFormed(c) then {c.studentId} else {})
  {
    var s := cands + [c];
    forall x | x in WellFormedIds(s)
      ensures x in WellFormedIds(cands) + (if WellFormed(c) then {c.studentId} else {})
    {
      var i :| 0 <= i < |s| && WellFormed(s[i]) && s[i].studentId == x;
      if i < |cands| {
        assert s[i] == cands[i];
      }
    }
    forall x | x in WellFormedIds(cands)
      ensures x in WellFormedIds(s)
    {
      var i :| 0 <= i < |cands| && WellFormed(cands[i]) && cands[i].studentId == x;
      assert s[i] == cands[i];
    }
    if WellFormed(c) {
      assert s[|cands|] == c;
    }
  }

  /** The ids reserved before a row: every earlier well-formed row's id that the club does not
      already hold. An earlier row reserves its id even when its email or role is then rejected. */
  lemma {:induction false} SeenIsReservedIds(cands: seq<Candidate>, existing: set<string>)
    ensures Collect(cands, existing).seen == WellFormedIds(cands) - existing
  {
    if cands != [] {
      var init := cands[..|cands| - 1];
      var c := cands[|cands| - 1];
      SeenIsReservedIds(init, existing);
      assert cands == init + [c];
      WellFormedIdsSnoc(init, c);
    }
  }

  /** The verdict on row `i`: the checks against the ids its predecessors reserved. */
  function ProblemAt(cands: seq<Candidate>, existing: set<string>, i: nat): Option<Problem>
    requires i < |cands|
  {
    Check(cands[i], WellFormedIds(cands[..i]) - existing, existing)
  }

  /** A row is an in-file duplicate exactly when it is well formed, its id is not stored,
      and an earlier well-formed row carries the same id. */
  lemma DuplicateInFileIff(cands: seq<Candidate>, existing: set<string>, i: nat)
    requires i < |cands|
    ensures ProblemAt(cands, existing, i) == Some(DuplicateInFile(cands[i].studentId)) <==>
              WellFormed(cands[i]) && cands[i].studentId !in existing
              && exists j :: 0 <= j < i && WellFormed(cands[j]) && cands[j].studentId == cands[i].studentId
  {
    var sid := cands[i].studentId;
    if exists j :: 0 <= j < i && WellFormed(cands[j]) && cands[j].studentId == sid {
      var j :| 0 <= j < i && WellFormed(cands[j]) && cands[j].studentId == sid;
      assert cands[..i][j] == cands[j];
    }
  }

  /** The last iteration of the loop sees the ids reserved by the rows before it, and
      extending the file never changes an earlier row's verdict. */
  lemma LastStep(cands: seq<Candidate>, existing: set<string>)
    requires cands != []
    ensures var n := |cands| - 1;
            Collect(cands, existing) == StepRow(Collect(cands[..n], existing), cands[n], RowNumber(n), existing)
            && Collect(cands[..n], existing).seen == WellFormedIds(cands[..n]) - existing
            && ProblemAt(cands, existing, n) == Check(cands[n], Collect(cands[..n], existing).seen, existing)
            && forall i :: 0 <= i < n ==> ProblemAt(cands, existing, i) == ProblemAt(cands[..n], existing, i)
  {
    var n := |cands| - 1;
    SeenIsReservedIds(cands[..n], existing);
    forall i | 0 <= i < n
      ensures ProblemAt(cands, existing, i) == ProblemAt(cands[..n], existing, i)
    {
      assert cands[..i] == cands[..n][..i];
    }
  }

  /** A collected error names a row of the file and that row's reference verdict. */
  predicate ErrorAt(cands: seq<Candidate>, existing: set<string>, e: RowError) {
    2 <= e.row < |cands| + 2 && ProblemAt(cands, existing, e.row - 2) == Some(e.problem)
  }

  /** Every collected error is the reference verdict of the row it names. */
  lemma {:induction false} ErrorsAreProblems(cands: seq<Candidate>, existing: set<string>)
    ensures forall e :: e in Collect(cands, existing).errors ==> ErrorAt(cands, existing, e)
  {
    if cands != [] {
      var n := |cands| - 1;
      ErrorsAreProblems(cands[..n], existing);
      LastStep(cands, existing);
    }
  }

  /** Errors are collected in file order. */
  lemma {:induction false} ErrorsInFileOrder(cands: seq<Candidate>, existing: set<string>)
    ensures forall k, l :: 0 <= k < l < |Collect(cands, existing).errors| ==>
              Collect(cands, existing).errors[k].row < Collect(cands, existing).errors[l].row
  {
    if cands != [] {
      var n := |cands| - 1;
      ErrorsInFileOrder(cands[..n], existing);
      ErrorsAreProblems(cands[..n], existing);
      LastStep(cands, existing);
      var errs := Collect(cands[..n], existing).errors;
      assert forall k :: 0 <= k < |errs| ==> errs[k] in errs;
    }
  }

  /** Every row with a problem has its error collected. */
  lemma {:induction false} ProblemsAreErrors(cands: seq<Candidate>, existing: set<string>)
    ensures forall i :: 0 <= i < |cands| && ProblemAt(cands, existing, i).Some? ==>
              RowError(RowNumber(i), ProblemAt(cands, existing, i).value) in Collect(cands, existing).errors
  {
    if cands != [] {
      var n := |cands| - 1;
      ProblemsAreErrors(cands[..n], existing);
      LastStep(cands, existing);
    }
  }

  /** Every row without a problem is accepted. */
  lemma {:induction false} CleanRowsAccepted(cands: seq<Candidate>, existing: set<string>)
    ensures forall i :: 0 <= i < |cands| && ProblemAt(cands, existing, i).None? ==>
              cands[i] in Collect(cands, existing).valid
  {
    if cands != [] {
      var n := |cands| - 1;
      CleanRowsAccepted(cands[..n], existing);
      LastStep(cands, existing);
    }
  }

  /** Every accepted row is a row of the file without a problem. */
  lemma {:induction false} AcceptedRowsClean(cands: seq<Candidate>, existing: set<string>, c: Candidate)
    requires c in Collect(cands, existing).valid
    ensures exists i :: 0 <= i < |cands| && cands[i] == c && ProblemAt(cands, existing, i).None?
  {
    var n := |cands| - 1;
    LastStep(cands, existing);
    if c in Collect(cands[..n], existing).valid {
      AcceptedRowsClean(cands[..n], existing, c);
      var i :| 0 <= i < n && cands[..n][i] == c && ProblemAt(cands[..n], existing, i).None?;
      assert cands[i] == c;
    } else {
      assert ProblemAt(cands, existing, n).None?;
    }
  }

  /** Every accepted row passes every check, and the accepted ids are pairwise distinct and new to the club. */
  lemma {:induction false} ValidRowsSound(cands: seq<Candidate>, existing: set<string>)
    ensures forall c :: c in Collect(cands, existing).valid ==>
              WellFormed(c) && c.studentId !in existing && !BadEmail(c.email) && IsRole(c.role)
    ensures forall k, l :: 0 <= k < l < |Collect(cands, existing).valid| ==>
              Collect(cands, existing).valid[k].studentId != Collect(cands, existing).valid[l].studentId
    ensures forall c :: c in Collect(cands, existing).valid ==> c.studentId in Collect(cands, existing).seen
  {
    if cands != [] {
      var n := |cands| - 1;
      ValidRowsSound(cands[..n], existing);
      assert Collect(cands, existing) == StepRow(Collect(cands[..n], existing), cands[n], RowNumber(n), existing);
    }
  }

  // ---------------------------------------------------------------------------
  // The error policy

  /** What the validator returns: the accepted rows and the collected errors. */
  datatype Outcome = Outcome(valid: seq<Candidate>, errors: seq<RowError>)

  /** Why a whole upload is refused with 400. */
  datatype Refusal =
    | NoHeaders              // "CSV file is empty or has no headers"
    | Rejected(e: RowError)  // "Row n: ..." when errors are not skipped

  /** The row loop of `parse_and_validate_csv`. With `skipErrors` it collects every error;
      without, the first rejected row aborts the upload and is reported. */
  method ValidateRows(cands: seq<Candidate>, existing: set<string>, skipErrors: bool) returns (r: Result<Outcome, RowError>)
    ensures skipErrors ==> r == Ok(Outcome(Collect(cands, existing).valid, Collect(cands, existing).errors))
    ensures !skipErrors ==> (r.Ok? <==> Collect(cands, existing).errors == [])
    ensures !skipErrors && r.Ok? ==> r.value == Outcome(Collect(cands, existing).valid, [])
    ensures !skipErrors && r.Err? ==> r.error == Collect(cands, existing).errors[0]
  {
    var seen: set<string> := {};
    var valid: seq<Candidate> := [];
    var errors: seq<RowError> := [];
    var i := 0;
    while i < |cands|
      invariant 0 <= i <= |cands|
      invariant Progress(seen, valid, errors) == Collect(cands[..i], existing)
      invariant !skipErrors ==> errors == []
    {
      CollectSnoc(cands, existing, i);
      var c := cands[i];
      var problem := Check(c, seen, existing);
      if Reserves(c, seen, existing) {
        seen := seen + {c.studentId};
      }
      if problem.None? {
        valid := valid + [c];
      } else {
        errors := errors + [RowError(RowNumber(i), problem.value)];
        if !skipErrors {
          ErrorsOnlyGrow(cands, existing, i + 1);
          return Err(errors[0]);
        }
      }
      i := i + 1;
    }
    assert cands[..i] == cands;
    return Ok(Outcome(valid, errors));
  }

  /** Collecting over a prefix gives a prefix of the errors: later rows never change earlier verdicts. */
  lemma {:induction false} ErrorsOnlyGrow(cands: seq<Candidate>, existing: set<string>, n: nat)
    requires n <= |cands|
    ensures Collect(cands[..n], existing).errors <= Collect(cands, existing).errors
    decreases |cands| - n
  {
    if n < |cands| {
      ErrorsOnlyGrow(cands, existing, n + 1);
      CollectSnoc(cands, existing, n);
    } else {
      assert cands[..n] == cands;
    }
  }

  /** What `parse_and_validate_csv` returns, as a function of the file: a refusal for a file
      without header, the first rejected row when errors are not skipped, otherwise the
      accepted rows and every error. */
  function Validation(t: Table, existing: set<string>, skipErrors: bool, defaultRole: string): (r: Result<Outcome, Refusal>)
    ensures r == Err(NoHeaders) <==> t.fieldnames == []
    ensures r.Ok? ==> forall c :: c in r.value.valid ==> WellFormed(c) && c.studentId !in existing && IsRole(c.role)
    ensures r.Ok? && skipErrors ==> |r.value.valid| + |r.value.errors| == |t.records|
    ensures r.Ok? && !skipErrors ==> r.value.errors == []
  {
    if t.fieldnames == [] then Err(NoHeaders)
    else
      var p := Collect(Candidates(t, defaultRole), existing);
      ValidRowsSound(Candidates(t, defaultRole), existing);
      if skipErrors then Ok(Outcome(p.valid, p.errors))
      else if p.errors == [] then Ok(Outcome(p.valid, []))
      else Err(Rejected(p.errors[0]))
  }

  /** `parse_and_validate_csv` on a tokenized file. */
  method ParseAndValidateCsv(t: Table, existing: set<string>, skipErrors: bool, defaultRole: string)
    returns (r: Result<Outcome, Refusal>)
    ensures r == Validation(t, existing, skipErrors, defaultRole)
    ensures t.fieldnames == [] <==> r == Err(NoHeaders)
    ensures t.fieldnames != [] && skipErrors ==>
              r == Ok(Outcome(Collect(Candidates(t, defaultRole), existing).valid, Collect(Candidates(t, defaultRole), existing).errors))
    ensures t.fieldnames != [] && !skipErrors ==>
              (r.Ok? <==> Collect(Candidates(t, defaultRole), existing).errors == [])
    ensures t.fieldnames != [] && !skipErrors && r.Err? ==>
              r.error == Rejected(Collect(Candidates(t, defaultRole), existing).errors[0])
  {
    if t.fieldnames == [] {
      return Err(NoHeaders);
    }
    var rows := ValidateRows(Candidates(t, defaultRole), existing, skipErrors);
    match rows
    case Ok(o) => return Ok(o);
    case Err(e) => return Err(Rejected(e));
  }

  // ---------------------------------------------------------------------------
  // Inserting the accepted rows

  /** The student ids of the rows of `rows` belonging to a club. */
  function StudentIdsIn(rows: seq<Attendee>, clubId: Id): (ids: set<string>)
    ensures forall a :: a in rows && a.clubId == clubId ==> a.studentId in ids
    ensures forall s :: s in ids ==> exists a :: a in rows && a.clubId == clubId && a.studentId == s
  {
    set a | a in rows && a.clubId == clubId :: a.studentId
  }

  /** The student ids a club already holds: `existing_ids`. */
  function ClubStudentIds(db: Db, clubId: Id): set<string> {
    StudentIdsIn(db.attendees, clubId)
  }

  lemma StudentIdsAppend(xs: seq<Attendee>, ys: seq<Attendee>, clubId: Id)
    ensures StudentIdsIn(xs + ys, clubId) == StudentIdsIn(xs, clubId) + StudentIdsIn(ys, clubId)
  {
  }

  /** The row `upload_attendees` builds for one accepted attendee. */
  function UploadRecord(clubId: Id, c: Candidate, id: Id, importId: Option<Id>, now: int): Attendee {
    Attendee(id, clubId, c.name, c.studentId, c.email, None, c.role, None, None,
             None, importId, None, Some(0), None, None, now)
  }

  /** `upload_attendees`: nothing for an empty list; otherwise one row per attendee, with the
      ids the caller draws, inserted after the existing rows. Returns the new database and the count. */
  function UploadAttendees(db: Db, clubId: Id, valid: seq<Candidate>, ids: seq<Id>, importId: Option<Id>, now: int)
    : (r: (Db, nat))
    requires |ids| == |valid|
    ensures valid == [] ==> r == (db, 0)
    ensures r.1 == |valid|
    ensures r.0 == db.(attendees := r.0.attendees)
    ensures |r.0.attendees| == |db.attendees| + |valid| && r.0.attendees[..|db.attendees|] == db.attendees
    ensures forall i :: 0 <= i < |valid| ==>
              var a := r.0.attendees[|db.attendees| + i];
              a.id == ids[i] && a.clubId == clubId && a.name == valid[i].name && a.studentId == valid[i].studentId
              && a.email == valid[i].email && a.role == valid[i].role && a.count == Some(0) && a.importId == importId
  {
    if valid == [] then (db, 0)
    else
      var recs := UploadRows(clubId, valid, ids, importId, now);
      (db.(attendees := db.attendees + recs), |recs|)
  }

  /** The rows one upload inserts, in roster order. */
  function UploadRows(clubId: Id, valid: seq<Candidate>, ids: seq<Id>, importId: Option<Id>, now: int): (recs: seq<Attendee>)
    requires |ids| == |valid|
    ensures |recs| == |valid|
    ensures forall i :: 0 <= i < |valid| ==> recs[i] == UploadRecord(clubId, valid[i], ids[i], importId, now)
  {
    seq(|valid|, i requires 0 <= i < |valid| => UploadRecord(clubId, valid[i], ids[i], importId, now))
  }

  /** The inserted rows carry exactly the accepted student ids, all in the uploading club. */
  lemma UploadRowsIds(clubId: Id, valid: seq<Candidate>, ids: seq<Id>, importId: Option<Id>, now: int)
    requires |ids| == |valid|
    ensures StudentIdsIn(UploadRows(clubId, valid, ids, importId, now), clubId) == set c | c in valid :: c.studentId
  {
    var recs := UploadRows(clubId, valid, ids, importId, now);
    forall s | s in StudentIdsIn(recs, clubId)
      ensures s in set c | c in valid :: c.studentId
    {
      var a :| a in recs && a.clubId == clubId && a.studentId == s;
      var k :| 0 <= k < |recs| && recs[k] == a;
      assert valid[k] in valid;
    }
    forall s | s in set c | c in valid :: c.studentId
      ensures s in StudentIdsIn(recs, clubId)
    {
      var c :| c in valid && c.studentId == s;
      var i :| 0 <= i < |valid| && valid[i] == c;
      assert recs[i] in recs;
    }
  }

  /** After an upload the club holds exactly its old ids plus the accepted ones. */
  lemma UploadAddsIds(db: Db, clubId: Id, valid: seq<Candidate>, ids: seq<Id>, importId: Option<Id>, now: int)
    requires |ids| == |valid|
    ensures ClubStudentIds(UploadAttendees(db, clubId, valid, ids, importId, now).0, clubId)
            == ClubStudentIds(db, clubId) + set c | c in valid :: c.studentId
  {
    if valid != [] {
      var recs := UploadRows(clubId, valid, ids, importId, now);
      StudentIdsAppend(db.attendees, recs, clubId);
      UploadRowsIds(clubId, valid, ids, importId, now);
    }
  }

  /** Uploading the same roster again accepts nothing: every row accepted the first time is now
      stored, and every row rejected the first time is still rejected. */
  lemma SecondUploadAcceptsNothing(cands: seq<Candidate>, existing: set<string>, stored: set<string>)
    requires stored == existing + set c | c in Collect(cands, existing).valid :: c.studentId
    ensures Collect(cands, stored).valid == []
  {
    if Collect(cands, stored).valid != [] {
      var c := Collect(cands, stored).valid[0];
      AcceptedRowsClean(cands, stored, c);
      var i :| 0 <= i < |cands| && cands[i] == c && ProblemAt(cands, stored, i).None?;
      assert ProblemAt(cands, existing, i).None?;
      CleanRowsAccepted(cands, existing);
      assert false;
    }
  }
}

=== FILE: auth.dfy ===
/** Login and password change. Password checking and hashing are left abstract: `verify` stands
    for `verify_password(plain, hash)` and `hash` for `hash_password`. The signed token is not
    modelled; a successful login yields the claims that go into it. */
module Auth {
  import opened Wrappers
  import opened Seqs
  import opened Store
  import Platform

  const BadCredentials := "Invalid email or password"
  const Mismatch := "New passwords do not match"
  const TooShort := "Password must be at least 8 characters long"
  const WrongCurrent := "Current password is incorrect"
  const NoUser := "user not found"

  /** The shortest new password `change_password` accepts. */
  const MinPasswordLength := 8

  /** The two account tables, and the `user_type` of a token. */
  datatype UserType = PlatformUser | ClubUser

  /** An account as login reads it from either table. */
  datatype Account = Account(
    userType: UserType, id: Id, email: string, passwordHash: string,
    isActive: bool, mustChangePassword: bool, clubId: Option<Id>)

  /** The 403 detail for an inactive account: platform accounts are sent to support, club
      accounts to their club's owner. */
  function Deactivated(userType: UserType): string {
    match userType
    case PlatformUser => "Account is deactivated. Contact support."
    case ClubUser => "Account is deactivated. Contact your club owner."
  }

  function FromPlatform(p: PlatformAdmin): Account {
    Account(PlatformUser, p.id, p.email, p.passwordHash, p.isActive, p.mustChangePassword, None)
  }

  function FromClub(a: ClubAdmin): Account {
    Account(ClubUser, a.id, a.email, a.passwordHash, a.isActive, a.mustChangePassword, Some(a.clubId))
  }

  /** `WHERE email = :email` on each account table. */
  function PlatformHasEmail(email: string): PlatformAdmin -> bool {
    (p: PlatformAdmin) => p.email == email
  }

  function ClubHasEmail(email: string): ClubAdmin -> bool {
    (a: ClubAdmin) => a.email == email
  }

  /** The account login finds for `email`: the first platform administrator with it, and only
      when there is none, the first club administrator with it. */
  function FindAccount(db: Db, email: string): (r: Option<Account>)
    ensures (r.Some? && r.value.userType == PlatformUser) <==> exists p :: p in db.platformAdmins && p.email == email
    ensures r.None? <==> (forall p :: p in db.platformAdmins ==> p.email != email)
                         && (forall a :: a in db.clubAdmins ==> a.email != email)
    ensures r.Some? ==> r.value.email == email
    ensures r.Some? && r.value.userType == PlatformUser ==> exists p :: p in db.platformAdmins && FromPlatform(p) == r.value
    ensures r.Some? && r.value.userType == ClubUser ==> exists a :: a in db.clubAdmins && FromClub(a) == r.value
  {
    match FirstWhere(db.platformAdmins, PlatformHasEmail(email))
    case Some(p) => Some(FromPlatform(p))
    case None =>
      match FirstWhere(db.clubAdmins, ClubHasEmail(email))
      case Some(a) => Some(FromClub(a))
      case None => None
  }

  /** The claims of the token a successful login issues, with the response's `must_change_password`. */
  datatype Session = Session(userType: UserType, userId: Id, email: string, clubId: Option<Id>, mustChangePassword: bool)

  /** `login`: an inactive account is refused with 403 before its password is looked at; a wrong
      password, or an e-mail in neither table, is 401; otherwise the session of the account found. */
  function Login(db: Db, email: string, password: string, verify: (string, string) -> bool): (r: Result<Session, HttpError>)
    ensures var acc := FindAccount(db, email);
            && (r.Err? && r.error.status == Forbidden <==> acc.Some? && !acc.value.isActive)
            && (r.Err? && r.error.status == Unauthorized <==>
                  acc.None? || (acc.value.isActive && !verify(password, acc.value.passwordHash)))
            && (r.Ok? <==> acc.Some? && acc.value.isActive && verify(password, acc.value.passwordHash))
    ensures r.Err? ==> r.error.status in {Forbidden, Unauthorized}
    ensures r.Err? && r.error.status == Forbidden ==>
              r.error.reason == Deactivated(if exists p :: p in db.platformAdmins && p.email == email then PlatformUser else ClubUser)
    ensures r.Ok? ==>
              (r.value.userType == PlatformUser <==> exists p :: p in db.platformAdmins && p.email == email)
              && r.value.email == email
              && (r.value.clubId.Some? <==> r.value.userType == ClubUser)
    ensures r.Ok? && r.value.userType == ClubUser ==>
              exists a :: a in db.clubAdmins && a.email == email && a.isActive && verify(password, a.passwordHash)
                          && r.value == Session(ClubUser, a.id, email, Some(a.clubId), a.mustChangePassword)
    ensures r.Ok? && r.value.userType == PlatformUser ==>
              exists p :: p in db.platformAdmins && p.email == email && p.isActive && verify(password, p.passwordHash)
                          && r.value == Session(PlatformUser, p.id, email, None, p.mustChangePassword)
  {
    match FindAccount(db, email)
    case None => Err(HttpError(Unauthorized, BadCredentials))
    case Some(acc) =>
      if !acc.isActive then Err(HttpError(Forbidden, Deactivated(acc.userType)))
      else if !verify(password, acc.passwordHash) then Err(HttpError(Unauthorized, BadCredentials))
      else Ok(Session(acc.userType, acc.id, acc.email, acc.clubId, acc.mustChangePassword))
  }

  /** The stored hash `change_password` reads: that of the first row of the token's table with the
      token's e-mail. */
  function StoredHash(db: Db, userType: UserType, email: string): (r: Option<string>)
    ensures r.None? <==> if userType == PlatformUser then forall p :: p in db.platformAdmins ==> p.email != email
                         else forall a :: a in db.clubAdmins ==> a.email != email
  {
    match userType
    case PlatformUser =>
      (match FirstWhere(db.platformAdmins, PlatformHasEmail(email))
       case Some(p) => Some(p.passwordHash)
       case None => None)
    case ClubUser =>
      (match FirstWhere(db.clubAdmins, ClubHasEmail(email))
       case Some(a) => Some(a.passwordHash)
       case None => None)
  }

  function NewPlatformPassword(h: string): PlatformAdmin -> PlatformAdmin {
    (p: PlatformAdmin) => p.(passwordHash := h, mustChangePassword := false)
  }

  function NewClubPassword(h: string): ClubAdmin -> ClubAdmin {
    (a: ClubAdmin) => a.(passwordHash := h, mustChangePassword := false)
  }

  /** `change_password` for the `user_type` and e-mail of the caller's token. The new password must
      equal its confirmation (400), then be at least 8 characters long (400); a caller with no row
      in its table fails when the missing row's hash is read (500); a wrong current password is
      401. Otherwise every row of that table with the e-mail gets the new hash and no longer has
      to change its password, and nothing else changes. */
  function ChangePassword(db: Db, userType: UserType, email: string, current: string, newPassword: string, confirm: string,
                          verify: (string, string) -> bool, hash: string -> string): (r: Result<Db, HttpError>)
    ensures (r == Err(HttpError(BadRequest, Mismatch))) <==> newPassword != confirm
    ensures (r == Err(HttpError(BadRequest, TooShort))) <==> newPassword == confirm && |newPassword| < MinPasswordLength
    ensures r.Err? && r.error.status == Unauthorized ==> StoredHash(db, userType, email).Some?
    ensures r.Ok? <==>
              newPassword == confirm && |newPassword| >= MinPasswordLength
              && StoredHash(db, userType, email).Some? && verify(current, StoredHash(db, userType, email).value)
    ensures r.Ok? && userType == PlatformUser ==>
              var d := r.value;
              d == db.(platformAdmins := d.platformAdmins) && |d.platformAdmins| == |db.platformAdmins|
              && forall i :: 0 <= i < |db.platformAdmins| ==>
                   var (p, p') := (db.platformAdmins[i], d.platformAdmins[i]);
                   p' == if p.email == email then p.(passwordHash := hash(newPassword), mustChangePassword := false) else p
    ensures r.Ok? && userType == ClubUser ==>
              var d := r.value;
              d == db.(clubAdmins := d.clubAdmins) && |d.clubAdmins| == |db.clubAdmins|
              && forall i :: 0 <= i < |db.clubAdmins| ==>
                   var (a, a') := (db.clubAdmins[i], d.clubAdmins[i]);
                   a' == if a.email == email then a.(passwordHash := hash(newPassword), mustChangePassword := false) else a
  {
    if newPassword != confirm then Err(HttpError(BadRequest, Mismatch))
    else if |newPassword| < MinPasswordLength then Err(HttpError(BadRequest, TooShort))
    else
      match StoredHash(db, userType, email)
      case None => Err(HttpError(ServerError, NoUser))
      case Some(h) =>
        if !verify(current, h) then Err(HttpError(Unauthorized, WrongCurrent))
        else if userType == PlatformUser then
          Ok(db.(platformAdmins := MapWhere(db.platformAdmins, PlatformHasEmail(email), NewPlatformPassword(hash(newPassword)))))
        else
          Ok(db.(clubAdmins := MapWhere(db.clubAdmins, ClubHasEmail(email), NewClubPassword(hash(newPassword)))))
  }

  /** After a password change the account logs in with the new password, when the hash of the new
      password verifies it, and is no longer asked to change it. */
  lemma LoginAfterChange(db: Db, userType: UserType, email: string, current: string, newPassword: string,
                         verify: (string, string) -> bool, hash: string -> string)
    requires ChangePassword(db, userType, email, current, newPassword, newPassword, verify, hash).Ok?
    requires FindAccount(db, email).Some? && FindAccount(db, email).value.userType == userType
    requires FindAccount(db, email).value.isActive
    requires verify(newPassword, hash(newPassword))
    ensures var acc := FindAccount(db, email).value;
            Login(ChangePassword(db, userType, email, current, newPassword, newPassword, verify, hash).value, email, newPassword, verify)
            == Ok(Session(userType, acc.id, email, acc.clubId, false))
  {
    var h := hash(newPassword);
    if userType == PlatformUser {
      assert ChangePassword(db, userType, email, current, newPassword, newPassword, verify, hash).value
             == db.(platformAdmins := MapWhere(db.platformAdmins, PlatformHasEmail(email), NewPlatformPassword(h)));
      LoginAfterPlatformChange(db, email, h, newPassword, verify);
    } else {
      assert ChangePassword(db, userType, email, current, newPassword, newPassword, verify, hash).value
             == db.(clubAdmins := MapWhere(db.clubAdmins, ClubHasEmail(email), NewClubPassword(h)));
      LoginAfterClubChange(db, email, h, newPassword, verify);
    }
  }

  /** A platform administrator whose rows got the new hash logs in with the new password. */
  lemma LoginAfterPlatformChange(db: Db, email: string, h: string, password: string, verify: (string, string) -> bool)
    requires FindAccount(db, email).Some? && FindAccount(db, email).value.userType == PlatformUser
    requires FindAccount(db, email).value.isActive && verify(password, h)
    ensures var acc := FindAccount(db, email).value;
            Login(db.(platformAdmins := MapWhere(db.platformAdmins, PlatformHasEmail(email), NewPlatformPassword(h))), email, password, verify)
            == Ok(Session(PlatformUser, acc.id, email, None, false))
  {
    FirstWhereAfterMap(db.platformAdmins, PlatformHasEmail(email), NewPlatformPassword(h), PlatformHasEmail(email));
  }

  /** A club administrator whose rows got the new hash logs in with the new password. */
  lemma LoginAfterClubChange(db: Db, email: string, h: string, password: string, verify: (string, string) -> bool)
    requires FindAccount(db, email).Some? && FindAccount(db, email).value.userType == ClubUser
    requires FindAccount(db, email).value.isActive && verify(password, h)
    ensures var acc := FindAccount(db, email).value;
            Login(db.(clubAdmins := MapWhere(db.clubAdmins, ClubHasEmail(email), NewClubPassword(h))), email, password, verify)
            == Ok(Session(ClubUser, acc.id, email, acc.clubId, false))
  {
    FirstWhereAfterMap(db.clubAdmins, ClubHasEmail(email), NewClubPassword(h), ClubHasEmail(email));
  }

  /** A deactivated club administrator that the platform reactivates logs in again with the
      password it had. */
  lemma LoginAfterActivation(db: Db, id: Id, email: string, password: string, verify: (string, string) -> bool)
    requires Platform.ActivateAdmin(db, id).Ok?
    requires FindAccount(db, email).Some? && FindAccount(db, email).value.userType == ClubUser
    requires FindAccount(db, email).value.id == id
    requires verify(password, FindAccount(db, email).value.passwordHash)
    ensures var acc := FindAccount(db, email).value;
            Login(Platform.ActivateAdmin(db, id).value, email, password, verify)
            == Ok(Session(ClubUser, id, email, acc.clubId, acc.mustChangePassword))
  {
    FirstWhereAfterMap(db.clubAdmins, Platform.IsAdmin(id), Platform.Activate, ClubHasEmail(email));
  }

  /** After a reset the administrator logs in with the temporary password, when its hash verifies
      it, and is told to change it. */
  lemma LoginAfterReset(db: Db, id: Id, temp: string, hash: string -> string, email: string, verify: (string, string) -> bool)
    requires Platform.ResetPassword(db, id, temp, hash).Ok?
    requires FindAccount(db, email).Some? && FindAccount(db, email).value.userType == ClubUser
    requires FindAccount(db, email).value.id == id && FindAccount(db, email).value.isActive
    requires verify(temp, hash(temp))
    ensures var acc := FindAccount(db, email).value;
            Login(Platform.ResetPassword(db, id, temp, hash).value.0, email, temp, verify)
            == Ok(Session(ClubUser, id, email, acc.clubId, true))
  {
    FirstWhereAfterMap(db.clubAdmins, Platform.IsAdmin(id), Platform.TempPassword(hash(temp)), ClubHasEmail(email));
  }
}

=== FILE: certificate_render.dfy ===
/** The composition arithmetic of certificate rendering: which text a descriptor prints, where
    alignment puts it, and the colour it is drawn in. Drawing itself, fonts and text measurement
    are outside the model; the measured text width is a parameter. */
module CertificateRender {
  import opened Wrappers
  import opened Text
  import opened Store
  import opened TemplateSchema

  /** The text under a key of a stored descriptor: a JSON string, or "" when the key is absent. */
  function TextOf(o: Object, key: string): string {
    if key in o && o[key].JStr? then o[key].s else ""
  }

  /** `field.get(key, default)` for a string-valued key. */
  function TextOr(o: Object, key: string, default: string): string {
    if key !in o then default else TextOf(o, key)
  }

  /** `int(field.get(key, default))` for an integer-valued key. */
  function IntOr(o: Object, key: string, default: int): int {
    if key in o && o[key].JInt? then o[key].i else default
  }

  /** `str(field.get("field_type") or field.get("field") or "").lower()`. */
  function FieldTypeText(field: Object): (s: string)
    ensures HasNoUpper(s)
  {
    Lower(Or(TextOf(field, "field_type"), TextOf(field, "field")))
  }

  /** `_resolve_field_value`: the text a descriptor of the given type prints for an attendee.
      `fmt` is the date formatting (`strftime("%B %d, %Y")`) and `now` the current time. */
  function FieldValue(fieldType: string, a: Attendee, t: Template, field: Object, now: int, fmt: int -> string): (v: string)
    ensures fieldType !in {"name", "student_id", "date", "achievement", "custom"} ==> v == ""
    ensures fieldType == "achievement" && v == "" ==>
              a.course.GetOr("") == "" && a.eventName.GetOr("") == "" && t.eventName.GetOr("") == ""
    ensures fieldType == "custom" && TextOf(field, "field_name") != "" ==> v == TextOf(field, "field_name")
  {
    if fieldType == "name" then a.name
    else if fieldType == "student_id" then a.studentId
    else if fieldType == "date" then
      (if a.eventDate.Some? then fmt(a.eventDate.value) else fmt(now))
    else if fieldType == "achievement" then
      Or(Or(a.course.GetOr(""), a.eventName.GetOr("")), t.eventName.GetOr(""))
    else if fieldType == "custom" then
      Or(TextOf(field, "field_name"), TextOr(field, "label", ""))
    else ""
  }

  /** Every type name is already lower-case, so a stored descriptor is read back as its own type. */
  lemma FieldTypeTextOfDump(d: Descriptor)
    ensures FieldTypeText(Dump(d)) == FieldTypeValue(d.fieldType)
  {
    var v := FieldTypeValue(d.fieldType);
    assert TextOf(Dump(d), "field_type") == v;
    assert v != "";
    assert HasNoUpper(v);
    LowerFixesLowered(v);
  }

  /** What a descriptor a template stores prints: the attendee's name or student id, the event
      date (else today), the first non-empty of course, the attendee's event and the template's
      event, or the descriptor's own label. */
  lemma StoredDescriptorValue(d: Descriptor, a: Attendee, t: Template, now: int, fmt: int -> string)
    requires ValidDescriptor(d)
    ensures FieldValue(FieldTypeText(Dump(d)), a, t, Dump(d), now, fmt)
            == match d.fieldType
               case NameField => a.name
               case StudentIdField => a.studentId
               case DateField => if a.eventDate.Some? then fmt(a.eventDate.value) else fmt(now)
               case AchievementField =>
                 if a.course.GetOr("") != "" then a.course.value
                 else if a.eventName.GetOr("") != "" then a.eventName.value
                 else t.eventName.GetOr("")
               case CustomField => d.fieldName
  {
    FieldTypeTextOfDump(d);
    assert TextOf(Dump(d), "field_name") == d.fieldName;
  }

  /** `_apply_alignment`: the x at which text of measured `width` starts so that it is left-,
      centre- or right-aligned on `x`. Alignment names are compared case-insensitively; an absent
      or empty alignment, or any other name, means left. */
  function AlignedX(text: string, x: int, align: Option<string>, width: nat): (r: int)
    ensures text == "" ==> r == x
    ensures r <= x && x - r <= width
    ensures text != "" && Lower(Or(align.GetOr(""), "left")) == "right" ==> r + width == x
    ensures text != "" && Lower(Or(align.GetOr(""), "left")) == "center" ==> r + width / 2 == x
    ensures Lower(Or(align.GetOr(""), "left")) !in {"center", "right"} ==> r == x
  {
    if text == "" then x
    else
      var a := Lower(Or(align.GetOr(""), "left"));
      if a != "center" && a != "right" then x
      else if a == "center" then x - width / 2
      else x - width
  }

  /** Alignment names that differ only in letter case align alike. */
  lemma AlignmentIgnoresCase(text: string, x: int, a1: string, a2: string, width: nat)
    requires a1 != "" && a2 != "" && Lower(a1) == Lower(a2)
    ensures AlignedX(text, x, Some(a1), width) == AlignedX(text, x, Some(a2), width)
  {
  }

  /** An RGB triple as `_hex_to_rgb` returns it. */
  datatype Rgb = Rgb(red: int, green: int, blue: int)

  const Black := Rgb(0, 0, 0)

  predicate IsHexDigit(c: char) {
    '0' <= c <= '9' || 'a' <= c <= 'f' || 'A' <= c <= 'F'
  }

  function HexValue(c: char): (n: nat)
    requires IsHexDigit(c)
    ensures n < 16
  {
    if '0' <= c <= '9' then c as int - '0' as int
    else if 'a' <= c <= 'f' then c as int - 'a' as int + 10
    else c as int - 'A' as int + 10
  }

  /** `int(p, 16)` on a two-character string: two hex digits, or one hex digit beside a sign
      or beside whitespace (which `int` ignores); anything else is a `ValueError`. Digits outside
      ASCII are not modelled. */
  function PairValue(p: string): (v: Option<int>)
    requires |p| == 2
    ensures IsHexDigit(p[0]) && IsHexDigit(p[1]) ==> v == Some(16 * HexValue(p[0]) + HexValue(p[1]))
    ensures v.Some? ==> -15 <= v.value <= 255
  {
    if IsHexDigit(p[0]) && IsHexDigit(p[1]) then Some(16 * HexValue(p[0]) + HexValue(p[1]))
    else if p[0] == '+' && IsHexDigit(p[1]) then Some(HexValue(p[1]))
    else if p[0] == '-' && IsHexDigit(p[1]) then Some(0 - HexValue(p[1]))
    else if IsSpace(p[0]) && IsHexDigit(p[1]) then Some(HexValue(p[1]))
    else if IsHexDigit(p[0]) && IsSpace(p[1]) then Some(HexValue(p[0]))
    else None
  }

  /** The colour text once trimmed and stripped of leading '#'. */
  function ColorBody(s: string): string {
    DropLeading(Strip(s), '#')
  }

  /** The three pair values of a six-character body, or black when it is not six characters
      long or a pair fails to parse. */
  function RgbOfBody(b: string): (c: Rgb)
    ensures |b| == 6 && (forall i :: 0 <= i < 6 ==> IsHexDigit(b[i])) ==>
              c == Rgb(16 * HexValue(b[0]) + HexValue(b[1]), 16 * HexValue(b[2]) + HexValue(b[3]),
                       16 * HexValue(b[4]) + HexValue(b[5]))
              && 0 <= c.red <= 255 && 0 <= c.green <= 255 && 0 <= c.blue <= 255
  {
    if |b| != 6 then Black
    else
      var (r, g, bl) := (PairValue(b[0..2]), PairValue(b[2..4]), PairValue(b[4..6]));
      if r.Some? && g.Some? && bl.Some? then Rgb(r.value, g.value, bl.value) else Black
  }

  /** `_hex_to_rgb`: black for an empty string, for a body that is not six characters long, or
      when any pair fails to parse; otherwise the three pair values. */
  function HexToRgb(s: string): (c: Rgb)
    ensures s == "" || |ColorBody(s)| != 6 ==> c == Black
    ensures s != "" ==> c == RgbOfBody(ColorBody(s))
  {
    if s == "" then Black else RgbOfBody(ColorBody(s))
  }

  function HexDigit(n: nat): (c: char)
    requires n < 16
    ensures IsHexDigit(c) && HexValue(c) == n
  {
    if n < 10 then ('0' as int + n) as char else ('a' as int + n - 10) as char
  }

  /** A byte as two lower-case hex digits. */
  function HexByte(n: nat): (s: string)
    requires n < 256
    ensures |s| == 2 && IsHexDigit(s[0]) && IsHexDigit(s[1]) && 16 * HexValue(s[0]) + HexValue(s[1]) == n
  {
    [HexDigit(n / 16), HexDigit(n % 16)]
  }

  /** The `#rrggbb` spelling of a colour whose components are bytes. */
  function FormatHex(c: Rgb): (s: string)
    requires 0 <= c.red < 256 && 0 <= c.green < 256 && 0 <= c.blue < 256
    ensures |s| == 7 && s[0] == '#'
  {
    "#" + HexByte(c.red) + HexByte(c.green) + HexByte(c.blue)
  }

  /** A colour text with no whitespace at either end and no leading '#' is its own body. */
  lemma BodyOfPlain(s: string)
    requires s != [] && s[0] != '#' && !IsSpace(s[0]) && !IsSpace(s[|s| - 1])
    ensures ColorBody(s) == s
  {
    StripFixesStripped(s);
    var b := ColorBody(s);
    assert b == s[|s| - |b|..];
  }

  /** A colour text with one leading '#' and no whitespace at either end has the rest as its body. */
  lemma BodyOfHashed(s: string)
    requires |s| >= 2 && s[0] == '#' && s[1] != '#' && !IsSpace(s[|s| - 1])
    ensures ColorBody(s) == s[1..]
  {
    assert !IsSpace(s[0]);
    StripFixesStripped(s);
    var b := ColorBody(s);
    assert b == s[|s| - |b|..];
  }

  /** Parsing the `#rrggbb` spelling of a byte colour gives the colour back. */
  lemma HexRoundTrip(c: Rgb)
    requires 0 <= c.red < 256 && 0 <= c.green < 256 && 0 <= c.blue < 256
    ensures HexToRgb(FormatHex(c)) == c
  {
    var s := FormatHex(c);
    var body := HexByte(c.red) + HexByte(c.green) + HexByte(c.blue);
    assert s[1..] == body;
    assert IsHexDigit(s[1]) && IsHexDigit(s[6]);
    BodyOfHashed(s);
    ByteBodyRoundTrip(c);
  }

  lemma ByteBodyRoundTrip(c: Rgb)
    requires 0 <= c.red < 256 && 0 <= c.green < 256 && 0 <= c.blue < 256
    ensures RgbOfBody(HexByte(c.red) + HexByte(c.green) + HexByte(c.blue)) == c
  {
    var body := HexByte(c.red) + HexByte(c.green) + HexByte(c.blue);
    assert body[0..2] == HexByte(c.red) && body[2..4] == HexByte(c.green) && body[4..6] == HexByte(c.blue);
  }

  /** `int` accepts a sign, so a six-character colour need not give bytes: "-f0000" gives a
      negative red component. */
  lemma SignedColorIsNotAByte(s: string)
    requires |s| == 6 && s[0] == '-' && IsHexDigit(s[1])
    requires forall i :: 2 <= i < 6 ==> IsHexDigit(s[i])
    ensures HexToRgb(s).red == 0 - HexValue(s[1])
  {
    assert !IsSpace(s[5]) by { assert IsHexDigit(s[5]); }
    BodyOfPlain(s);
    SignedBody(s);
  }

  lemma SignedBody(s: string)
    requires |s| == 6 && s[0] == '-' && IsHexDigit(s[1])
    requires forall i :: 2 <= i < 6 ==> IsHexDigit(s[i])
    ensures RgbOfBody(s).red == 0 - HexValue(s[1])
  {
    var p := s[0..2];
    assert p[0] == '-' && p[1] == s[1];
    assert PairValue(s[2..4]).Some? by { assert s[2..4][0] == s[2] && s[2..4][1] == s[3]; }
    assert PairValue(s[4..6]).Some? by { assert s[4..6][0] == s[4] && s[4..6][1] == s[5]; }
  }

  /** One drawn text: what, where, and in which colour. */
  datatype Placement = Placement(text: string, x: int, y: int, color: Rgb)

  /** The per-descriptor step of the drawing loop: value, colour, coordinates and alignment.
      `width(text, family, size)` stands for the measured text width. */
  function Place(field: Object, a: Attendee, t: Template, now: int, fmt: int -> string,
                 width: (string, string, int) -> nat): Placement
  {
    var value := FieldValue(FieldTypeText(field), a, t, field, now, fmt);
    var size := IntOr(field, "font_size", 40);
    var family := TextOr(field, "font_family", "Arial");
    var color := HexToRgb(Or(TextOf(field, "font_color"), TextOr(field, "color", "#000000")));
    var align := if "align" in field && field["align"].JStr? then Some(field["align"].s) else if "align" in field then None else Some("left");
    var x := AlignedX(value, IntOr(field, "x", 0), align, width(value, family, size));
    Placement(value, x, IntOr(field, "y", 0), color)
  }

  /** The drawing loop over a template's stored descriptors, in order. */
  function Layout(fields: seq<Object>, a: Attendee, t: Template, now: int, fmt: int -> string,
                  width: (string, string, int) -> nat): (ps: seq<Placement>)
    ensures |ps| == |fields|
    ensures forall i :: 0 <= i < |fields| ==> ps[i] == Place(fields[i], a, t, now, fmt, width)
  {
    seq(|fields|, i requires 0 <= i < |fields| => Place(fields[i], a, t, now, fmt, width))
  }

  /** A stored left-aligned descriptor is drawn at its own coordinates, in its own colour when that
      is a byte colour spelled `#rrggbb`. */
  lemma StoredLeftDescriptorPlacement(d: Descriptor, a: Attendee, t: Template, now: int, fmt: int -> string,
                                      width: (string, string, int) -> nat, c: Rgb)
    requires ValidDescriptor(d) && Lower(d.align) !in {"center", "right"} && d.align != ""
    requires 0 <= c.red < 256 && 0 <= c.green < 256 && 0 <= c.blue < 256 && d.fontColor == FormatHex(c)
    ensures var p := Place(Dump(d), a, t, now, fmt, width);
            p.x == d.x && p.y == d.y && p.color == c
  {
    var o := Dump(d);
    DumpFields(d);
    assert TextOf(o, "font_color") == FormatHex(c);
    assert IntOr(o, "x", 0) == d.x && IntOr(o, "y", 0) == d.y;
    HexRoundTrip(c);
  }
}

=== FILE: certificate_service.dfy ===
/** Public certificate issuance: the club, attendee and template lookups, the event override,
    the certificate id, and the generation ledger kept on the attendee row. */
module CertificateService {
  import opened Wrappers
  import opened Text
  import opened Seqs
  import opened Store
  import ClubService
  import opened CertificateRender

  const ClubMissing := "Club not found"
  const AttendeeMissing := "No matching attendee found"
  const EventMissing := "Event not found"
  const TemplateMissing := "No active template found for this club"

  // ---------------------------------------------------------------- club lookup

  /** The slug lookup as this service writes it: the slug is compared exactly as given. */
  function GetClubBySlugAsWritten(db: Db, slug: string): (r: Result<Club, HttpError>)
    ensures r.Err? <==> forall c :: c in db.clubs ==> !(c.slug == slug && c.isActive)
    ensures r.Ok? ==> r.value in db.clubs && r.value.slug == slug && r.value.isActive
  {
    match FirstWhere(db.clubs, (c: Club) => c.slug == slug && c.isActive)
    case Some(c) => Ok(c)
    case None => Err(HttpError(NotFound, ClubMissing))
  }

  /** Stored slugs are lower-case (club creation lowers them), so a slug typed with a capital
      letter finds no club here, while the club service's lookup, which lowers its input, finds
      the club. */
  lemma CapitalisedSlugMissed(db: Db, asked: string)
    requires forall c :: c in db.clubs ==> HasNoUpper(c.slug)
    requires !HasNoUpper(asked)
    requires exists c :: c in db.clubs && c.slug == Lower(asked) && c.isActive
    ensures GetClubBySlugAsWritten(db, asked) == Err(HttpError(NotFound, ClubMissing))
    ensures ClubService.GetClubBySlug(db, asked).Ok?
  {
    assert forall c :: c in db.clubs ==> c.slug != asked;
  }

  // ---------------------------------------------------------------- attendee lookup

  /** `if role:` - an absent or empty role does not filter. */
  predicate RoleAllows(role: Option<string>, actual: string) {
    role.None? || role.value == "" || actual == role.value
  }

  /** The conditions of `get_attendee_for_verification`: same club, exact student id, names
      equal ignoring case, and the role when one is given. */
  predicate Matches(a: Attendee, clubId: Id, name: string, studentId: string, role: Option<string>) {
    a.clubId == clubId && a.studentId == studentId && Lower(a.name) == Lower(name) && RoleAllows(role, a.role)
  }

  function MatchesFor(clubId: Id, name: string, studentId: string, role: Option<string>): Attendee -> bool {
    (a: Attendee) => Matches(a, clubId, name, studentId, role)
  }

  /** `get_attendee_for_verification`: the first matching attendee, else 404. */
  function FindAttendee(db: Db, clubId: Id, name: string, studentId: string, role: Option<string>): (r: Result<Attendee, HttpError>)
    ensures r.Err? <==> forall a :: a in db.attendees ==> !Matches(a, clubId, name, studentId, role)
    ensures r.Err? ==> r.error.status == NotFound
    ensures r.Ok? ==> r.value in db.attendees && Matches(r.value, clubId, name, studentId, role)
  {
    match FirstWhere(db.attendees, MatchesFor(clubId, name, studentId, role))
    case Some(a) => Ok(a)
    case None => Err(HttpError(NotFound, AttendeeMissing))
  }

  /** Names that differ only in letter case find the same attendee. */
  lemma NameCaseIgnored(db: Db, clubId: Id, n1: string, n2: string, studentId: string, role: Option<string>)
    requires Lower(n1) == Lower(n2)
    ensures FindAttendee(db, clubId, n1, studentId, role) == FindAttendee(db, clubId, n2, studentId, role)
  {
    FirstWhereSame(db.attendees, MatchesFor(clubId, n1, studentId, role), MatchesFor(clubId, n2, studentId, role));
  }

  /** Giving a role only narrows the search: a match with a role is a match without one. */
  lemma RoleOnlyNarrows(db: Db, clubId: Id, name: string, studentId: string, role: string)
    requires FindAttendee(db, clubId, name, studentId, Some(role)).Ok?
    ensures FindAttendee(db, clubId, name, studentId, None).Ok?
    ensures FindAttendee(db, clubId, name, studentId, None).value.studentId
            == FindAttendee(db, clubId, name, studentId, Some(role)).value.studentId
  {
    var a := FindAttendee(db, clubId, name, studentId, Some(role)).value;
    assert Matches(a, clubId, name, studentId, None);
  }

  /** The attendee's club is an active one (the join of the cross-club query). */
  predicate InActiveClub(db: Db, a: Attendee) {
    exists c :: c in db.clubs && c.id == a.clubId && c.isActive
  }

  /** The conditions of `get_attendee_for_verification_any_club`. */
  predicate MatchesAnyClub(db: Db, a: Attendee, name: string, studentId: string, role: Option<string>) {
    a.studentId == studentId && Lower(a.name) == Lower(name) && RoleAllows(role, a.role) && InActiveClub(db, a)
  }

  /** `get_attendee_for_verification_any_club`: among the matches in active clubs, the most
      recently updated one, else 404. */
  function FindAttendeeAnyClub(db: Db, name: string, studentId: string, role: Option<string>): (r: Result<Attendee, HttpError>)
    ensures r.Err? <==> forall a :: a in db.attendees ==> !MatchesAnyClub(db, a, name, studentId, role)
    ensures r.Ok? ==> r.value in db.attendees && MatchesAnyClub(db, r.value, name, studentId, role)
    ensures r.Ok? ==> forall a :: a in db.attendees && MatchesAnyClub(db, a, name, studentId, role) ==> a.updatedAt <= r.value.updatedAt
  {
    var found := Filter(db.attendees, (a: Attendee) => MatchesAnyClub(db, a, name, studentId, role));
    assert forall a :: a in db.attendees && MatchesAnyClub(db, a, name, studentId, role) ==> a in found;
    match ArgMax(found, (a: Attendee) => a.updatedAt)
    case Some(a) => Ok(a)
    case None => Err(HttpError(NotFound, AttendeeMissing))
  }

  /** The cross-club answer is also found by the in-club lookup of its own club. */
  lemma AnyClubAgreesWithClubLookup(db: Db, name: string, studentId: string, role: Option<string>)
    requires FindAttendeeAnyClub(db, name, studentId, role).Ok?
    ensures var a := FindAttendeeAnyClub(db, name, studentId, role).value;
            FindAttendee(db, a.clubId, name, studentId, role).Ok?
  {
    var a := FindAttendeeAnyClub(db, name, studentId, role).value;
    assert Matches(a, a.clubId, name, studentId, role);
  }

  // ---------------------------------------------------------------- template resolution

  /** A template the club may issue with: its own and active. */
  predicate Usable(t: Template, clubId: Id) {
    t.clubId == clubId && t.isActive
  }

  predicate AudienceFits(t: Template, audience: Option<string>) {
    audience.None? || t.audience == audience.value
  }

  /** `resolve_template`: an explicit template id, else the attendee's stored template id, else
      the club's most recently updated active template for the audience. Whichever tier is chosen
      is final: a miss there is 404 even when another tier would have found a template. */
  function ResolveTemplate(db: Db, clubId: Id, templateId: Option<Id>, attendeeTemplateId: Option<Id>,
                           audience: Option<string>): (r: Result<Template, HttpError>)
    ensures r.Ok? ==> r.value in db.templates && Usable(r.value, clubId)
    ensures r.Err? ==> r.error.status == NotFound
    ensures templateId.Some? ==>
              (r.Ok? <==> exists t :: t in db.templates && t.id == templateId.value && Usable(t, clubId))
              && (r.Ok? ==> r.value.id == templateId.value)
    ensures templateId.None? && attendeeTemplateId.Some? ==>
              (r.Ok? <==> exists t :: t in db.templates && t.id == attendeeTemplateId.value && Usable(t, clubId))
              && (r.Ok? ==> r.value.id == attendeeTemplateId.value)
    ensures templateId.None? && attendeeTemplateId.None? ==>
              (r.Ok? <==> exists t :: t in db.templates && Usable(t, clubId) && AudienceFits(t, audience))
              && (r.Ok? ==> AudienceFits(r.value, audience)
                            && forall t :: t in db.templates && Usable(t, clubId) && AudienceFits(t, audience) ==>
                                 t.updatedAt <= r.value.updatedAt)
  {
    var chosen := if templateId.Some? then templateId else attendeeTemplateId;
    var found :=
      if chosen.Some? then FirstWhere(db.templates, (t: Template) => t.id == chosen.value && Usable(t, clubId))
      else
        var pool := Filter(db.templates, (t: Template) => Usable(t, clubId) && AudienceFits(t, audience));
        assert forall t :: t in db.templates && Usable(t, clubId) && AudienceFits(t, audience) ==> t in pool;
        ArgMax(pool, (t: Template) => t.updatedAt);
    match found
    case Some(t) => Ok(t)
    case None => Err(HttpError(NotFound, TemplateMissing))
  }

  // ---------------------------------------------------------------- certificate id

  /** `f"CERT-{club_slug.upper()}-{student_id}"`. */
  function CertificateId(slug: string, studentId: string): string {
    "CERT-" + Upper(slug) + "-" + studentId
  }

  /** The id reads back as its parts: the prefix, the upper-cased slug, a dash and the student id,
      so for one club it determines the student id. */
  lemma CertificateIdParts(slug: string, studentId: string)
    ensures var id := CertificateId(slug, studentId);
            |id| == 6 + |slug| + |studentId| && id[..5] == "CERT-" && id[5..5 + |slug|] == Upper(slug)
            && id[5 + |slug|] == '-' && id[6 + |slug|..] == studentId
  {
  }

  lemma CertificateIdDeterminesStudent(slug: string, s1: string, s2: string)
    requires CertificateId(slug, s1) == CertificateId(slug, s2)
    ensures s1 == s2
  {
    CertificateIdParts(slug, s1);
    CertificateIdParts(slug, s2);
  }

  /** Slugs that differ only in letter case give the same certificate id. */
  lemma CertificateIdIgnoresSlugCase(s1: string, s2: string, studentId: string)
    requires Lower(s1) == Lower(s2)
    ensures CertificateId(s1, studentId) == CertificateId(s2, studentId)
  {
    assert |s1| == |s2|;
    forall i | 0 <= i < |s1|
      ensures Upper(s1)[i] == Upper(s2)[i]
    {
      assert Lower(s1)[i] == Lower(s2)[i];
    }
    assert Upper(s1) == Upper(s2);
  }

  // ---------------------------------------------------------------- the generation ledger

  /** `COALESCE(certificate_generated_count, 0)`. */
  function CountOf(a: Attendee): int {
    a.count.GetOr(0)
  }

  /** The number of generation records for an attendee id. */
  function GenerationsOf(db: Db, attendeeId: Id): nat {
    Count(db.generations, (g: Generation) => g.attendeeId == attendeeId)
  }

  /** The ledger invariant: each attendee's counter equals its number of generation records. */
  predicate LedgerExact(db: Db) {
    forall a :: a in db.attendees ==> CountOf(a) == GenerationsOf(db, a.id)
  }

  /** The application's `UPDATE attendees` after a generation. */
  function AppUpdate(a: Attendee, now: int, templateId: Id): Attendee {
    a.(count := Some(CountOf(a) + 1), firstAt := Some(a.firstAt.GetOr(now)), lastAt := Some(now), templateId := Some(templateId))
  }

  /** The `update_certificate_count` trigger that fires after each generation insert. */
  function TriggerUpdate(a: Attendee, generatedAt: int): Attendee {
    a.(count := Some(CountOf(a) + 1), firstAt := Some(a.firstAt.GetOr(generatedAt)), lastAt := Some(generatedAt))
  }

  function IsAttendee(id: Id): Attendee -> bool {
    (a: Attendee) => a.id == id
  }

  /** Recording a generation as the code and the schema do together: the insert fires the trigger,
      then the application updates the same row again. */
  function RecordGenerationAsWritten(db: Db, g: Generation, now: int): (db': Db)
    ensures db' == db.(generations := db.generations + [g], attendees := db'.attendees)
    ensures |db'.attendees| == |db.attendees|
    ensures forall i :: 0 <= i < |db.attendees| ==>
              var (a, a') := (db.attendees[i], db'.attendees[i]);
              if a.id == g.attendeeId then
                CountOf(a') == CountOf(a) + 2 && a'.lastAt == Some(now) && a'.templateId == Some(g.templateId)
                && a'.id == a.id && a'.studentId == a.studentId && a'.clubId == a.clubId
              else a' == a
  {
    var triggered := MapWhere(db.attendees, IsAttendee(g.attendeeId), (a: Attendee) => TriggerUpdate(a, g.generatedAt));
    db.(generations := db.generations + [g],
        attendees := MapWhere(triggered, IsAttendee(g.attendeeId), (a: Attendee) => AppUpdate(a, now, g.templateId)))
  }

  /** Both writers count the same generation: an attendee whose counter was exact before reads
      one more than its number of generation records afterwards. */
  lemma AsWrittenCountsTwice(db: Db, g: Generation, now: int, i: nat)
    requires LedgerExact(db)
    requires i < |db.attendees| && db.attendees[i].id == g.attendeeId
    ensures var db' := RecordGenerationAsWritten(db, g, now);
            CountOf(db'.attendees[i]) == GenerationsOf(db', g.attendeeId) + 1
            && !LedgerExact(db')
  {
    var db' := RecordGenerationAsWritten(db, g, now);
    var a := db.attendees[i];
    assert a in db.attendees;
    CountSnoc(db.generations, g, (x: Generation) => x.attendeeId == g.attendeeId);
    assert db'.attendees[i] in db'.attendees;
  }

  /** Recording a generation with a single writer: the insert, then one counter update that adds
      one, stamps the first generation time if unset, the last one always, and the template. */
  function RecordGeneration(db: Db, g: Generation, now: int): (db': Db)
    ensures db' == db.(generations := db.generations + [g], attendees := db'.attendees)
    ensures |db'.attendees| == |db.attendees|
    ensures forall i :: 0 <= i < |db.attendees| ==>
              var (a, a') := (db.attendees[i], db'.attendees[i]);
              if a.id == g.attendeeId then
                CountOf(a') == CountOf(a) + 1 && a'.lastAt == Some(now) && a'.templateId == Some(g.templateId)
                && (a.firstAt.Some? ==> a'.firstAt == a.firstAt) && a'.firstAt.Some?
                && a'.id == a.id && a'.studentId == a.studentId && a'.clubId == a.clubId
              else a' == a
  {
    db.(generations := db.generations + [g],
        attendees := MapWhere(db.attendees, IsAttendee(g.attendeeId), (a: Attendee) => AppUpdate(a, now, g.templateId)))
  }

  /** With a single writer the counter stays equal to the number of generation records. */
  lemma RecordKeepsLedgerExact(db: Db, g: Generation, now: int)
    requires LedgerExact(db)
    ensures LedgerExact(RecordGeneration(db, g, now))
  {
    var db' := RecordGeneration(db, g, now);
    forall a' | a' in db'.attendees
      ensures CountOf(a') == GenerationsOf(db', a'.id)
    {
      var i :| 0 <= i < |db'.attendees| && db'.attendees[i] == a';
      var a := db.attendees[i];
      assert a in db.attendees;
      CountSnoc(db.generations, g, (x: Generation) => x.attendeeId == a.id);
    }
  }

  // ---------------------------------------------------------------- issuing a certificate

  /** What the public form sends. */
  datatype Request = Request(slug: string, name: string, studentId: string, templateId: Option<Id>,
                             role: Option<string>, eventId: Option<Id>)

  /** The event branch's attendee conditions: the event's import and role in the club. */
  predicate EventMatches(a: Attendee, clubId: Id, e: Event, name: string, studentId: string) {
    a.clubId == clubId && a.importId == Some(e.importId) && a.studentId == studentId
    && Lower(a.name) == Lower(name) && a.role == e.role
  }

  /** The attendee a request is for, with the event's date and name when it names an event, and
      the template id the event imposes. */
  datatype Target = Target(attendee: Attendee, templateId: Option<Id>)

  /** The attendee step of `generate_certificate_pdf`. An event must exist and be active (looked
      up by id alone); its import, role and template override the request's. */
  function TargetFor(db: Db, clubId: Id, req: Request): (r: Result<Target, HttpError>)
    ensures r.Err? ==> r.error.status == NotFound
    ensures req.eventId.None? ==> r.Ok? == FindAttendee(db, clubId, req.name, req.studentId, req.role).Ok?
    ensures req.eventId.None? && r.Ok? ==>
              r.value == Target(FindAttendee(db, clubId, req.name, req.studentId, req.role).value, req.templateId)
    ensures req.eventId.Some? && r.Ok? ==>
              exists e, a :: e in db.events && e.id == req.eventId.value && e.isActive
                && a in db.attendees && EventMatches(a, clubId, e, req.name, req.studentId)
                && r.value == Target(a.(eventDate := Some(e.eventDate), eventName := Some(e.name)), Some(e.templateId))
  {
    if req.eventId.None? then
      match FindAttendee(db, clubId, req.name, req.studentId, req.role)
      case Err(err) => Err(err)
      case Ok(a) => Ok(Target(a, req.templateId))
    else
      match FirstWhere(db.events, (e: Event) => e.id == req.eventId.value && e.isActive)
      case None => Err(HttpError(NotFound, EventMissing))
      case Some(e) =>
        match FirstWhere(db.attendees, (a: Attendee) => EventMatches(a, clubId, e, req.name, req.studentId))
        case None => Err(HttpError(NotFound, AttendeeMissing))
        case Some(a) => Ok(Target(a.(eventDate := Some(e.eventDate), eventName := Some(e.name)), Some(e.templateId)))
  }

  /** The outcome of issuing: the database after the ledger write, the certificate id, and what
      was drawn. */
  datatype Issued = Issued(db: Db, certificateId: string, attendee: Attendee, template: Template, layout: seq<Placement>)

  /** The steps of `generate_certificate_pdf` between the club lookup and the ledger write:
      attendee, template, certificate id, layout, and the generation record to insert. The
      database is handed back unchanged. `genId` and `now` stand for the generation's uuid and
      time, `fmt` for date formatting and `width` for text measurement. */
  function Prepare(db: Db, clubId: Id, req: Request, genId: Id, now: int, fmt: int -> string,
                   width: (string, string, int) -> nat): (r: Result<(Generation, Issued), HttpError>)
    ensures r.Err? ==> r.error.status == NotFound
    ensures r.Ok? ==>
              var (g, x) := r.value;
              x.db == db && x.certificateId == CertificateId(req.slug, req.studentId)
              && x.attendee.clubId == clubId && (exists s :: s in db.attendees && s.id == x.attendee.id)
              && x.template.clubId == clubId && x.template.isActive && x.template in db.templates
              && x.attendee.studentId == req.studentId && Lower(x.attendee.name) == Lower(req.name)
              && g == Generation(genId, clubId, x.attendee.id, x.template.id, x.certificateId, req.eventId, now)
              && |x.layout| == |x.template.textFields|
  {
    var target :- TargetFor(db, clubId, req);
    var a := target.attendee;
    var t :- ResolveTemplate(db, clubId, target.templateId, a.templateId, Some(a.role));
    var certId := CertificateId(req.slug, req.studentId);
    Ok((Generation(genId, clubId, a.id, t.id, certId, req.eventId, now),
        Issued(db, certId, a, t, Layout(t.textFields, a, t, now, fmt, width))))
  }

  /** `generate_certificate_pdf` as written, without the image work: the club by its exact slug,
      then attendee, template and layout, then the generation insert, whose trigger counts it,
      and the service's own counter update, which counts it again. */
  function GenerateAsWritten(db: Db, req: Request, genId: Id, now: int, fmt: int -> string,
                             width: (string, string, int) -> nat): (r: Result<Issued, HttpError>)
    ensures r.Err? ==> r.error.status == NotFound
    ensures (forall c :: c in db.clubs ==> !(c.slug == req.slug && c.isActive)) ==> r.Err?
    ensures r.Ok? ==>
              var x := r.value;
              x.certificateId == CertificateId(req.slug, req.studentId)
              && (exists c :: c in db.clubs && c.slug == req.slug && c.isActive && c.id == x.attendee.clubId)
              && x.template.clubId == x.attendee.clubId && x.template.isActive && x.template in db.templates
              && x.attendee.studentId == req.studentId && Lower(x.attendee.name) == Lower(req.name)
              && x.db.generations == db.generations + [Generation(genId, x.attendee.clubId, x.attendee.id, x.template.id, x.certificateId, req.eventId, now)]
              && |x.db.attendees| == |db.attendees|
              && (forall i :: 0 <= i < |db.attendees| && db.attendees[i].id == x.attendee.id ==>
                    CountOf(x.db.attendees[i]) == CountOf(db.attendees[i]) + 2)
              && |x.layout| == |x.template.textFields|
  {
    var club :- GetClubBySlugAsWritten(db, req.slug);
    var (g, x) :- Prepare(db, club.id, req, genId, now, fmt, width);
    Ok(x.(db := RecordGenerationAsWritten(db, g, now)))
  }

  /** Issuing as intended: the club by its lower-cased slug, as the club service looks it up,
      and one writer for the counter. */
  function Generate(db: Db, req: Request, genId: Id, now: int, fmt: int -> string,
                    width: (string, string, int) -> nat): (r: Result<Issued, HttpError>)
    ensures r.Err? ==> r.error.status == NotFound
    ensures (forall c :: c in db.clubs ==> !(c.slug == Lower(req.slug) && c.isActive)) ==> r.Err?
    ensures r.Ok? ==>
              var x := r.value;
              x.certificateId == CertificateId(req.slug, req.studentId)
              && (exists c :: c in db.clubs && c.slug == Lower(req.slug) && c.isActive && c.id == x.attendee.clubId)
              && x.template.clubId == x.attendee.clubId && x.template.isActive && x.template in db.templates
              && x.attendee.studentId == req.studentId && Lower(x.attendee.name) == Lower(req.name)
              && x.db.generations == db.generations + [Generation(genId, x.attendee.clubId, x.attendee.id, x.template.id, x.certificateId, req.eventId, now)]
              && |x.db.attendees| == |db.attendees|
              && (forall i :: 0 <= i < |db.attendees| && db.attendees[i].id == x.attendee.id ==>
                    CountOf(x.db.attendees[i]) == CountOf(db.attendees[i]) + 1)
              && |x.layout| == |x.template.textFields|
  {
    var club :- ClubService.GetClubBySlug(db, req.slug);
    var (g, x) :- Prepare(db, club.id, req, genId, now, fmt, width);
    Ok(x.(db := RecordGeneration(db, g, now)))
  }

  /** With an event, the certificate uses the event's template and the attendee of the event's
      import and role, whatever template or role the request named. */
  lemma EventOverridesRequest(db: Db, req: Request, genId: Id, now: int, fmt: int -> string,
                              width: (string, string, int) -> nat)
    requires req.eventId.Some? && GenerateAsWritten(db, req, genId, now, fmt, width).Ok?
    ensures var x := GenerateAsWritten(db, req, genId, now, fmt, width).value;
            exists e :: e in db.events && e.id == req.eventId.value && e.isActive
              && x.template.id == e.templateId && x.attendee.role == e.role
              && x.attendee.importId == Some(e.importId) && x.attendee.eventDate == Some(e.eventDate)
  {
    var club := GetClubBySlugAsWritten(db, req.slug).value;
    var target := TargetFor(db, club.id, req).value;
    var e, a :| e in db.events && e.id == req.eventId.value && e.isActive
                && a in db.attendees && EventMatches(a, club.id, e, req.name, req.studentId)
                && target == Target(a.(eventDate := Some(e.eventDate), eventName := Some(e.name)), Some(e.templateId));
  }

  /** As written, issuing a certificate breaks the ledger: from an exact ledger, the issued
      attendee's counter ends one above its number of generation records. */
  lemma GenerateAsWrittenBreaksLedger(db: Db, req: Request, genId: Id, now: int, fmt: int -> string,
                                      width: (string, string, int) -> nat)
    requires LedgerExact(db)
    ensures GenerateAsWritten(db, req, genId, now, fmt, width).Ok? ==>
              !LedgerExact(GenerateAsWritten(db, req, genId, now, fmt, width).value.db)
  {
    if GenerateAsWritten(db, req, genId, now, fmt, width).Err? { return; }
    var club := GetClubBySlugAsWritten(db, req.slug).value;
    var (g, x) := Prepare(db, club.id, req, genId, now, fmt, width).value;
    var s :| s in db.attendees && s.id == x.attendee.id;
    var i :| 0 <= i < |db.attendees| && db.attendees[i] == s;
    AsWrittenCountsTwice(db, g, now, i);
  }

  /** Issuing as intended keeps every attendee's counter equal to its number of generation records. */
  lemma GenerateKeepsLedgerExact(db: Db, req: Request, genId: Id, now: int, fmt: int -> string,
                                 width: (string, string, int) -> nat)
    requires LedgerExact(db)
    ensures Generate(db, req, genId, now, fmt, width).Ok? ==> LedgerExact(Generate(db, req, genId, now, fmt, width).value.db)
  {
    if Generate(db, req, genId, now, fmt, width).Err? { return; }
    var club := ClubService.GetClubBySlug(db, req.slug).value;
    var (g, x) := Prepare(db, club.id, req, genId, now, fmt, width).value;
    RecordKeepsLedgerExact(db, g, now);
  }

  /** With slugs stored lower-case, as club creation stores them, whatever the handler as written
      issues the intended one issues too: the same certificate, attendee, template and layout,
      with the same tables afterwards except for the attendees' counters. */
  lemma GenerateAgreesBeyondLedger(db: Db, req: Request, genId: Id, now: int, fmt: int -> string,
                                   width: (string, string, int) -> nat)
    requires forall c :: c in db.clubs ==> HasNoUpper(c.slug)
    ensures GenerateAsWritten(db, req, genId, now, fmt, width).Ok? ==>
              Generate(db, req, genId, now, fmt, width).Ok?
              && var (x, y) := (GenerateAsWritten(db, req, genId, now, fmt, width).value, Generate(db, req, genId, now, fmt, width).value);
                 x.(db := y.db) == y && x.db.(attendees := y.db.attendees) == y.db
  {
    if GenerateAsWritten(db, req, genId, now, fmt, width).Err? { return; }
    var club := GetClubBySlugAsWritten(db, req.slug).value;
    assert HasNoUpper(req.slug) by { assert club in db.clubs; }
    LowerFixesLowered(req.slug);
    FirstWhereSame(db.clubs, (c: Club) => c.slug == req.slug && c.isActive, (c: Club) => c.slug == Lower(req.slug) && c.isActive);
    assert ClubService.GetClubBySlug(db, req.slug) == Ok(club);
  }
}

=== FILE: club_service.dfy ===
/** Clubs: creation with a lower-cased unique slug and a unique contact e-mail, the active-only
    slug lookup, soft deactivation, the list total and the platform analytics arithmetic. */
module ClubService {
  import opened Wrappers
  import opened Text
  import opened Seqs
  import opened Store

  /** The fields of `CreateClubRequest` the service reads. */
  datatype CreateClubRequest = CreateClubRequest(name: string, slug: string, contactEmail: string)

  /** The 409 details, naming the slug and the e-mail as the request gave them. */
  function SlugExists(slug: string): string { "Club with slug '" + slug + "' already exists" }
  function EmailExists(email: string): string { "Club with email '" + email + "' already exists" }
  const ClubMissing := "Club not found"

  /** Some stored club already carries the lower-cased form of `slug`. */
  predicate SlugTaken(clubs: seq<Club>, slug: string) {
    exists c :: c in clubs && c.slug == Lower(slug)
  }

  /** Some stored club already uses `email`, compared exactly as given. */
  predicate EmailTaken(clubs: seq<Club>, email: string) {
    exists c :: c in clubs && c.contactEmail == email
  }

  /** `create_club`: 409 when the lower-cased slug is taken (checked first), 409 when the contact
      e-mail is taken, otherwise an active club with the lower-cased slug is appended. `id` and
      `now` stand for `uuid4()` and the insert time. */
  function CreateClub(db: Db, req: CreateClubRequest, id: Id, now: int): (r: Result<(Db, Club), HttpError>)
    ensures r.Err? <==> SlugTaken(db.clubs, req.slug) || EmailTaken(db.clubs, req.contactEmail)
    ensures r.Err? ==> r.error.status == Conflict
    ensures r.Err? ==> (r.error.reason == SlugExists(req.slug) <==> SlugTaken(db.clubs, req.slug))
    ensures r.Err? && !SlugTaken(db.clubs, req.slug) ==> r.error.reason == EmailExists(req.contactEmail)
    ensures r.Ok? ==>
              var (db', c) := r.value;
              db' == db.(clubs := db'.clubs) && db'.clubs == db.clubs + [c]
              && c.id == id && c.name == req.name && c.contactEmail == req.contactEmail
              && c.slug == Lower(req.slug) && c.isActive
  {
    if exists c :: c in db.clubs && c.slug == Lower(req.slug) then
      Err(HttpError(Conflict, SlugExists(req.slug)))
    else if exists c :: c in db.clubs && c.contactEmail == req.contactEmail then
      assert EmailExists(req.contactEmail)[10] != SlugExists(req.slug)[10];
      Err(HttpError(Conflict, EmailExists(req.contactEmail)))
    else
      var c := Club(id, req.name, Lower(req.slug), req.contactEmail, true, now);
      Ok((db.(clubs := db.clubs + [c]), c))
  }

  /** `get_club_by_slug`: the first active club whose stored slug equals the lower-cased input. */
  function GetClubBySlug(db: Db, slug: string): (r: Result<Club, HttpError>)
    ensures r.Err? <==> forall c :: c in db.clubs ==> !(c.slug == Lower(slug) && c.isActive)
    ensures r.Err? ==> r.error.status == NotFound
    ensures r.Ok? ==> r.value in db.clubs && r.value.slug == Lower(slug) && r.value.isActive
  {
    match FirstWhere(db.clubs, (c: Club) => c.slug == Lower(slug) && c.isActive)
    case Some(c) => Ok(c)
    case None => Err(HttpError(NotFound, ClubMissing))
  }

  /** A freshly created club is what the slug lookup returns, for any spelling of its slug that
      lowers to the same text. */
  lemma CreatedClubIsFound(db: Db, req: CreateClubRequest, id: Id, now: int, asked: string)
    requires CreateClub(db, req, id, now).Ok?
    requires Lower(asked) == Lower(req.slug)
    ensures GetClubBySlug(CreateClub(db, req, id, now).value.0, asked) == Ok(CreateClub(db, req, id, now).value.1)
  {
    var (db', c) := CreateClub(db, req, id, now).value;
    var r := GetClubBySlug(db', asked);
    assert c in db'.clubs;
    assert r.Ok?;
    assert r.value in db.clubs + [c];
  }

  /** Creating a second club whose slug differs only in letter case conflicts. */
  lemma SecondCreateConflicts(db: Db, req: CreateClubRequest, id: Id, now: int, req2: CreateClubRequest, id2: Id, now2: int)
    requires CreateClub(db, req, id, now).Ok?
    requires Lower(req2.slug) == Lower(req.slug)
    ensures CreateClub(CreateClub(db, req, id, now).value.0, req2, id2, now2) == Err(HttpError(Conflict, SlugExists(req2.slug)))
  {
    var (db', c) := CreateClub(db, req, id, now).value;
    assert c in db'.clubs && c.slug == Lower(req2.slug);
  }

  function IsClub(id: Id): Club -> bool {
    (c: Club) => c.id == id
  }

  function Active(c: Club): bool {
    c.isActive
  }

  function Inactive(c: Club): bool {
    !c.isActive
  }

  /** `UPDATE clubs SET is_active = flag, updated_at = now WHERE id = id`, after the existence
      check that answers 404. Shared by deactivation and reactivation. */
  function SetClubActive(db: Db, id: Id, flag: bool, now: int): (r: Result<Db, HttpError>)
    ensures r.Err? <==> forall c :: c in db.clubs ==> c.id != id
    ensures r.Err? ==> r.error.status == NotFound
    ensures r.Ok? ==>
              r.value == db.(clubs := r.value.clubs) && |r.value.clubs| == |db.clubs|
              && forall i :: 0 <= i < |db.clubs| ==>
                   var (before, after) := (db.clubs[i], r.value.clubs[i]);
                   if before.id == id then after == before.(isActive := flag, updatedAt := now) else after == before
  {
    if exists c :: c in db.clubs && c.id == id then
      Ok(db.(clubs := MapWhere(db.clubs, IsClub(id), (c: Club) => c.(isActive := flag, updatedAt := now))))
    else
      Err(HttpError(NotFound, ClubMissing))
  }

  /** `deactivate_club`. */
  function DeactivateClub(db: Db, id: Id, now: int): (r: Result<Db, HttpError>)
    ensures r.Ok? ==> forall c :: c in r.value.clubs && c.id == id ==> !c.isActive
    ensures r.Err? <==> forall c :: c in db.clubs ==> c.id != id
  {
    SetClubActive(db, id, false, now)
  }

  /** After deactivation no slug lookup returns the club. */
  lemma DeactivatedClubHidden(db: Db, id: Id, now: int, slug: string)
    requires DeactivateClub(db, id, now).Ok?
    ensures var r := GetClubBySlug(DeactivateClub(db, id, now).value, slug); r.Ok? ==> r.value.id != id
  {
  }

  /** `list_clubs` total: all clubs, or the active ones when `active_only` is set. */
  function ListTotal(db: Db, activeOnly: bool): (n: nat)
    ensures n <= |db.clubs|
    ensures activeOnly ==> (n == 0 <==> forall c :: c in db.clubs ==> !c.isActive)
  {
    if activeOnly then Count(db.clubs, Active) else |db.clubs|
  }

  /** After deactivating a club the active total counts exactly the active clubs with another id. */
  lemma DeactivateActiveTotal(db: Db, id: Id, now: int)
    requires DeactivateClub(db, id, now).Ok?
    ensures ListTotal(DeactivateClub(db, id, now).value, true)
            == Count(db.clubs, (c: Club) => c.isActive && c.id != id)
  {
    var f := (c: Club) => c.(isActive := false, updatedAt := now);
    assert DeactivateClub(db, id, now).value.clubs == MapWhere(db.clubs, IsClub(id), f);
    CountAfterUpdate(db.clubs, IsClub(id), f, Active, (c: Club) => c.isActive && c.id != id);
  }

  /** The counters of `get_platform_analytics`. */
  datatype Analytics = Analytics(
    totalClubs: nat, activeClubs: nat, inactiveClubs: int,
    platformAdmins: nat, clubAdmins: nat, templates: nat, attendees: nat, certificates: nat)

  /** `get_platform_analytics`: `inactive_clubs` is total minus active, which is the number of
      deactivated clubs and so never negative. */
  function PlatformAnalytics(db: Db): (a: Analytics)
    ensures a.totalClubs == ListTotal(db, false) && a.activeClubs == ListTotal(db, true)
    ensures a.inactiveClubs == Count(db.clubs, Inactive)
    ensures 0 <= a.inactiveClubs <= a.totalClubs
  {
    CountComplement(db.clubs, Active, Inactive);
    Analytics(|db.clubs|, Count(db.clubs, Active), |db.clubs| - Count(db.clubs, Active),
              |db.platformAdmins|, |db.clubAdmins|, |db.templates|, |db.attendees|, |db.generations|)
  }
}

=== FILE: csv_parser.dfy ===
/** The roster importer of `app/services/csv_parser.py`: header normalisation,
    the alias table, the header map and `parse_attendee_csv`. */
module CsvParser {
  import opened Wrappers
  import opened Text
  import opened CsvTable

  /** The canonical attributes a CSV column can map to. */
  datatype Column = Name | StudentId | Email | Course | Role

  /** The alias table: the normalised headers accepted for each column. */
  function Aliases(c: Column): set<string> {
    match c
    case Name => {"name", "full name", "fullname"}
    case StudentId => {"student id", "student_id", "studentid", "id", "student"}
    case Email => {"email", "email address", "mail"}
    case Course => {"course", "program", "class", "department"}
    case Role => {"role", "type"}
  }

  /** The alias sets are pairwise disjoint, so no header belongs to two columns. */
  lemma AliasesDisjoint(c: Column, d: Column)
    requires c != d
    ensures Aliases(c) !! Aliases(d)
  {
  }

  /** The column a normalised header maps to, or None when it matches no alias. */
  function ColumnOf(h: string): (r: Option<Column>)
    ensures r.Some? ==> h in Aliases(r.value)
    ensures r.None? ==> forall c :: h !in Aliases(c)
  {
    if h in Aliases(Name) then Some(Name)
    else if h in Aliases(StudentId) then Some(StudentId)
    else if h in Aliases(Email) then Some(Email)
    else if h in Aliases(Course) then Some(Course)
    else if h in Aliases(Role) then Some(Role)
    else None
  }

  /** A header maps to column `c` exactly when it is one of `c`'s aliases. */
  lemma ColumnOfIsAliasMembership(h: string, c: Column)
    ensures ColumnOf(h) == Some(c) <==> h in Aliases(c)
  {
    if h in Aliases(c) && ColumnOf(h) != Some(c) {
      AliasesDisjoint(c, ColumnOf(h).value);
    }
  }

  /** `_normalize_header`: empty stays empty; otherwise strip, drop leading BOMs, lower-case. */
  function NormalizeHeader(h: string): (r: string)
    ensures h == "" ==> r == ""
    ensures HasNoUpper(r) && |r| <= |h|
    ensures r == [] || (r[0] != Bom && !IsSpace(r[|r| - 1]))
  {
    if h == "" then "" else Lower(DropLeading(Strip(h), Bom))
  }

  /** The column a raw header maps to: normalise it, then look it up in the alias table. */
  function HeaderColumn(h: string): Option<Column> {
    ColumnOf(NormalizeHeader(h))
  }

  /** `_map_headers`: column -> original header; a later header overwrites an earlier one. */
  function MapHeaders(headers: seq<string>): (m: map<Column, string>)
    ensures forall c :: c in m ==> m[c] in headers && HeaderColumn(m[c]) == Some(c)
  {
    MapHeadersBy(headers, HeaderColumn)
  }

  /** The header map for any header classifier `col` (the loop of `_map_headers`). */
  function MapHeadersBy(headers: seq<string>, col: string -> Option<Column>): (m: map<Column, string>)
    ensures forall c :: c in m ==> m[c] in headers && col(m[c]) == Some(c)
  {
    if headers == [] then map[]
    else
      var init := headers[..|headers| - 1];
      var m0 := MapHeadersBy(init, col);
      var h := headers[|headers| - 1];
      assert forall x :: x in init ==> x in headers;
      match col(h)
      case Some(c) => m0[c := h]
      case None => m0
  }

  /** The index of the last header that `col` maps to `c`, or -1 when there is none. */
  function LastMatch(headers: seq<string>, col: string -> Option<Column>, c: Column): (i: int)
    ensures -1 <= i < |headers|
    ensures i >= 0 ==> col(headers[i]) == Some(c)
    ensures forall j :: i < j < |headers| ==> col(headers[j]) != Some(c)
  {
    if headers == [] then -1
    else if col(headers[|headers| - 1]) == Some(c) then |headers| - 1
    else LastMatch(headers[..|headers| - 1], col, c)
  }

  /** A column is mapped exactly when some header maps to it, and then it holds the
      LAST such header in header order. */
  lemma {:induction false} MapHeadersByLastWins(headers: seq<string>, col: string -> Option<Column>, c: Column)
    ensures c in MapHeadersBy(headers, col) <==> LastMatch(headers, col, c) >= 0
    ensures c in MapHeadersBy(headers, col) ==> MapHeadersBy(headers, col)[c] == headers[LastMatch(headers, col, c)]
  {
    if headers != [] {
      MapHeadersByLastWins(headers[..|headers| - 1], col, c);
    }
  }

  /** `_map_headers` with the real alias table: a column is present iff some header
      normalises to one of its aliases, and it then holds the last such header. */
  lemma MapHeadersLastWins(headers: seq<string>, c: Column)
    ensures c in MapHeaders(headers) <==> exists i :: 0 <= i < |headers| && HeaderColumn(headers[i]) == Some(c)
    ensures c in MapHeaders(headers) ==>
              exists i :: 0 <= i < |headers| && headers[i] == MapHeaders(headers)[c] && HeaderColumn(headers[i]) == Some(c)
                          && forall j :: i < j < |headers| ==> HeaderColumn(headers[j]) != Some(c)
  {
    MapHeadersByLastWins(headers, HeaderColumn, c);
    var i := LastMatch(headers, HeaderColumn, c);
    if i < 0 {
      assert forall j :: 0 <= j < |headers| ==> HeaderColumn(headers[j]) != Some(c);
    }
  }

  /** A column no header maps to is absent from the header map. */
  lemma UnmappedColumn(headers: seq<string>, c: Column)
    requires forall i :: 0 <= i < |headers| ==> HeaderColumn(headers[i]) != Some(c)
    ensures c !in MapHeaders(headers)
  {
    MapHeadersLastWins(headers, c);
  }

  /** A column some header maps to is present in the header map. */
  lemma MappedColumn(headers: seq<string>, i: nat, c: Column)
    requires i < |headers| && HeaderColumn(headers[i]) == Some(c)
    ensures c in MapHeaders(headers)
  {
    MapHeadersLastWins(headers, c);
  }

  /** Three headers none of which maps to `col` leave `col` unmapped, for any classifier. */
  lemma UnmappedAmongThreeBy(a: string, b: string, c: string, classify: string -> Option<Column>, col: Column)
    requires classify(a) != Some(col) && classify(b) != Some(col) && classify(c) != Some(col)
    ensures col !in MapHeadersBy([a, b, c], classify)
  {
    MapHeadersByLastWins([a, b, c], classify, col);
  }

  lemma UnmappedAmongThree(a: string, b: string, c: string, col: Column)
    requires HeaderColumn(a) != Some(col) && HeaderColumn(b) != Some(col) && HeaderColumn(c) != Some(col)
    ensures col !in MapHeaders([a, b, c])
  {
    UnmappedAmongThreeBy(a, b, c, HeaderColumn, col);
  }

  /** One parsed roster row. `role` is None when the CSV has no role column. */
  datatype Row = Row(name: string, studentId: string, email: string, course: string, role: Option<string>)

  datatype ParseError =
    | NoHeaders                           // "CSV file is empty or has no headers"
    | MissingColumns(missing: seq<Column>) // required columns without a header, sorted by key name
    | NoValidRows                         // every data row was skipped

  /** The required columns without a header, in sorted key order ("name" < "student_id"). */
  function MissingRequired(m: map<Column, string>): (r: seq<Column>)
    ensures r == [] <==> Name in m && StudentId in m
    ensures Name in r <==> Name !in m
    ensures StudentId in r <==> StudentId !in m
    ensures forall i :: 0 <= i < |r| ==> r[i] == Name || r[i] == StudentId
    ensures |r| == 2 ==> r == [Name, StudentId]
  {
    (if Name in m then [] else [Name]) + (if StudentId in m then [] else [StudentId])
  }

  /** The trimmed value of an optional column for one record: "" when the column is unmapped. */
  function Field(t: Table, m: map<Column, string>, rec: Record, c: Column): string {
    if c in m then Strip(CellText(t.fieldnames, rec, m[c])) else ""
  }

  /** The row built from one record (before the skip test). */
  function Extract(t: Table, m: map<Column, string>, rec: Record): (r: Row)
    ensures IsStripped(r.name) && IsStripped(r.studentId) && IsStripped(r.email) && IsStripped(r.course)
    ensures Email !in m ==> r.email == ""
    ensures Course !in m ==> r.course == ""
    ensures r.role.None? <==> Role !in m
    ensures r.role.Some? ==> HasNoUpper(r.role.value)
  {
    Row(Field(t, m, rec, Name), Field(t, m, rec, StudentId), Field(t, m, rec, Email), Field(t, m, rec, Course),
        if Role in m then Some(Lower(Strip(CellText(t.fieldnames, rec, m[Role])))) else None)
  }

  /** A row survives when neither its name nor its student id is empty after trimming. */
  predicate Kept(r: Row) {
    r.name != "" && r.studentId != ""
  }

  /** Every record of `recs` yields a skipped row. */
  predicate NoneKept(recs: seq<Record>, extract: Record -> Row) {
    forall k :: 0 <= k < |recs| ==> !Kept(extract(recs[k]))
  }

  /** The surviving rows of `recs`, in input order, each record turned into a row by `extract`. */
  function ParseRowsBy(recs: seq<Record>, extract: Record -> Row): (rows: seq<Row>)
    ensures |rows| <= |recs|
    ensures forall r :: r in rows ==> Kept(r)
    ensures rows == [] <==> NoneKept(recs, extract)
  {
    if recs == [] then []
    else
      var e := extract(recs[0]);
      var rest := ParseRowsBy(recs[1..], extract);
      assert forall k :: 1 <= k < |recs| ==> recs[k] == recs[1..][k - 1];
      (if Kept(e) then [e] else []) + rest
  }

  /** Row parsing is a homomorphism: parsing two batches of records is parsing each in turn,
      so surviving rows keep their input order and one record's fate never depends on another. */
  lemma {:induction false} ParseRowsAppend(a: seq<Record>, b: seq<Record>, extract: Record -> Row)
    ensures ParseRowsBy(a + b, extract) == ParseRowsBy(a, extract) + ParseRowsBy(b, extract)
  {
    if a == [] {
      assert a + b == b;
    } else {
      var ab := a + b;
      var head := if Kept(extract(a[0])) then [extract(a[0])] else [];
      assert ab[0] == a[0] && ab[1..] == a[1..] + b;
      ParseRowsAppend(a[1..], b, extract);
      calc {
        ParseRowsBy(ab, extract);
        head + ParseRowsBy(a[1..] + b, extract);
        head + (ParseRowsBy(a[1..], extract) + ParseRowsBy(b, extract));
        (head + ParseRowsBy(a[1..], extract)) + ParseRowsBy(b, extract);
      }
    }
  }

  /** Every surviving row is the row extracted from some record. */
  lemma {:induction false} ParseRowsFromRecords(recs: seq<Record>, extract: Record -> Row, r: Row)
    requires r in ParseRowsBy(recs, extract)
    ensures exists k :: 0 <= k < |recs| && r == extract(recs[k])
  {
    if r != extract(recs[0]) || !Kept(extract(recs[0])) {
      ParseRowsFromRecords(recs[1..], extract, r);
      var k :| 0 <= k < |recs[1..]| && r == extract(recs[1..][k]);
      assert r == extract(recs[k + 1]);
    }
  }

  /** A single record parses to its extracted row, or to nothing when that row is skipped. */
  lemma ParseRowsSingle(rec: Record, extract: Record -> Row)
    ensures ParseRowsBy([rec], extract) == if Kept(extract(rec)) then [extract(rec)] else []
  {
    assert [rec][1..] == [];
  }

  /** The rows of a table under a header map. */
  function ParseRows(t: Table, m: map<Column, string>): (rows: seq<Row>)
    ensures forall r :: r in rows ==> Kept(r) && IsStripped(r.name) && IsStripped(r.studentId)
    ensures rows == [] <==> NoneKept(t.records, rec => Extract(t, m, rec))
  {
    var rows := ParseRowsBy(t.records, rec => Extract(t, m, rec));
    forall r | r in rows
      ensures IsStripped(r.name) && IsStripped(r.studentId)
    {
      ParseRowsFromRecords(t.records, rec => Extract(t, m, rec), r);
    }
    rows
  }

  /** `parse_attendee_csv` on an already tokenized file. */
  function ParseAttendeeCsv(t: Table): (r: Result<seq<Row>, ParseError>)
    ensures r == Err(NoHeaders) <==> t.fieldnames == []
    ensures r.Err? && r.error.MissingColumns? <==>
              t.fieldnames != [] && !(Name in MapHeaders(t.fieldnames) && StudentId in MapHeaders(t.fieldnames))
    ensures r.Err? && r.error.MissingColumns? ==> r.error.missing == MissingRequired(MapHeaders(t.fieldnames))
    ensures r.Ok? ==> r.value != [] && forall row :: row in r.value ==> Kept(row)
    ensures r.Ok? ==> r.value == ParseRows(t, MapHeaders(t.fieldnames))
    ensures r == Err(NoValidRows) <==>
              t.fieldnames != [] && Name in MapHeaders(t.fieldnames) && StudentId in MapHeaders(t.fieldnames)
              && NoneKept(t.records, rec => Extract(t, MapHeaders(t.fieldnames), rec))
  {
    if t.fieldnames == [] then Err(NoHeaders)
    else
      var m := MapHeaders(t.fieldnames);
      var missing := MissingRequired(m);
      if missing != [] then Err(MissingColumns(missing))
      else
        var rows := ParseRows(t, m);
        if rows == [] then Err(NoValidRows) else Ok(rows)
  }
}

module CsvParserExamples {
  import opened Wrappers
  import opened Text
  import opened CsvTable
  import opened CsvParser

  /** A header whose stripped form does not start with a byte-order mark is only stripped
      and lower-cased. */
  lemma NormalizeStripped(h: string, stripped: string)
    requires h != [] && Strip(h) == stripped && (stripped == [] || stripped[0] != Bom)
    ensures NormalizeHeader(h) == Lower(stripped)
  {
    assert LeadingCount(stripped, Is(Bom)) == 0;
    assert stripped[0..] == stripped;
  }

  lemma NormalizePlain(h: string)
    requires h != [] && IsStripped(h) && h[0] != Bom
    ensures NormalizeHeader(h) == Lower(h)
  {
    StripFixesStripped(h);
    NormalizeStripped(h, h);
  }

  lemma LowerStudentId()
    ensures Lower("Student ID") == "student id"
  {
  }

  /** "Student ID" lower-cases to an alias of the student-id column. */
  lemma StudentIdSpelledOut()
    ensures HeaderColumn("Student ID") == Some(StudentId)
  {
    NormalizePlain("Student ID");
    LowerStudentId();
  }

  lemma DropBomId()
    ensures DropLeading("\U{feff}ID", Bom) == "ID"
  {
    assert "\U{feff}ID"[1..] == "ID";
  }

  lemma LowerId()
    ensures Lower("ID") == "id"
  {
  }

  lemma NormalizeBomId()
    ensures NormalizeHeader("\U{feff}ID") == "id"
  {
    StripFixesStripped("\U{feff}ID");
    DropBomId();
    LowerId();
  }

  /** A byte-order mark in front of the first header is dropped before the alias lookup. */
  lemma StudentIdAfterBom()
    ensures HeaderColumn("\U{feff}ID") == Some(StudentId)
  {
    NormalizeBomId();
  }

  lemma LowerFullName()
    ensures Lower("Full Name") == "full name"
  {
  }

  lemma FullNameIsName()
    ensures HeaderColumn("Full Name") == Some(Name)
  {
    NormalizePlain("Full Name");
    LowerFullName();
  }

  lemma LowerRollNo()
    ensures Lower("Roll No") == "roll no"
  {
  }

  lemma RollNoUnmapped()
    ensures HeaderColumn("Roll No") == None
  {
    NormalizePlain("Roll No");
    LowerRollNo();
  }

  lemma LowerHyphenatedMail()
    ensures Lower("E-Mail") == "e-mail"
  {
  }

  lemma HyphenatedMailUnmapped()
    ensures HeaderColumn("E-Mail") == None
  {
    NormalizePlain("E-Mail");
    LowerHyphenatedMail();
  }

  /** A file whose headers map the name column but not the student-id column is rejected
      for exactly that one missing column, whatever its records hold. */
  lemma MissingStudentIdOnly(hs: seq<string>, records: seq<Record>)
    requires hs != [] && Name in MapHeaders(hs) && StudentId !in MapHeaders(hs)
    ensures ParseAttendeeCsv(Table(hs, records)) == Err(MissingColumns([StudentId]))
  {
    assert MissingRequired(MapHeaders(hs)) == [StudentId];
  }

  lemma RollNoHeadersMapName(hs: seq<string>)
    requires hs == ["Full Name", "Roll No", "E-Mail"]
    ensures Name in MapHeaders(hs)
  {
    FullNameIsName();
    MappedColumn(hs, 0, Name);
  }

  lemma RollNoHeadersLackStudentId(hs: seq<string>)
    requires hs == ["Full Name", "Roll No", "E-Mail"]
    ensures StudentId !in MapHeaders(hs)
  {
    FullNameIsName();
    RollNoUnmapped();
    HyphenatedMailUnmapped();
    UnmappedAmongThree(hs[0], hs[1], hs[2], StudentId);
    assert hs == [hs[0], hs[1], hs[2]];
  }

  /** A roll-number header is not in the importer's alias table: a file headed
      "Full Name,Roll No,E-Mail" is rejected for a missing student_id column,
      whatever its records hold. */
  lemma RollNumberHeaderRejected(hs: seq<string>, records: seq<Record>)
    requires hs == ["Full Name", "Roll No", "E-Mail"]
    ensures ParseAttendeeCsv(Table(hs, records)) == Err(MissingColumns([StudentId]))
  {
    RollNoHeadersMapName(hs);
    RollNoHeadersLackStudentId(hs);
    MissingStudentIdOnly(hs, records);
  }
}

=== FILE: csv_table.dfy ===
/** The CSV input as the tokenizer hands it over (quoting is not modelled):
    the header row and the non-blank data records, each a list of cells.
    `Lookup` is what `csv.DictReader` makes of one record: it zips the
    field names with the cells (a later duplicate name overwrites an earlier
    one) and, when the record is shorter than the header, sets every
    remaining field name to `None`. */
module CsvTable {
  import opened Wrappers

  type Record = seq<string>

  datatype Table = Table(fieldnames: seq<string>, records: seq<Record>)

  /** The position of the LAST occurrence of `key` in `names`, or -1 when there is none. */
  function LastIndex(names: seq<string>, key: string): (i: int)
    ensures -1 <= i < |names|
    ensures i < 0 <==> key !in names
    ensures i >= 0 ==> names[i] == key
    ensures forall j :: i < j < |names| ==> names[j] != key
  {
    if names == [] then -1
    else if names[|names| - 1] == key then |names| - 1
    else
      var i := LastIndex(names[..|names| - 1], key);
      assert i < 0 ==> forall j :: 0 <= j < |names| ==> names[j] != key;
      i
  }

  /** `row.get(key)` for the dict `csv.DictReader(fieldnames)` builds from `cells`:
      the cell under the last occurrence of `key`, and `None` both for a missing key
      and for the `restval` None of a key that a short record does not reach. */
  function Lookup(fieldnames: seq<string>, cells: Record, key: string): (v: Option<string>)
    ensures key !in fieldnames ==> v.None?
    ensures v.Some? <==> 0 <= LastIndex(fieldnames, key) < |cells|
    ensures v.Some? ==> v.value == cells[LastIndex(fieldnames, key)]
  {
    var i := LastIndex(fieldnames, key);
    if 0 <= i < |cells| then Some(cells[i]) else None
  }

  /** `(row.get(key) or "")`. */
  function CellText(fieldnames: seq<string>, cells: Record, key: string): string {
    Lookup(fieldnames, cells, key).GetOr("")
  }

  /** A record as long as the header yields the cell under the last matching name. */
  lemma LookupFullRecord(fieldnames: seq<string>, cells: Record, i: nat)
    requires |fieldnames| == |cells| && i < |fieldnames|
    requires forall j :: i < j < |fieldnames| ==> fieldnames[j] != fieldnames[i]
    ensures Lookup(fieldnames, cells, fieldnames[i]) == Some(cells[i])
  {
    var k := LastIndex(fieldnames, fieldnames[i]);
    assert fieldnames[i] in fieldnames;
  }
}

=== FILE: dedup.dfy ===
/** The order-stable new/duplicate partition of `check_duplicates` and
    `check_duplicates_simple` (app/services/csv_parser.py). The database query that
    produces the set of already stored ids is modelled in `Store`; here it is the
    parameter `existing`. */
module Dedup {
  import opened CsvParser

  /** The student id of a row; "" stands for a missing or empty id (Python-falsy). */
  function Sid(r: Row): string {
    r.studentId
  }

  /** The set of student ids of a list of rows. */
  function Ids(rows: seq<Row>): (ids: set<string>)
    ensures forall r :: r in rows ==> Sid(r) in ids
    ensures forall x :: x in ids ==> exists r :: r in rows && Sid(r) == x
  {
    set r | r in rows :: Sid(r)
  }

  lemma IdsSnoc(rows: seq<Row>, r: Row)
    ensures Ids(rows + [r]) == Ids(rows) + {Sid(r)}
  {
    assert forall x :: x in rows + [r] <==> x in rows || x == r;
  }

  /** The fate of the row at index `i`: skipped for an empty id, a duplicate when its id
      is already stored or occurred at an earlier index, new otherwise. This is the
      reference definition the loop is proved against. */
  datatype Fate = Skipped | Fresh | Duplicate

  function FateAt(rows: seq<Row>, existing: set<string>, i: nat): Fate
    requires i < |rows|
  {
    var sid := Sid(rows[i]);
    if sid == "" then Skipped
    else if sid in existing || exists j :: 0 <= j < i && Sid(rows[j]) == sid then Duplicate
    else Fresh
  }

  /** The rows of `rows` whose fate is `f`, in input order. */
  function WithFate(rows: seq<Row>, existing: set<string>, f: Fate, n: nat): (r: seq<Row>)
    requires n <= |rows|
    ensures |r| <= n
  {
    if n == 0 then []
    else WithFate(rows, existing, f, n - 1) + (if FateAt(rows, existing, n - 1) == f then [rows[n - 1]] else [])
  }

  /** The two lists `check_duplicates` returns: the new records and the duplicates. */
  datatype Split = Split(added: seq<Row>, dups: seq<Row>)

  /** The loop body of `check_duplicates` run over a prefix of the rows: the new records
      and the duplicates, each in input order. */
  function PartitionPrefix(rows: seq<Row>, existing: set<string>): (p: Split)
    ensures |p.added| + |p.dups| <= |rows|
  {
    if rows == [] then Split([], [])
    else Step(PartitionPrefix(rows[..|rows| - 1], existing), rows[|rows| - 1], existing)
  }

  /** One iteration of the loop: skip a row without id, append a row whose id is stored or
      already seen to the duplicates, otherwise append it to the new records. */
  function Step(p: Split, r: Row, existing: set<string>): (q: Split)
    ensures |q.added| + |q.dups| <= |p.added| + |p.dups| + 1
  {
    if Sid(r) == "" then p
    else if Sid(r) in existing || Sid(r) in Ids(p.added) then Split(p.added, p.dups + [r])
    else Split(p.added + [r], p.dups)
  }

  /** Extending the prefix by one row is one loop step. */
  lemma PrefixStep(rows: seq<Row>, existing: set<string>, i: nat)
    requires i < |rows|
    ensures PartitionPrefix(rows[..i + 1], existing) == Step(PartitionPrefix(rows[..i], existing), rows[i], existing)
  {
    assert rows[..i + 1][..i] == rows[..i];
  }

  /** `check_duplicates` once the stored ids are known: when no row has an id the whole
      input comes back as duplicates; otherwise the loop's partition. */
  function CheckDuplicates(rows: seq<Row>, existing: set<string>): (p: Split)
    ensures (forall r :: r in rows ==> Sid(r) == "") ==> p == Split([], rows)
    ensures (exists r :: r in rows && Sid(r) != "") ==> p == PartitionPrefix(rows, existing)
  {
    if forall r :: r in rows ==> Sid(r) == "" then Split([], rows)
    else PartitionPrefix(rows, existing)
  }

  /** `check_duplicates` as the source runs it: one pass with a `seen` set. */
  method CheckDuplicatesLoop(rows: seq<Row>, existing: set<string>) returns (added: seq<Row>, dups: seq<Row>)
    ensures Split(added, dups) == CheckDuplicates(rows, existing)
  {
    if forall r :: r in rows ==> Sid(r) == "" {
      return [], rows;
    }
    added, dups := [], [];
    var seen: set<string> := {};
    var i := 0;
    while i < |rows|
      invariant 0 <= i <= |rows|
      invariant Split(added, dups) == PartitionPrefix(rows[..i], existing)
      invariant seen == Ids(added)
    {
      var r := rows[i];
      PrefixStep(rows, existing, i);
      if Sid(r) != "" {
        if Sid(r) in seen || Sid(r) in existing {
          dups := dups + [r];
        } else {
          IdsSnoc(added, r);
          seen := seen + {Sid(r)};
          added := added + [r];
        }
      }
      i := i + 1;
    }
    assert rows[..|rows|] == rows;
  }

  /** The new records hold exactly the first occurrences of the ids not already stored:
      an id is among them iff some row carries it and it is not stored. */
  lemma {:induction false} FreshIdsAreFirstOccurrences(rows: seq<Row>, existing: set<string>, sid: string)
    ensures sid in Ids(PartitionPrefix(rows, existing).added) <==>
              sid != "" && sid !in existing && exists j :: 0 <= j < |rows| && Sid(rows[j]) == sid
  {
    if rows != [] {
      var init := rows[..|rows| - 1];
      FreshIdsAreFirstOccurrences(init, existing, sid);
      var added := PartitionPrefix(init, existing).added;
      var r := rows[|rows| - 1];
      assert forall j :: 0 <= j < |init| ==> init[j] == rows[j];
      IdsSnoc(added, r);
      if exists j :: 0 <= j < |rows| && Sid(rows[j]) == sid {
        var j :| 0 <= j < |rows| && Sid(rows[j]) == sid;
        if j < |init| {
          assert Sid(init[j]) == sid;
        }
      }
    }
  }

  /** The row at index `i` is new exactly when it is first with its id among the rows
      before it and the id is not stored: the loop's `seen` test agrees with `FateAt`. */
  lemma StepMatchesFate(rows: seq<Row>, existing: set<string>, i: nat)
    requires i < |rows|
    ensures var r := rows[i];
            var added := PartitionPrefix(rows[..i], existing).added;
            FateAt(rows, existing, i) == Duplicate <==> Sid(r) != "" && (Sid(r) in existing || Sid(r) in Ids(added))
  {
    var r := rows[i];
    FreshIdsAreFirstOccurrences(rows[..i], existing, Sid(r));
    if exists j :: 0 <= j < i && Sid(rows[j]) == Sid(r) {
      var j :| 0 <= j < i && Sid(rows[j]) == Sid(r);
      assert Sid(rows[..i][j]) == Sid(r);
    }
  }

  /** The loop partition is the fate-by-fate selection of the reference definition. */
  lemma {:induction false} PartitionMatchesFates(rows: seq<Row>, existing: set<string>, n: nat)
    requires n <= |rows|
    ensures PartitionPrefix(rows[..n], existing) == Split(WithFate(rows, existing, Fresh, n), WithFate(rows, existing, Duplicate, n))
  {
    if n > 0 {
      PartitionMatchesFates(rows, existing, n - 1);
      PrefixStep(rows, existing, n - 1);
      FateStep(rows, existing, n, PartitionPrefix(rows[..n - 1], existing));
    }
  }

  /** One loop step appends the row at index `n - 1` to the list its fate names. */
  lemma FateStep(rows: seq<Row>, existing: set<string>, n: nat, p: Split)
    requires 0 < n <= |rows|
    requires p == PartitionPrefix(rows[..n - 1], existing)
    requires p == Split(WithFate(rows, existing, Fresh, n - 1), WithFate(rows, existing, Duplicate, n - 1))
    ensures Step(p, rows[n - 1], existing) == Split(WithFate(rows, existing, Fresh, n), WithFate(rows, existing, Duplicate, n))
  {
    StepMatchesFate(rows, existing, n - 1);
    var r := rows[n - 1];
    match FateAt(rows, existing, n - 1)
    case Skipped =>
      assert Step(p, r, existing) == p;
    case Duplicate =>
      assert Step(p, r, existing) == Split(p.added, p.dups + [r]);
    case Fresh =>
      assert Step(p, r, existing) == Split(p.added + [r], p.dups);
  }

  /** `check_duplicates` on a file with at least one id returns, in input order, the rows
      whose fate is new and the rows whose fate is duplicate. */
  lemma CheckDuplicatesMatchesFates(rows: seq<Row>, existing: set<string>)
    requires exists r :: r in rows && Sid(r) != ""
    ensures CheckDuplicates(rows, existing)
            == Split(WithFate(rows, existing, Fresh, |rows|), WithFate(rows, existing, Duplicate, |rows|))
  {
    PartitionMatchesFates(rows, existing, |rows|);
    assert rows[..|rows|] == rows;
  }

  /** No two rows share a student id. */
  predicate DistinctIds(rows: seq<Row>) {
    forall i, j :: 0 <= i < j < |rows| ==> Sid(rows[i]) != Sid(rows[j])
  }

  /** Every row has a non-empty id that is not stored. */
  predicate AllUnstored(rows: seq<Row>, existing: set<string>) {
    forall i :: 0 <= i < |rows| ==> Sid(rows[i]) != "" && Sid(rows[i]) !in existing
  }

  /** Appending a row whose id is new to a list with distinct ids keeps the ids distinct. */
  lemma DistinctSnoc(rows: seq<Row>, r: Row)
    requires DistinctIds(rows) && Sid(r) !in Ids(rows)
    ensures DistinctIds(rows + [r])
  {
    var f := rows + [r];
    forall i, j | 0 <= i < j < |f|
      ensures Sid(f[i]) != Sid(f[j])
    {
      assert f[i] == rows[i] && rows[i] in rows;
      if j < |rows| {
        assert f[j] == rows[j];
      }
    }
  }

  /** The ids of the new records are pairwise distinct and none is already stored. */
  lemma {:induction false} FreshIdsDistinctAndNew(rows: seq<Row>, existing: set<string>)
    ensures DistinctIds(PartitionPrefix(rows, existing).added)
    ensures AllUnstored(PartitionPrefix(rows, existing).added, existing)
  {
    if rows != [] {
      var init := rows[..|rows| - 1];
      FreshIdsDistinctAndNew(init, existing);
      var added := PartitionPrefix(init, existing).added;
      var r := rows[|rows| - 1];
      if Sid(r) != "" && Sid(r) !in existing && Sid(r) !in Ids(added) {
        DistinctSnoc(added, r);
        assert PartitionPrefix(rows, existing).added == added + [r];
      } else {
        assert PartitionPrefix(rows, existing).added == added;
      }
    }
  }

  /** Every row with an id lands in exactly one of the two lists; rows without one in neither. */
  lemma {:induction false} PartitionCountsIdRows(rows: seq<Row>, existing: set<string>)
    ensures var p := PartitionPrefix(rows, existing);
            |p.added| + |p.dups| == |IdRows(rows)|
            && (forall r :: r in p.added ==> Sid(r) != "")
            && (forall r :: r in p.dups ==> Sid(r) != "")
  {
    if rows != [] {
      var init := rows[..|rows| - 1];
      PartitionCountsIdRows(init, existing);
      assert rows == init + [rows[|rows| - 1]];
    }
  }

  /** The rows that carry an id. */
  function IdRows(rows: seq<Row>): (r: seq<Row>)
    ensures forall x :: x in r <==> x in rows && Sid(x) != ""
  {
    if rows == [] then []
    else IdRows(rows[..|rows| - 1]) + (if Sid(rows[|rows| - 1]) != "" then [rows[|rows| - 1]] else [])
  }

  /** The set of new ids is the set of row ids minus the stored ones. */
  lemma FreshIdsAreUnstoredIds(rows: seq<Row>, existing: set<string>)
    ensures Ids(PartitionPrefix(rows, existing).added) == Ids(IdRows(rows)) - existing
  {
    var added := PartitionPrefix(rows, existing).added;
    forall sid
      ensures sid in Ids(added) <==> sid in Ids(IdRows(rows)) - existing
    {
      FreshIdsAreFirstOccurrences(rows, existing, sid);
      if sid in Ids(IdRows(rows)) {
        var r :| r in IdRows(rows) && Sid(r) == sid;
        var j :| 0 <= j < |rows| && rows[j] == r;
      }
    }
  }

  /** Partitioning the new records again against the same stored ids keeps all of them. */
  lemma {:induction false} RepartitionKeepsFresh(rows: seq<Row>, existing: set<string>)
    ensures var added := PartitionPrefix(rows, existing).added;
            PartitionPrefix(added, existing) == Split(added, [])
  {
    var added := PartitionPrefix(rows, existing).added;
    FreshIdsDistinctAndNew(rows, existing);
    DistinctUnstoredAllFresh(added, existing);
  }

  /** Dropping the last row keeps distinct, unstored ids, and the last id is not among the others. */
  lemma DistinctInit(rows: seq<Row>, existing: set<string>)
    requires rows != [] && DistinctIds(rows) && AllUnstored(rows, existing)
    ensures var init := rows[..|rows| - 1];
            DistinctIds(init) && AllUnstored(init, existing) && Sid(rows[|rows| - 1]) !in Ids(init)
  {
    var init := rows[..|rows| - 1];
    assert forall i :: 0 <= i < |init| ==> init[i] == rows[i];
    forall x | x in init
      ensures Sid(x) != Sid(rows[|rows| - 1])
    {
      var i :| 0 <= i < |init| && init[i] == x;
    }
  }

  /** Rows whose ids are non-empty, distinct and not stored are all new. */
  lemma {:induction false} DistinctUnstoredAllFresh(rows: seq<Row>, existing: set<string>)
    requires DistinctIds(rows) && AllUnstored(rows, existing)
    ensures PartitionPrefix(rows, existing) == Split(rows, [])
  {
    if rows != [] {
      var init := rows[..|rows| - 1];
      var r := rows[|rows| - 1];
      DistinctInit(rows, existing);
      DistinctUnstoredAllFresh(init, existing);
      assert rows[|rows| - 1] == r && init + [r] == rows;
      FreshStep(init, r, existing);
    }
  }

  /** A row with a new, non-empty id that is not stored is appended to the new records. */
  lemma FreshStep(init: seq<Row>, r: Row, existing: set<string>)
    requires Sid(r) != "" && Sid(r) !in existing && Sid(r) !in Ids(init)
    ensures Step(Split(init, []), r, existing) == Split(init + [r], [])
  {
  }

  /** Once the new records are stored, checking the same file again finds only duplicates. */
  lemma {:induction false} SecondImportAllDuplicates(rows: seq<Row>, existing: set<string>)
    requires exists r :: r in rows && Sid(r) != ""
    ensures var stored := existing + Ids(CheckDuplicates(rows, existing).added);
            CheckDuplicates(rows, stored) == Split([], IdRows(rows))
  {
    var stored := existing + Ids(PartitionPrefix(rows, existing).added);
    FreshIdsAreUnstoredIds(rows, existing);
    AllStoredAllDuplicates(rows, stored);
  }

  /** When every id is stored, the new records are empty and the duplicates are the id rows. */
  lemma {:induction false} AllStoredAllDuplicates(rows: seq<Row>, stored: set<string>)
    requires forall r :: r in rows && Sid(r) != "" ==> Sid(r) in stored
    ensures PartitionPrefix(rows, stored) == Split([], IdRows(rows))
  {
    if rows != [] {
      var init := rows[..|rows| - 1];
      assert forall r :: r in init ==> r in rows;
      AllStoredAllDuplicates(init, stored);
    }
  }
}

=== FILE: import_reader.dfy ===
/** `GET /attendees/imports/{import_id}/rows` of `app/routes/admin.py`: it re-reads a stored
    roster file and shows its first rows. Unlike `parse_attendee_csv` it takes the header
    from the first physical line, matches column names loosely (spaces, underscores and
    hyphens ignored) and accepts roll numbers as student ids. The file arrives as its lines
    (`splitlines()`) together with the tokenized non-blank lines `csv.DictReader` iterates
    over; fetching it from the bucket or the disk is not modelled. */
module ImportReader {
  import opened Wrappers
  import opened Text
  import opened Seqs
  import opened CsvTable
  import opened Store

  const ImportMissing := "Import not found"
  const FileMissing := "CSV file not found"
  /** The storage service's 404 when a stored file cannot be fetched. */
  const StoredMissing := "Stored file not found"

  /** A file path the handler fetches from storage rather than reading from disk. */
  predicate IsUrl(path: string) {
    |path| >= 4 && path[..4] == "http"
  }

  /** FastAPI's answer to a query parameter outside its declared bounds. */
  const Unprocessable := 422

  /** `limit: int = Query(50, ge=1, le=200)`. */
  const MaxLimit := 200

  // ---------------------------------------------------------------------------
  // Splitting the header line

  /** Python's `s.split(sep)` for a one-character separator: always at least one part, and
      no part contains the separator. */
  function SplitOn(s: string, sep: char): (parts: seq<string>)
    ensures |parts| >= 1
    ensures forall i :: 0 <= i < |parts| ==> sep !in parts[i]
  {
    if s == [] then [""]
    else
      var rest := SplitOn(s[1..], sep);
      if s[0] == sep then [""] + rest
      else [[s[0]] + rest[0]] + rest[1..]
  }

  /** `sep.join(parts)`. */
  function Join(parts: seq<string>, sep: char): string
    requires |parts| >= 1
  {
    if |parts| == 1 then parts[0] else parts[0] + [sep] + Join(parts[1..], sep)
  }

  /** Splitting loses nothing: joining the parts back gives the line. */
  lemma {:induction false} SplitJoin(s: string, sep: char)
    ensures Join(SplitOn(s, sep), sep) == s
  {
    if s != [] {
      var rest := SplitOn(s[1..], sep);
      SplitJoin(s[1..], sep);
      if s[0] != sep {
        if |rest| == 1 {
          assert Join([[s[0]] + rest[0]], sep) == [s[0]] + rest[0];
        } else {
          assert Join([[s[0]] + rest[0]] + rest[1..], sep) == [s[0]] + rest[0] + [sep] + Join(rest[1..], sep);
        }
      }
      assert s == [s[0]] + s[1..];
    }
  }

  /** Joining parts free of the separator and splitting again gives the parts back. */
  lemma {:induction false} JoinSplit(parts: seq<string>, sep: char)
    requires |parts| >= 1
    requires forall i :: 0 <= i < |parts| ==> sep !in parts[i]
    ensures SplitOn(Join(parts, sep), sep) == parts
  {
    if |parts| == 1 {
      PartWithoutSeparator(parts[0], sep);
    } else {
      JoinSplit(parts[1..], sep);
      SplitPrefix(parts[0], Join(parts[1..], sep), sep);
    }
  }

  /** A string free of the separator is a single part. */
  lemma {:induction false} PartWithoutSeparator(p: string, sep: char)
    requires sep !in p
    ensures SplitOn(p, sep) == [p]
  {
    if p != [] {
      PartWithoutSeparator(p[1..], sep);
      assert p == [p[0]] + p[1..];
    }
  }

  /** Splitting `p + sep + rest` for a separator-free `p` puts `p` in front of the parts of `rest`. */
  lemma {:induction false} SplitPrefix(p: string, rest: string, sep: char)
    requires sep !in p
    ensures SplitOn(p + [sep] + rest, sep) == [p] + SplitOn(rest, sep)
  {
    if p == [] {
      assert [] + [sep] + rest == [sep] + rest;
      assert ([sep] + rest)[1..] == rest;
    } else {
      SplitPrefix(p[1..], rest, sep);
      var s := p + [sep] + rest;
      assert s[1..] == p[1..] + [sep] + rest;
      assert s[0] == p[0];
      assert [p[0]] + p[1..] == p;
    }
  }

  /** `s.replace(c, '')`. */
  function Remove(s: string, c: char): (r: string)
    ensures c !in r
    ensures forall x :: x in r <==> x in s && x != c
  {
    if s == [] then []
    else (if s[0] == c then [] else [s[0]]) + Remove(s[1..], c)
  }

  /** `[h.strip().lower() for h in header_line.split(',')]` after the byte-order marks are removed. */
  function Headers(line: string): (hs: seq<string>)
    ensures |hs| == |SplitOn(Remove(line, Bom), ',')|
    ensures forall i :: 0 <= i < |hs| ==> hs[i] == Lower(Strip(SplitOn(Remove(line, Bom), ',')[i]))
    ensures forall i :: 0 <= i < |hs| ==> HasNoUpper(hs[i]) && ',' !in hs[i]
  {
    var parts := SplitOn(Remove(line, Bom), ',');
    forall i | 0 <= i < |parts| ensures ',' !in Lower(Strip(parts[i])) {
      StripRemovesOnlySpace(parts[i]);
      LowerKeepsComma(Strip(parts[i]));
    }
    seq(|parts|, i requires 0 <= i < |parts| => Lower(Strip(parts[i])))
  }

  lemma LowerKeepsComma(s: string)
    requires ',' !in s
    ensures ',' !in Lower(s)
  {
    forall i | 0 <= i < |s| ensures Lower(s)[i] != ',' {
      assert s[i] in s;
    }
  }

  // ---------------------------------------------------------------------------
  // Loose column matching

  predicate IsSeparator(c: char) {
    c == ' ' || c == '_' || c == '-'
  }

  /** `normalize_key`: spaces, underscores and hyphens removed, everything else kept in order. */
  function NormalizeKey(k: string): string {
    if k == [] then []
    else (if IsSeparator(k[0]) then [] else [k[0]]) + NormalizeKey(k[1..])
  }

  /** The normal form keeps exactly the characters of the key that are not separators. */
  lemma {:induction false} NormalizeKeyChars(k: string)
    ensures forall c :: c in NormalizeKey(k) <==> c in k && !IsSeparator(c)
  {
    if k != [] {
      NormalizeKeyChars(k[1..]);
      assert k == [k[0]] + k[1..];
    }
  }

  /** A key without separators is its own normal form; in particular normalizing twice is normalizing once. */
  lemma {:induction false} NormalizeKeyFixes(k: string)
    requires forall c :: c in k ==> !IsSeparator(c)
    ensures NormalizeKey(k) == k
  {
    if k != [] {
      assert forall c :: c in k[1..] ==> c in k;
      NormalizeKeyFixes(k[1..]);
      assert k == [k[0]] + k[1..];
    }
  }

  lemma NormalizeKeyIdempotent(k: string)
    ensures NormalizeKey(NormalizeKey(k)) == NormalizeKey(k)
  {
    NormalizeKeyChars(k);
    NormalizeKeyFixes(NormalizeKey(k));
  }

  /** `header_map[normalize_key(key)]`: the LAST header with that normal form (a later header
      overwrites an earlier one in the dict comprehension). */
  function MappedHeader(headers: seq<string>, key: string): (h: Option<string>)
    ensures h.None? <==> forall i :: 0 <= i < |headers| ==> NormalizeKey(headers[i]) != NormalizeKey(key)
    ensures h.Some? ==> exists i :: (0 <= i < |headers| && headers[i] == h.value && NormalizeKey(h.value) == NormalizeKey(key)
                                     && forall j :: i < j < |headers| ==> NormalizeKey(headers[j]) != NormalizeKey(key))
  {
    var i := LastIndexWhere(headers, (x: string) => NormalizeKey(x) == NormalizeKey(key));
    if i < 0 then None else Some(headers[i])
  }

  /** What one alias of the student id yields for a record: nothing when no header matches it,
      otherwise the trimmed cell under the matching header. */
  function AliasValue(headers: seq<string>, cells: Record, key: string): Option<string> {
    match MappedHeader(headers, key)
    case None => None
    case Some(h) => Some(Strip(CellText(headers, cells, h)))
  }

  /** An alias that produced no usable id. */
  predicate Unusable(v: Option<string>) {
    v.None? || v.value == ""
  }

  /** The first usable value of a list, or "" when none is usable. */
  function FirstUsable(vs: seq<Option<string>>): (v: string)
    ensures v == "" <==> forall i :: 0 <= i < |vs| ==> Unusable(vs[i])
    ensures v != "" ==> exists i :: (0 <= i < |vs| && vs[i] == Some(v) && forall j :: 0 <= j < i ==> Unusable(vs[j]))
  {
    if vs == [] then ""
    else if !Unusable(vs[0]) then vs[0].value
    else
      var v := FirstUsable(vs[1..]);
      assert forall i :: 1 <= i < |vs| ==> vs[i] == vs[1..][i - 1];
      v
  }

  /** What each alias yields for a record, in alias order. */
  function AliasValues(headers: seq<string>, cells: Record, keys: seq<string>): (vs: seq<Option<string>>)
    ensures |vs| == |keys|
    ensures forall i :: 0 <= i < |keys| ==> vs[i] == AliasValue(headers, cells, keys[i])
  {
    seq(|keys|, i requires 0 <= i < |keys| => AliasValue(headers, cells, keys[i]))
  }

  /** The alias loop for the student id: the first alias whose value is non-empty wins, and
      the id is empty exactly when no alias yields a non-empty value. */
  function StudentIdFrom(headers: seq<string>, cells: Record, keys: seq<string>): (sid: string)
    ensures sid == "" <==> forall i :: 0 <= i < |keys| ==> Unusable(AliasValue(headers, cells, keys[i]))
    ensures sid != "" ==> exists i :: (0 <= i < |keys| && AliasValue(headers, cells, keys[i]) == Some(sid)
                                       && forall j :: 0 <= j < i ==> Unusable(AliasValue(headers, cells, keys[j])))
  {
    FirstUsable(AliasValues(headers, cells, keys))
  }

  /** The aliases tried for the student id, in order. */
  const StudentIdKeys: seq<string> :=
    ["student_id", "studentid", "student id", "id", "student_no", "studentno", "roll", "rollno", "roll_no"]

  /** `(a or b or ... or "")` over a list of cells. */
  function FirstNonEmpty(vs: seq<string>): (v: string)
    ensures v == "" <==> forall i :: 0 <= i < |vs| ==> vs[i] == ""
    ensures v != "" ==> exists i :: (0 <= i < |vs| && vs[i] == v && forall j :: 0 <= j < i ==> vs[j] == "")
  {
    if vs == [] then ""
    else if vs[0] != "" then vs[0]
    else
      var v := FirstNonEmpty(vs[1..]);
      assert forall i :: 1 <= i < |vs| ==> vs[i] == vs[1..][i - 1];
      v
  }

  /** The first non-empty cell among exact keys: `r.get(a) or r.get(b) or ... or ""`. */
  function FirstCell(headers: seq<string>, cells: Record, keys: seq<string>): (v: string)
    ensures v == "" <==> forall i :: 0 <= i < |keys| ==> CellText(headers, cells, keys[i]) == ""
    ensures v != "" ==> exists i :: (0 <= i < |keys| && CellText(headers, cells, keys[i]) == v
                                     && forall j :: 0 <= j < i ==> CellText(headers, cells, keys[j]) == "")
  {
    FirstNonEmpty(Cells(headers, cells, keys))
  }

  /** The cells under each key, in key order. */
  function Cells(headers: seq<string>, cells: Record, keys: seq<string>): (vs: seq<string>)
    ensures |vs| == |keys|
    ensures forall i :: 0 <= i < |keys| ==> vs[i] == CellText(headers, cells, keys[i])
  {
    seq(|keys|, i requires 0 <= i < |keys| => CellText(headers, cells, keys[i]))
  }

  // ---------------------------------------------------------------------------
  // The rows

  /** One row of the answer. */
  datatype ShownRow = ShownRow(name: string, studentId: string, email: string, course: string, role: string)

  /** The row shown for one record; `importRole` is the role the import was recorded with. */
  function ShowRow(headers: seq<string>, cells: Record, importRole: string): (r: ShownRow)
    ensures IsStripped(r.name) && IsStripped(r.email) && IsStripped(r.course)
    ensures r.role != ""
  {
    ShownRow(
      Strip(CellText(headers, cells, "name")),
      StudentIdFrom(headers, cells, StudentIdKeys),
      Strip(FirstCell(headers, cells, ["email", "e-mail", "emailid", "email_id"])),
      Strip(FirstCell(headers, cells, ["course", "program", "programme", "branch"])),
      Or(Strip(Or(CellText(headers, cells, "role"), importRole)), "student"))
  }

  /** The stored file as the reader sees it: `None` when it cannot be found, otherwise its
      lines and the tokenized non-blank lines. */
  datatype StoredFile = StoredFile(lines: seq<string>, records: seq<Record>)

  /** The rows shown for the data records: at most `limit` of them, in file order. */
  function ShowRows(headers: seq<string>, data: seq<Record>, limit: nat, importRole: string): (rows: seq<ShownRow>)
    ensures |rows| == if |data| < limit then |data| else limit
    ensures forall i :: 0 <= i < |rows| ==> rows[i] == ShowRow(headers, data[i], importRole)
  {
    var n := if |data| < limit then |data| else limit;
    seq(n, i requires 0 <= i < n => ShowRow(headers, data[i], importRole))
  }

  /** The import the handler looks up: the first one with that id in the caller's club. */
  function FindImport(db: Db, clubId: Id, importId: Id): (b: Option<ImportBatch>)
    ensures b.None? <==> forall x :: x in db.imports ==> !(x.id == importId && x.clubId == clubId)
    ensures b.Some? ==> b.value in db.imports && b.value.id == importId && b.value.clubId == clubId
  {
    FirstWhere(db.imports, (x: ImportBatch) => x.id == importId && x.clubId == clubId)
  }

  /** The handler: limit bounds (422), the import in the caller's club (404), a stored path
      (404), a readable file (404, from the storage service for a URL, from the handler for a
      local path); an empty file shows no rows; a file whose lines are all
      blank makes the header skip fail (500). Otherwise the header comes from the first line,
      the first tokenized record is skipped as the header, and at most `limit` rows follow. */
  function ReadImportRows(db: Db, clubId: Id, importId: Id, limit: int, file: Option<StoredFile>)
    : (r: Result<seq<ShownRow>, HttpError>)
    ensures !(1 <= limit <= MaxLimit) ==> r.Err? && r.error.status == Unprocessable
    ensures 1 <= limit <= MaxLimit && FindImport(db, clubId, importId).None? ==> r == Err(HttpError(NotFound, ImportMissing))
    ensures r.Ok? ==> FindImport(db, clubId, importId).Some? && FindImport(db, clubId, importId).value.filePath != ""
    ensures 1 <= limit <= MaxLimit && FindImport(db, clubId, importId).Some?
            && (FindImport(db, clubId, importId).value.filePath == "" || file.None?) ==>
              var path := FindImport(db, clubId, importId).value.filePath;
              r == Err(HttpError(NotFound, if path != "" && IsUrl(path) then StoredMissing else FileMissing))
    ensures r.Ok? ==> file.Some? && |r.value| <= limit
    ensures r.Ok? && file.value.lines == [] ==> r.value == []
    ensures r.Ok? && file.value.lines != [] ==>
              file.value.records != []
              && r.value == ShowRows(Headers(file.value.lines[0]), file.value.records[1..], limit,
                                     FindImport(db, clubId, importId).value.role)
  {
    if !(1 <= limit <= MaxLimit) then Err(HttpError(Unprocessable, "limit out of range"))
    else
      match FindImport(db, clubId, importId)
      case None => Err(HttpError(NotFound, ImportMissing))
      case Some(b) =>
        if b.filePath == "" then Err(HttpError(NotFound, FileMissing))
        else if file.None? then Err(HttpError(NotFound, if IsUrl(b.filePath) then StoredMissing else FileMissing))
        else if file.value.lines == [] then Ok([])
        else if file.value.records == [] then Err(HttpError(ServerError, "StopIteration"))
        else Ok(ShowRows(Headers(file.value.lines[0]), file.value.records[1..], limit, b.role))
  }

  // ---------------------------------------------------------------------------
  // What the loose matching accepts

  /** Every spelling of the student-id column the loop tries, and any other spelling that
      differs only in spaces, underscores or hyphens, matches the same header. */
  lemma SpellingsMatch(headers: seq<string>, a: string, b: string)
    requires NormalizeKey(a) == NormalizeKey(b)
    ensures MappedHeader(headers, a) == MappedHeader(headers, b)
  {
  }

  /** Normalizing distributes over concatenation. */
  lemma {:induction false} NormalizeKeyAppend(a: string, b: string)
    ensures NormalizeKey(a + b) == NormalizeKey(a) + NormalizeKey(b)
  {
    if a != [] {
      NormalizeKeyAppend(a[1..], b);
      assert (a + b)[1..] == a[1..] + b;
    } else {
      assert a + b == b;
    }
  }

  /** "student id", "student_id", "student-id" and "studentid" name the same column: joining two
      words with a space, underscore or hyphen matches the same header as writing them together. */
  lemma SeparatedSpellingsMatch(headers: seq<string>, a: string, b: string, c: char)
    requires IsSeparator(c)
    ensures MappedHeader(headers, a + [c] + b) == MappedHeader(headers, a + b)
  {
    NormalizeKeyAppend(a + [c], b);
    NormalizeKeyAppend(a, [c]);
    NormalizeKeyAppend(a, b);
    assert NormalizeKey([c]) == [];
    SpellingsMatch(headers, a + [c] + b, a + b);
  }
}

=== FILE: platform.dfy ===
/** Platform-admin operations: club reactivation, the permanent club delete run one `DELETE`
    statement at a time against the foreign keys of the schema, and the club-administrator
    activation and password reset.

    Each statement commits on its own, so a statement that fails leaves the deletions of the
    statements before it in place. A statement fails when a row left behind still refers to a
    deleted row through a `NO ACTION` foreign key; `ON DELETE CASCADE` removes the referring
    rows and `ON DELETE SET NULL` clears the reference. */
module Platform {
  import opened Wrappers
  import opened Seqs
  import opened Store
  import ClubService

  const AdminMissing := "Admin not found"

  /** The driver's integrity error, which the handler does not catch. */
  const Violation := HttpError(ServerError, "foreign key violation")

  /** A reference that is set and points at one of `ids`. */
  predicate Refers(r: Option<Id>, ids: set<Id>) {
    r.Some? && r.value in ids
  }

  function AttendeeIdsOf(db: Db, c: Id): set<Id> {
    set s | s in db.attendees && s.clubId == c :: s.id
  }

  function ImportIdsOf(db: Db, c: Id): set<Id> {
    set b | b in db.imports && b.clubId == c :: b.id
  }

  function TemplateIdsOf(db: Db, c: Id): set<Id> {
    set t | t in db.templates && t.clubId == c :: t.id
  }

  function AdminIdsOf(db: Db, c: Id): set<Id> {
    set a | a in db.clubAdmins && a.clubId == c :: a.id
  }

  function EventIdsOf(db: Db, c: Id): set<Id> {
    set e | e in db.events && e.clubId == c :: e.id
  }

  /** The rows each statement keeps: those of other clubs. */
  function GenerationKept(c: Id): Generation -> bool { (g: Generation) => g.clubId != c }

  function EventKept(c: Id): Event -> bool { (e: Event) => e.clubId != c }

  function LogKept(c: Id): ActivityLog -> bool { (l: ActivityLog) => l.clubId != Some(c) }

  function AttendeeKept(c: Id): Attendee -> bool { (s: Attendee) => s.clubId != c }

  function ImportKept(c: Id): ImportBatch -> bool { (b: ImportBatch) => b.clubId != c }

  function TemplateKept(c: Id): Template -> bool { (t: Template) => t.clubId != c }

  function AdminKept(c: Id): ClubAdmin -> bool { (a: ClubAdmin) => a.clubId != c }

  function ClubKept(c: Id): Club -> bool { (k: Club) => k.id != c }

  /** The generations the attendee cascade keeps, and the logs the administrator delete clears. */
  function GenerationOfKept(ids: set<Id>): Generation -> bool { (g: Generation) => g.attendeeId !in ids }

  function LogOfDeleted(ids: set<Id>): ActivityLog -> bool { (l: ActivityLog) => Refers(l.adminId, ids) }

  function ClearAdmin(l: ActivityLog): ActivityLog { l.(adminId := None) }

  /** `certificate_generations`: no table refers to it. */
  function DeleteGenerations(db: Db, c: Id): (d: Db)
    ensures d == db.(generations := d.generations)
    ensures forall g :: g in d.generations <==> g in db.generations && g.clubId != c
  {
    db.(generations := Filter(db.generations, GenerationKept(c)))
  }

  /** `certificate_events`: refused while a remaining generation points at a deleted event. */
  function DeleteEvents(db: Db, c: Id): (r: Result<Db, HttpError>)
    ensures r.Err? ==> r == Err(Violation)
    ensures r.Ok? ==> r.value == db.(events := r.value.events)
    ensures r.Ok? ==> forall e :: e in r.value.events <==> e in db.events && e.clubId != c
  {
    var ids := EventIdsOf(db, c);
    if exists g :: g in db.generations && Refers(g.eventId, ids) then Err(Violation)
    else Ok(db.(events := Filter(db.events, EventKept(c))))
  }

  /** `activity_logs`: no table refers to it. */
  function DeleteLogs(db: Db, c: Id): (d: Db)
    ensures d == db.(logs := d.logs)
    ensures forall l :: l in d.logs <==> l in db.logs && l.clubId != Some(c)
  {
    db.(logs := Filter(db.logs, LogKept(c)))
  }

  /** `attendees`: generations of a deleted attendee go with it (`ON DELETE CASCADE`). */
  function DeleteAttendees(db: Db, c: Id): (d: Db)
    ensures d == db.(attendees := d.attendees, generations := d.generations)
    ensures forall s :: s in d.attendees <==> s in db.attendees && s.clubId != c
    ensures forall g :: g in d.generations <==> g in db.generations && g.attendeeId !in AttendeeIdsOf(db, c)
  {
    var ids := AttendeeIdsOf(db, c);
    db.(attendees := Filter(db.attendees, AttendeeKept(c)),
        generations := Filter(db.generations, GenerationOfKept(ids)))
  }

  /** `attendee_imports`: refused while a remaining attendee or event points at a deleted import. */
  function DeleteImports(db: Db, c: Id): (r: Result<Db, HttpError>)
    ensures r.Err? ==> r == Err(Violation)
    ensures r.Ok? ==> r.value == db.(imports := r.value.imports)
    ensures r.Ok? ==> forall b :: b in r.value.imports <==> b in db.imports && b.clubId != c
  {
    var ids := ImportIdsOf(db, c);
    var d := db.(imports := Filter(db.imports, ImportKept(c)));
    if (exists s :: s in d.attendees && Refers(s.importId, ids))
       || (exists e :: e in d.events && e.importId in ids)
    then Err(Violation)
    else Ok(d)
  }

  /** `certificate_templates`: refused while a remaining attendee, generation or event points at a
      deleted template. */
  function DeleteTemplates(db: Db, c: Id): (r: Result<Db, HttpError>)
    ensures r.Err? ==> r == Err(Violation)
    ensures r.Ok? ==> r.value == db.(templates := r.value.templates)
    ensures r.Ok? ==> forall t :: t in r.value.templates <==> t in db.templates && t.clubId != c
  {
    var ids := TemplateIdsOf(db, c);
    if (exists s :: s in db.attendees && Refers(s.templateId, ids))
       || (exists g :: g in db.generations && g.templateId in ids)
       || (exists e :: e in db.events && e.templateId in ids)
    then Err(Violation)
    else Ok(db.(templates := Filter(db.templates, TemplateKept(c))))
  }

  /** `club_administrators`: refused while a remaining template or attendee points at a deleted
      administrator; activity logs pointing at one lose the reference (`ON DELETE SET NULL`). */
  function DeleteAdmins(db: Db, c: Id): (r: Result<Db, HttpError>)
    ensures r.Err? ==> r == Err(Violation)
    ensures r.Ok? ==> r.value == db.(clubAdmins := r.value.clubAdmins, logs := r.value.logs)
    ensures r.Ok? ==> forall a :: a in r.value.clubAdmins <==> a in db.clubAdmins && a.clubId != c
    ensures r.Ok? ==> |r.value.logs| == |db.logs|
    ensures r.Ok? ==> forall i :: 0 <= i < |db.logs| ==>
                        r.value.logs[i] == db.logs[i].(adminId := r.value.logs[i].adminId)
                        && !Refers(r.value.logs[i].adminId, AdminIdsOf(db, c))
  {
    var ids := AdminIdsOf(db, c);
    if (exists t :: t in db.templates && Refers(t.createdBy, ids))
       || (exists s :: s in db.attendees && Refers(s.uploadedBy, ids))
    then Err(Violation)
    else
      var logs := MapWhere(db.logs, LogOfDeleted(ids), ClearAdmin);
      Ok(db.(clubAdmins := Filter(db.clubAdmins, AdminKept(c)), logs := logs))
  }

  /** `clubs`: refused while an import or event of the club remains (`NO ACTION`). The club's
      generations, logs, attendees, templates and administrators go with it (`ON DELETE CASCADE`);
      the cascaded deletions are checked as the statements deleting those rows directly are. */
  function DeleteClubRow(db: Db, c: Id): (r: Result<Db, HttpError>)
    ensures r.Err? ==> r == Err(Violation)
    ensures r.Ok? ==> forall k :: k in r.value.clubs <==> k in db.clubs && k.id != c
  {
    if !exists k :: k in db.clubs && k.id == c then Ok(db)
    else if (exists b :: b in db.imports && b.clubId == c) || (exists e :: e in db.events && e.clubId == c) then Err(Violation)
    else Cascade(db, c)
  }

  /** The club row and the rows that go with it. */
  function Cascade(db: Db, c: Id): (r: Result<Db, HttpError>)
    ensures r.Err? ==> r == Err(Violation)
    ensures r.Ok? ==> forall k :: k in r.value.clubs <==> k in db.clubs && k.id != c
  {
    var d := DeleteAttendees(DeleteLogs(DeleteGenerations(db, c), c), c);
    var d' :- DeleteTemplates(d, c);
    var d'' :- DeleteAdmins(d', c);
    Ok(d''.(clubs := Filter(d''.clubs, ClubKept(c))))
  }

  /** The state a permanent delete leaves, and what the handler answers: the deleted club's name
      for the success message, or an error. */
  datatype Deletion = Deletion(db: Db, outcome: Result<string, HttpError>)

  /** The statements after `activity_logs` is reached, each committed on its own: the state after
      the last one that succeeded, and the error of the one that failed, if any. */
  function DeleteFromLogs(db: Db, c: Id): (r: (Db, Option<HttpError>))
    ensures r.1.None? || r.1 == Some(Violation)
  {
    var d := DeleteAttendees(DeleteLogs(db, c), c);
    match DeleteImports(d, c)
    case Err(e) => (d, Some(e))
    case Ok(d) =>
      match DeleteTemplates(d, c)
      case Err(e) => (d, Some(e))
      case Ok(d) =>
        match DeleteAdmins(d, c)
        case Err(e) => (d, Some(e))
        case Ok(d) =>
          match DeleteClubRow(d, c)
          case Err(e) => (d, Some(e))
          case Ok(d) => (d, None)
  }

  /** The statements of `delete_club_permanently`, in its order: generations, activity logs,
      attendees, imports, templates, administrators, the club. */
  function AsWrittenStatements(db: Db, c: Id): (r: (Db, Option<HttpError>))
    ensures r.1.None? || r.1 == Some(Violation)
  {
    DeleteFromLogs(DeleteGenerations(db, c), c)
  }

  /** The same order with the club's certificate events deleted after its generations (which
      refer to them) and before its imports and templates (which they refer to). */
  function Statements(db: Db, c: Id): (r: (Db, Option<HttpError>))
    ensures r.1.None? || r.1 == Some(Violation)
  {
    var d := DeleteGenerations(db, c);
    match DeleteEvents(d, c)
    case Err(e) => (d, Some(e))
    case Ok(d) => DeleteFromLogs(d, c)
  }

  /** 404 for an unknown club, with nothing deleted; otherwise the statements' outcome. */
  function Answer(db: Db, c: Id, run: (Db, Option<HttpError>)): (r: Deletion)
    requires run.1.None? || run.1 == Some(Violation)
    ensures (forall k :: k in db.clubs ==> k.id != c) <==> r == Deletion(db, Err(HttpError(NotFound, ClubService.ClubMissing)))
    ensures r.outcome.Ok? ==> exists k :: k in db.clubs && k.id == c && r.outcome.value == k.name
  {
    match FirstWhere(db.clubs, ClubService.IsClub(c))
    case None => Deletion(db, Err(HttpError(NotFound, ClubService.ClubMissing)))
    case Some(club) => Deletion(run.0, if run.1.Some? then Err(run.1.value) else Ok(club.name))
  }

  /** `delete_club_permanently` as written: the club's certificate events are never deleted. */
  function DeleteClubAsWritten(db: Db, c: Id): (r: Deletion)
    ensures (forall k :: k in db.clubs ==> k.id != c) <==> r == Deletion(db, Err(HttpError(NotFound, ClubService.ClubMissing)))
  {
    Answer(db, c, AsWrittenStatements(db, c))
  }

  /** `delete_club_permanently` with the club's certificate events deleted as well. */
  function DeleteClub(db: Db, c: Id): (r: Deletion)
    ensures (forall k :: k in db.clubs ==> k.id != c) <==> r == Deletion(db, Err(HttpError(NotFound, ClubService.ClubMissing)))
  {
    Answer(db, c, Statements(db, c))
  }

  /** Every reference between rows stays inside one club, as the handlers that create the rows
      ensure (each checks that the template, import or event it links belongs to the caller's
      club). */
  predicate Scoped(db: Db) {
    EventRefsScoped(db) && AttendeeRefsScoped(db) && ImportRefsScoped(db)
    && TemplateRefsScoped(db) && AdminRefsScoped(db)
  }

  /** References to `certificate_events`. */
  predicate EventRefsScoped(db: Db) {
    forall g, e :: g in db.generations && e in db.events && g.eventId == Some(e.id) ==> g.clubId == e.clubId
  }

  /** References to `attendees`. */
  predicate AttendeeRefsScoped(db: Db) {
    forall g, s :: g in db.generations && s in db.attendees && g.attendeeId == s.id ==> g.clubId == s.clubId
  }

  /** References to `attendee_imports`. */
  predicate ImportRefsScoped(db: Db) {
    (forall s, b :: s in db.attendees && b in db.imports && s.importId == Some(b.id) ==> s.clubId == b.clubId)
    && (forall e, b :: e in db.events && b in db.imports && e.importId == b.id ==> e.clubId == b.clubId)
  }

  /** References to `certificate_templates`. */
  predicate TemplateRefsScoped(db: Db) {
    (forall s, t :: s in db.attendees && t in db.templates && s.templateId == Some(t.id) ==> s.clubId == t.clubId)
    && (forall g, t :: g in db.generations && t in db.templates && g.templateId == t.id ==> g.clubId == t.clubId)
    && (forall e, t :: e in db.events && t in db.templates && e.templateId == t.id ==> e.clubId == t.clubId)
  }

  /** References to `club_administrators`. */
  predicate AdminRefsScoped(db: Db) {
    (forall t, a :: t in db.templates && a in db.clubAdmins && t.createdBy == Some(a.id) ==> t.clubId == a.clubId)
    && (forall s, a :: s in db.attendees && a in db.clubAdmins && s.uploadedBy == Some(a.id) ==> s.clubId == a.clubId)
  }

  /** The state after the first `n` statements of `Statements` have succeeded on `db`: the club's rows
      are gone from the tables those statements delete from and the other tables are untouched. */
  ghost predicate Stage(d: Db, db: Db, c: Id, n: nat) {
    d.platformAdmins == db.platformAdmins
    && d.generations == (if n >= 1 then Filter(db.generations, GenerationKept(c)) else db.generations)
    && d.events == (if n >= 2 then Filter(db.events, EventKept(c)) else db.events)
    && (if n >= 3 then forall l :: l in d.logs ==> l.clubId != Some(c) else d.logs == db.logs)
    && d.attendees == (if n >= 4 then Filter(db.attendees, AttendeeKept(c)) else db.attendees)
    && d.imports == (if n >= 5 then Filter(db.imports, ImportKept(c)) else db.imports)
    && d.templates == (if n >= 6 then Filter(db.templates, TemplateKept(c)) else db.templates)
    && d.clubAdmins == (if n >= 7 then Filter(db.clubAdmins, AdminKept(c)) else db.clubAdmins)
    && d.clubs == (if n >= 8 then Filter(db.clubs, ClubKept(c)) else db.clubs)
  }

  lemma StepGenerations(d: Db, db: Db, c: Id)
    requires Stage(d, db, c, 0)
    ensures Stage(DeleteGenerations(d, c), db, c, 1)
  {
  }

  lemma StepEvents(d: Db, db: Db, c: Id)
    requires EventRefsScoped(db) && Stage(d, db, c, 1)
    ensures DeleteEvents(d, c).Ok? && Stage(DeleteEvents(d, c).value, db, c, 2)
  {
  }

  lemma StepLogs(d: Db, db: Db, c: Id)
    requires Stage(d, db, c, 2)
    ensures Stage(DeleteLogs(d, c), db, c, 3)
  {
  }

  lemma StepAttendees(d: Db, db: Db, c: Id)
    requires AttendeeRefsScoped(db) && Stage(d, db, c, 3)
    ensures Stage(DeleteAttendees(d, c), db, c, 4)
  {
    FilterAll(d.generations, GenerationOfKept(AttendeeIdsOf(d, c)));
  }

  lemma StepImports(d: Db, db: Db, c: Id)
    requires ImportRefsScoped(db) && Stage(d, db, c, 4)
    ensures DeleteImports(d, c).Ok? && Stage(DeleteImports(d, c).value, db, c, 5)
  {
  }

  lemma StepTemplates(d: Db, db: Db, c: Id)
    requires TemplateRefsScoped(db) && Stage(d, db, c, 5)
    ensures DeleteTemplates(d, c).Ok? && Stage(DeleteTemplates(d, c).value, db, c, 6)
  {
    TemplatesFree(d, db, c);
  }

  /** Once the club's attendees, generations and events are gone, no remaining row points at one
      of its templates. */
  lemma TemplatesFree(d: Db, db: Db, c: Id)
    requires TemplateRefsScoped(db) && d.templates == db.templates
    requires forall s :: s in d.attendees ==> s in db.attendees && s.clubId != c
    requires forall g :: g in d.generations ==> g in db.generations && g.clubId != c
    requires forall e :: e in d.events ==> e in db.events && e.clubId != c
    ensures DeleteTemplates(d, c) == Ok(d.(templates := Filter(d.templates, TemplateKept(c))))
  {
  }

  lemma StepAdmins(d: Db, db: Db, c: Id)
    requires AdminRefsScoped(db) && Stage(d, db, c, 6)
    ensures DeleteAdmins(d, c).Ok? && Stage(DeleteAdmins(d, c).value, db, c, 7)
  {
    AdminsFree(d, db, c);
    assert forall i :: 0 <= i < |d.logs| ==> LogKept(c)(d.logs[i]);
    MapWhereKeeps(d.logs, LogOfDeleted(AdminIdsOf(d, c)), ClearAdmin, LogKept(c));
  }

  /** Once the club's templates and attendees are gone, no remaining row points at one of its
      administrators. */
  lemma AdminsFree(d: Db, db: Db, c: Id)
    requires AdminRefsScoped(db) && d.clubAdmins == db.clubAdmins
    requires forall t :: t in d.templates ==> t in db.templates && t.clubId != c
    requires forall s :: s in d.attendees ==> s in db.attendees && s.clubId != c
    ensures DeleteAdmins(d, c)
            == Ok(d.(clubAdmins := Filter(d.clubAdmins, AdminKept(c)),
                     logs := MapWhere(d.logs, LogOfDeleted(AdminIdsOf(d, c)), ClearAdmin)))
  {
  }

  /** Statements with nothing of the club to delete leave the database as it is. */
  lemma GenerationsUntouched(d: Db, c: Id)
    requires forall x :: x in d.generations ==> x.clubId != c
    ensures DeleteGenerations(d, c) == d
  {
    FilterAll(d.generations, GenerationKept(c));
  }

  lemma LogsUntouched(d: Db, c: Id)
    requires forall l :: l in d.logs ==> l.clubId != Some(c)
    ensures DeleteLogs(d, c) == d
  {
    FilterAll(d.logs, LogKept(c));
  }

  lemma AttendeesUntouched(d: Db, c: Id)
    requires forall x :: x in d.attendees ==> x.clubId != c
    ensures DeleteAttendees(d, c) == d
  {
    FilterAll(d.attendees, AttendeeKept(c));
    assert AttendeeIdsOf(d, c) == {};
    FilterAll(d.generations, GenerationOfKept({}));
  }

  lemma TemplatesUntouched(d: Db, c: Id)
    requires forall x :: x in d.templates ==> x.clubId != c
    ensures DeleteTemplates(d, c) == Ok(d)
  {
    assert TemplateIdsOf(d, c) == {};
    FilterAll(d.templates, TemplateKept(c));
  }

  lemma AdminsUntouched(d: Db, c: Id)
    requires forall x :: x in d.clubAdmins ==> x.clubId != c
    ensures DeleteAdmins(d, c) == Ok(d)
  {
    assert AdminIdsOf(d, c) == {};
    FilterAll(d.clubAdmins, AdminKept(c));
    MapWhereNone(d.logs, LogOfDeleted({}), ClearAdmin);
  }

  /** Once nothing of the club is left but the club row, deleting that row cascades to nothing. */
  lemma ClubRowAlone(d: Db, c: Id)
    requires forall x :: x in d.generations ==> x.clubId != c
    requires forall x :: x in d.events ==> x.clubId != c
    requires forall x :: x in d.attendees ==> x.clubId != c
    requires forall x :: x in d.imports ==> x.clubId != c
    requires forall x :: x in d.templates ==> x.clubId != c
    requires forall x :: x in d.clubAdmins ==> x.clubId != c
    requires forall l :: l in d.logs ==> l.clubId != Some(c)
    ensures DeleteClubRow(d, c) == Ok(d.(clubs := Filter(d.clubs, ClubKept(c))))
  {
    if exists k :: k in d.clubs && k.id == c {
      GenerationsUntouched(d, c);
      LogsUntouched(d, c);
      AttendeesUntouched(d, c);
      TemplatesUntouched(d, c);
      AdminsUntouched(d, c);
      assert Cascade(d, c) == Ok(d.(clubs := Filter(d.clubs, ClubKept(c))));
    } else {
      FilterAll(d.clubs, ClubKept(c));
    }
  }

  lemma StepClubs(d: Db, db: Db, c: Id)
    requires Stage(d, db, c, 7)
    ensures DeleteClubRow(d, c).Ok? && Stage(DeleteClubRow(d, c).value, db, c, 8)
  {
    ClubRowAlone(d, c);
  }

  /** From stage 2 the remaining statements all succeed and reach the last stage. */
  lemma FromLogsSucceeds(d: Db, db: Db, c: Id)
    requires Scoped(db) && Stage(d, db, c, 2)
    ensures DeleteFromLogs(d, c).1.None? && Stage(DeleteFromLogs(d, c).0, db, c, 8)
  {
    StepLogs(d, db, c);
    var d3 := DeleteLogs(d, c);
    StepAttendees(d3, db, c);
    var d4 := DeleteAttendees(d3, c);
    StepImports(d4, db, c);
    var d5 := DeleteImports(d4, c).value;
    StepTemplates(d5, db, c);
    var d6 := DeleteTemplates(d5, c).value;
    StepAdmins(d6, db, c);
    var d7 := DeleteAdmins(d6, c).value;
    StepClubs(d7, db, c);
  }

  /** The corrected delete of an existing club succeeds and removes exactly that club's rows:
      no row with its id is left in any of the tables, and every row of another club is kept. */
  lemma DeleteClubRemovesEveryRow(db: Db, c: Id)
    requires Scoped(db)
    ensures DeleteClub(db, c).outcome.Ok? <==> exists k :: k in db.clubs && k.id == c
    ensures DeleteClub(db, c).outcome.Ok? ==> Stage(DeleteClub(db, c).db, db, c, 8)
  {
    if exists k :: k in db.clubs && k.id == c {
      StepGenerations(db, db, c);
      var d1 := DeleteGenerations(db, c);
      StepEvents(d1, db, c);
      FromLogsSucceeds(DeleteEvents(d1, c).value, db, c);
    }
  }

  /** As written, the delete of a club with a certificate event fails at `attendee_imports`,
      because the event still refers to one of the club's imports, and by then the club's
      generations, activity logs and attendees are already gone for good while the club stays. */
  lemma EventBlocksDelete(db: Db, c: Id, b: ImportBatch, e: Event)
    requires exists k :: k in db.clubs && k.id == c
    requires b in db.imports && b.clubId == c
    requires e in db.events && e.importId == b.id
    ensures DeleteClubAsWritten(db, c).outcome == Err(Violation)
    ensures var d := DeleteClubAsWritten(db, c).db;
            d.clubs == db.clubs && d.imports == db.imports && d.events == db.events
            && (forall x :: x in d.generations ==> x.clubId != c)
            && (forall x :: x in d.attendees <==> x in db.attendees && x.clubId != c)
            && (forall l :: l in d.logs ==> l.clubId != Some(c))
  {
    var d3 := DeleteAttendees(DeleteLogs(DeleteGenerations(db, c), c), c);
    assert e in d3.events && e.importId in ImportIdsOf(d3, c);
    assert AsWrittenStatements(db, c) == (d3, Some(Violation));
  }

  /** Without certificate events of the club the two orders do the same thing, so the extra
      statement changes nothing else. */
  lemma AsWrittenAgreesWithoutEvents(db: Db, c: Id)
    requires forall e :: e in db.events ==> e.clubId != c
    ensures DeleteClubAsWritten(db, c) == DeleteClub(db, c)
  {
    var d1 := DeleteGenerations(db, c);
    FilterAll(d1.events, EventKept(c));
    assert EventIdsOf(d1, c) == {};
    assert DeleteEvents(d1, c) == Ok(d1);
  }

  /** `reactivate_club`: 404 for an unknown club; otherwise that club is active again and every
      other row is as it was. */
  function ReactivateClub(db: Db, c: Id, now: int): (r: Result<Db, HttpError>)
    ensures r.Err? <==> forall k :: k in db.clubs ==> k.id != c
    ensures r.Err? ==> r.error == HttpError(NotFound, ClubService.ClubMissing)
    ensures r.Ok? ==> r.value == db.(clubs := r.value.clubs) && |r.value.clubs| == |db.clubs|
    ensures r.Ok? ==> forall i :: 0 <= i < |db.clubs| ==>
                        if db.clubs[i].id == c then r.value.clubs[i].isActive
                        else r.value.clubs[i] == db.clubs[i]
  {
    ClubService.SetClubActive(db, c, true, now)
  }

  /** Deactivating an active club and reactivating it gives back the same database, apart from
      the club's `updated_at`. */
  lemma ReactivateUndoesDeactivate(db: Db, c: Id, t1: int, t2: int)
    requires forall k :: k in db.clubs && k.id == c ==> k.isActive
    requires ClubService.DeactivateClub(db, c, t1).Ok?
    ensures ReactivateClub(ClubService.DeactivateClub(db, c, t1).value, c, t2).Ok?
    ensures var d := ReactivateClub(ClubService.DeactivateClub(db, c, t1).value, c, t2).value;
            d == db.(clubs := d.clubs) && |d.clubs| == |db.clubs|
            && forall i :: 0 <= i < |db.clubs| ==> d.clubs[i] == db.clubs[i].(updatedAt := d.clubs[i].updatedAt)
  {
    var d1 := ClubService.DeactivateClub(db, c, t1).value;
    assert forall i :: 0 <= i < |db.clubs| ==> d1.clubs[i].id == db.clubs[i].id;
    assert forall i :: 0 <= i < |db.clubs| ==> db.clubs[i] in db.clubs;
  }

  /** `WHERE id = :id` on `club_administrators`. */
  function IsAdmin(id: Id): ClubAdmin -> bool {
    (a: ClubAdmin) => a.id == id
  }

  function Activate(a: ClubAdmin): ClubAdmin {
    a.(isActive := true)
  }

  function TempPassword(h: string): ClubAdmin -> ClubAdmin {
    (a: ClubAdmin) => a.(passwordHash := h, mustChangePassword := true)
  }

  /** `activate_club_admin`: 404 for an unknown administrator; otherwise the rows with that id are
      active and nothing else changes. */
  function ActivateAdmin(db: Db, id: Id): (r: Result<Db, HttpError>)
    ensures r.Err? <==> forall a :: a in db.clubAdmins ==> a.id != id
    ensures r.Err? ==> r.error == HttpError(NotFound, AdminMissing)
    ensures r.Ok? ==> r.value == db.(clubAdmins := r.value.clubAdmins) && |r.value.clubAdmins| == |db.clubAdmins|
    ensures r.Ok? ==> forall i :: 0 <= i < |db.clubAdmins| ==>
                        r.value.clubAdmins[i] == if db.clubAdmins[i].id == id then db.clubAdmins[i].(isActive := true) else db.clubAdmins[i]
  {
    if exists a :: a in db.clubAdmins && a.id == id then
      Ok(db.(clubAdmins := MapWhere(db.clubAdmins, IsAdmin(id), Activate)))
    else
      Err(HttpError(NotFound, AdminMissing))
  }

  /** What `reset_admin_password` answers: the administrator's e-mail and the temporary password. */
  datatype Reset = Reset(adminEmail: string, tempPassword: string)

  /** `reset_admin_password`: 404 for an unknown administrator; otherwise the rows with that id get
      the hash of the temporary password and must change it at the next login. `temp` stands for
      `generate_random_password(12)` and `hash` for `hash_password`. */
  function ResetPassword(db: Db, id: Id, temp: string, hash: string -> string): (r: Result<(Db, Reset), HttpError>)
    ensures r.Err? <==> forall a :: a in db.clubAdmins ==> a.id != id
    ensures r.Err? ==> r.error == HttpError(NotFound, AdminMissing)
    ensures r.Ok? ==> r.value.1.tempPassword == temp
                      && exists a :: a in db.clubAdmins && a.id == id && a.email == r.value.1.adminEmail
    ensures r.Ok? ==> var d := r.value.0;
                      d == db.(clubAdmins := d.clubAdmins) && |d.clubAdmins| == |db.clubAdmins|
                      && forall i :: 0 <= i < |db.clubAdmins| ==>
                           d.clubAdmins[i] == if db.clubAdmins[i].id == id
                                              then db.clubAdmins[i].(passwordHash := hash(temp), mustChangePassword := true)
                                              else db.clubAdmins[i]
  {
    match FirstWhere(db.clubAdmins, IsAdmin(id))
    case None => Err(HttpError(NotFound, AdminMissing))
    case Some(a) =>
      Ok((db.(clubAdmins := MapWhere(db.clubAdmins, IsAdmin(id), TempPassword(hash(temp)))), Reset(a.email, temp)))
  }
}

=== FILE: seqs.dfy ===
/** Generic sequence operations standing in for SQL `WHERE`, `COUNT(*)` and `SUM(...)`. */
module Seqs {
  import opened Wrappers

  /** The elements of `s` satisfying `p`, in their original order (`WHERE p`). */
  function Filter<T(!new)>(s: seq<T>, p: T -> bool): (r: seq<T>)
    ensures |r| <= |s|
    ensures forall x :: x in r <==> x in s && p(x)
  {
    if s == [] then [] else (if p(s[0]) then [s[0]] else []) + Filter(s[1..], p)
  }

  /** Filtering distributes over concatenation, so it keeps the input order. */
  lemma {:induction false} FilterAppend<T(!new)>(a: seq<T>, b: seq<T>, p: T -> bool)
    ensures Filter(a + b, p) == Filter(a, p) + Filter(b, p)
  {
    if a == [] {
      assert a + b == b;
    } else {
      assert (a + b)[1..] == a[1..] + b;
      FilterAppend(a[1..], b, p);
    }
  }

  /** Filtering with a predicate every element meets returns the input. */
  lemma {:induction false} FilterAll<T(!new)>(s: seq<T>, p: T -> bool)
    requires forall x :: x in s ==> p(x)
    ensures Filter(s, p) == s
  {
    if s != [] {
      FilterAll(s[1..], p);
    }
  }

  /** `COUNT(*)` of the rows satisfying `p`. */
  function Count<T(!new)>(s: seq<T>, p: T -> bool): (n: nat)
    ensures n <= |s|
    ensures n == 0 <==> forall x :: x in s ==> !p(x)
  {
    var r := Filter(s, p);
    assert r != [] ==> r[0] in r;
    |r|
  }

  /** Every row satisfies exactly one of a predicate and its negation, so the two counts add up. */
  lemma {:induction false} CountComplement<T(!new)>(s: seq<T>, p: T -> bool, q: T -> bool)
    requires forall x :: q(x) == !p(x)
    ensures Count(s, p) + Count(s, q) == |s|
  {
    if s != [] {
      CountComplement(s[1..], p, q);
    }
  }

  /** Counting `q` after an `UPDATE` whose image never satisfies `q` counts the untouched rows satisfying `q`. */
  lemma {:induction false} CountAfterUpdate<T(!new)>(s: seq<T>, p: T -> bool, f: T -> T, q: T -> bool, kept: T -> bool)
    requires forall x :: p(x) ==> !q(f(x))
    requires forall x :: kept(x) == (q(x) && !p(x))
    ensures Count(MapWhere(s, p, f), q) == Count(s, kept)
  {
    if s != [] {
      var m := MapWhere(s, p, f);
      assert m[1..] == MapWhere(s[1..], p, f);
      CountAfterUpdate(s[1..], p, f, q, kept);
    }
  }

  /** `SUM(f(row))` over a table; an empty sum is 0, as `COALESCE(SUM(..), 0)`. */
  function Sum<T(!new)>(s: seq<T>, f: T -> nat): nat
  {
    if s == [] then 0 else f(s[0]) + Sum(s[1..], f)
  }

  lemma {:induction false} SumAppend<T(!new)>(a: seq<T>, b: seq<T>, f: T -> nat)
    ensures Sum(a + b, f) == Sum(a, f) + Sum(b, f)
  {
    if a == [] {
      assert a + b == b;
    } else {
      assert (a + b)[1..] == a[1..] + b;
      SumAppend(a[1..], b, f);
    }
  }

  /** The first element satisfying `p` (`fetch_one` without `ORDER BY`), or none. */
  function FirstWhere<T(!new)>(s: seq<T>, p: T -> bool): (r: Option<T>)
    ensures r.Some? <==> exists x :: x in s && p(x)
    ensures r.Some? ==> r.value in s && p(r.value)
  {
    if s == [] then None
    else if p(s[0]) then Some(s[0])
    else FirstWhere(s[1..], p)
  }

  /** `UPDATE ... SET f WHERE p`: every row satisfying `p` replaced by its image under `f`, the rest kept in place. */
  function MapWhere<T>(s: seq<T>, p: T -> bool, f: T -> T): (r: seq<T>)
    ensures |r| == |s|
    ensures forall i :: 0 <= i < |s| ==> r[i] == if p(s[i]) then f(s[i]) else s[i]
  {
    seq(|s|, i requires 0 <= i < |s| => if p(s[i]) then f(s[i]) else s[i])
  }

  /** An `UPDATE` whose image keeps a property keeps it for the whole table. */
  lemma MapWhereKeeps<T>(s: seq<T>, p: T -> bool, f: T -> T, q: T -> bool)
    requires forall x :: q(x) ==> q(f(x))
    requires forall i :: 0 <= i < |s| ==> q(s[i])
    ensures forall x :: x in MapWhere(s, p, f) ==> q(x)
  {
  }

  /** An `UPDATE` whose condition no row meets changes nothing. */
  lemma MapWhereNone<T>(s: seq<T>, p: T -> bool, f: T -> T)
    requires forall i :: 0 <= i < |s| ==> !p(s[i])
    ensures MapWhere(s, p, f) == s
  {
  }

  /** After an `UPDATE` that keeps the rows matching `p` matching, the first match is the update of the old first match. */
  lemma {:induction false} FirstWhereAfterUpdate<T(!new)>(s: seq<T>, p: T -> bool, f: T -> T)
    requires forall x :: p(x) ==> p(f(x))
    ensures FirstWhere(MapWhere(s, p, f), p) == if FirstWhere(s, p).Some? then Some(f(FirstWhere(s, p).value)) else None
  {
    if s != [] && !p(s[0]) {
      assert MapWhere(s, p, f)[1..] == MapWhere(s[1..], p, f);
      FirstWhereAfterUpdate(s[1..], p, f);
    }
  }

  /** An `UPDATE` whose image agrees with `p` on the rows it touches leaves the first match of `p`
      in place, updated when the `UPDATE` touched it. */
  lemma {:induction false} FirstWhereAfterMap<T(!new)>(s: seq<T>, q: T -> bool, f: T -> T, p: T -> bool)
    requires forall x :: q(x) ==> p(f(x)) == p(x)
    ensures FirstWhere(MapWhere(s, q, f), p)
            == if FirstWhere(s, p).None? then None
               else var x := FirstWhere(s, p).value; Some(if q(x) then f(x) else x)
  {
    if s != [] {
      assert MapWhere(s, q, f)[1..] == MapWhere(s[1..], q, f);
      FirstWhereAfterMap(s[1..], q, f, p);
    }
  }

  /** Two predicates that agree everywhere pick the same first element. */
  lemma {:induction false} FirstWhereSame<T(!new)>(s: seq<T>, p: T -> bool, q: T -> bool)
    requires forall x :: p(x) == q(x)
    ensures FirstWhere(s, p) == FirstWhere(s, q)
  {
    if s != [] && !p(s[0]) {
      FirstWhereSame(s[1..], p, q);
    }
  }

  /** `ORDER BY key DESC LIMIT 1`: an element with the greatest key (the earliest such one), or none. */
  function ArgMax<T(!new)>(s: seq<T>, key: T -> int): (r: Option<T>)
    ensures r.None? <==> s == []
    ensures r.Some? ==> r.value in s && forall x :: x in s ==> key(x) <= key(r.value)
  {
    if s == [] then None
    else
      var rest := ArgMax(s[1..], key);
      assert forall x :: x in s ==> x == s[0] || x in s[1..];
      if rest.None? || key(s[0]) >= key(rest.value) then Some(s[0]) else rest
  }

  /** Appending one row adds one to the count exactly when the row satisfies the predicate. */
  lemma CountSnoc<T(!new)>(s: seq<T>, x: T, p: T -> bool)
    ensures Count(s + [x], p) == Count(s, p) + if p(x) then 1 else 0
  {
    FilterAppend(s, [x], p);
    assert Filter([x], p) == (if p(x) then [x] else []) + Filter([x][1..], p);
  }

  /** The position of the last element satisfying `p`, or -1 when there is none. */
  function LastIndexWhere<T>(s: seq<T>, p: T -> bool): (i: int)
    ensures -1 <= i < |s|
    ensures i < 0 <==> forall j :: 0 <= j < |s| ==> !p(s[j])
    ensures i >= 0 ==> p(s[i])
    ensures forall j :: i < j < |s| ==> !p(s[j])
  {
    if s == [] then -1
    else if p(s[|s| - 1]) then |s| - 1
    else LastIndexWhere(s[..|s| - 1], p)
  }
}

=== FILE: store.dfy ===
/** The database the services read and write, as one immutable record of tables.
    Each table is a sequence of rows; `fetch_one` without `ORDER BY` is the first
    matching row. Columns the modelled code never reads are omitted. Times are
    integers supplied by the caller (`NOW()` and `generated_at` become parameters). */
module Store {
  import opened Wrappers
  import opened TemplateSchema

  type Id = nat

  /** `clubs`. */
  datatype Club = Club(id: Id, name: string, slug: string, contactEmail: string, isActive: bool, updatedAt: int)

  /** `platform_admins`. */
  datatype PlatformAdmin = PlatformAdmin(id: Id, email: string, passwordHash: string, isActive: bool, mustChangePassword: bool)

  /** `club_administrators`. */
  datatype ClubAdmin = ClubAdmin(id: Id, clubId: Id, email: string, passwordHash: string, isActive: bool, mustChangePassword: bool)

  /** `certificate_templates`. `version` is nullable in the schema; `textFields` holds the
      stored descriptor objects. */
  datatype Template = Template(
    id: Id, clubId: Id, name: string, imageUrl: string, audience: string, textFields: seq<Object>,
    version: Option<int>, isActive: bool, imageBytes: nat, eventName: Option<string>,
    createdBy: Option<Id>, updatedAt: int)

  /** `attendees`. The ledger columns (`certificate_generated_count`, `first_generated_at`,
      `last_generated_at`) are nullable; `updatedAt` is the column the cross-club lookup orders by. */
  datatype Attendee = Attendee(
    id: Id, clubId: Id, name: string, studentId: string, email: Option<string>, course: Option<string>,
    role: string, eventName: Option<string>, eventDate: Option<int>,
    templateId: Option<Id>, importId: Option<Id>, uploadedBy: Option<Id>,
    count: Option<int>, firstAt: Option<int>, lastAt: Option<int>, updatedAt: int)

  /** `attendee_imports`. */
  datatype ImportBatch = ImportBatch(id: Id, clubId: Id, filename: string, filePath: string, role: string, rowsCount: int, fileBytes: nat)

  /** `certificate_events`. */
  datatype Event = Event(id: Id, clubId: Id, templateId: Id, importId: Id, name: string, eventDate: int, role: string, isActive: bool)

  /** `certificate_generations`. */
  datatype Generation = Generation(
    id: Id, clubId: Id, attendeeId: Id, templateId: Id, certificateId: string,
    eventId: Option<Id>, generatedAt: int)

  /** `activity_logs`: only the two foreign keys matter here. */
  datatype ActivityLog = ActivityLog(id: Id, clubId: Option<Id>, adminId: Option<Id>)

  datatype Db = Db(
    clubs: seq<Club>,
    platformAdmins: seq<PlatformAdmin>,
    clubAdmins: seq<ClubAdmin>,
    templates: seq<Template>,
    attendees: seq<Attendee>,
    imports: seq<ImportBatch>,
    events: seq<Event>,
    generations: seq<Generation>,
    logs: seq<ActivityLog>)
}

=== FILE: template_schema.dfy ===
/** The request models of `app/schemas/template.py`: the text-field descriptor
    (`TextFieldCoordinate`) and the template creation request, validated from
    decoded JSON objects the way the pydantic models do it: each field is read
    under its first present alias, absent optional fields take their defaults,
    and every failing field is reported, in declaration order. */
module TemplateSchema {
  import opened Wrappers
  import opened Text

  /** A decoded JSON value. */
  datatype Json =
    | JStr(s: string)
    | JInt(i: int)
    | JBool(b: bool)
    | JNull
    | JArr(items: seq<Json>)
    | JObj(fields: map<string, Json>)

  type Object = map<string, Json>

  /** `TextFieldType`. */
  datatype FieldType = NameField | StudentIdField | AchievementField | DateField | CustomField

  /** The enum member's string value. */
  function FieldTypeValue(t: FieldType): string {
    match t
    case NameField => "name"
    case StudentIdField => "student_id"
    case AchievementField => "achievement"
    case DateField => "date"
    case CustomField => "custom"
  }

  /** `TextFieldType(s)`: the member whose value is exactly `s`. */
  function ParseFieldType(s: string): (r: Option<FieldType>)
    ensures r.Some? ==> FieldTypeValue(r.value) == s
  {
    if s == "name" then Some(NameField)
    else if s == "student_id" then Some(StudentIdField)
    else if s == "achievement" then Some(AchievementField)
    else if s == "date" then Some(DateField)
    else if s == "custom" then Some(CustomField)
    else None
  }

  /** Every member's value parses back to that member, so the enum accepts exactly its five values. */
  lemma FieldTypeRoundTrip(t: FieldType)
    ensures ParseFieldType(FieldTypeValue(t)) == Some(t)
  {
  }

  /** `AliasChoices(keys...)`: the value under the first listed key the object has. */
  function Choice(o: Object, keys: seq<string>): (v: Option<Json>)
    ensures v.None? <==> forall i :: 0 <= i < |keys| ==> keys[i] !in o
    ensures v.Some? ==> exists i :: 0 <= i < |keys| && keys[i] in o && o[keys[i]] == v.value
                                    && forall j :: 0 <= j < i ==> keys[j] !in o
  {
    if keys == [] then None
    else if keys[0] in o then Some(o[keys[0]])
    else
      var v := Choice(o, keys[1..]);
      assert forall i :: 1 <= i < |keys| ==> keys[i] == keys[1..][i - 1];
      if v.Some? then
        var i :| 0 <= i < |keys[1..]| && keys[1..][i] in o && o[keys[1..][i]] == v.value
                 && forall j :: 0 <= j < i ==> keys[1..][j] !in o;
        assert forall j :: 0 <= j < i + 1 ==> keys[j] !in o by {
          forall j | 0 <= j < i + 1 ensures keys[j] !in o {
            if j > 0 { assert keys[j] == keys[1..][j - 1]; }
          }
        }
        v
      else v
  }

  /** The value under a key without aliases. */
  function Get(o: Object, key: string): Option<Json> {
    if key in o then Some(o[key]) else None
  }

  /** A `str` field: absent gives the default (None when the field is required); only a JSON string validates. */
  function AsString(v: Option<Json>, default: Option<string>): (r: Option<string>)
    ensures v.None? ==> r == default
    ensures v.Some? ==> (r.Some? <==> v.value.JStr?)
    ensures v.Some? && r.Some? ==> r.value == v.value.s
  {
    match v
    case None => default
    case Some(JStr(s)) => Some(s)
    case Some(_) => None
  }

  predicate IsDigit(c: char) {
    '0' <= c <= '9'
  }

  predicate AllDigits(s: string) {
    forall i :: 0 <= i < |s| ==> IsDigit(s[i])
  }

  /** The value of a run of decimal digits, most significant first. */
  function DigitsValue(s: string): (n: nat)
    requires AllDigits(s)
  {
    if s == [] then 0 else 10 * DigitsValue(s[..|s| - 1]) + (s[|s| - 1] as int - '0' as int)
  }

  /** A decimal integer literal as lax `int` validation reads one from a string: an optional
      `+` or `-` followed by at least one digit. */
  predicate IsIntLiteral(s: string) {
    var digits := if |s| > 0 && (s[0] == '+' || s[0] == '-') then s[1..] else s;
    digits != [] && AllDigits(digits)
  }

  /** The integer a string holds, after surrounding whitespace is stripped. */
  function ParseIntString(s: string): (r: Option<int>)
    ensures r.Some? <==> IsIntLiteral(Strip(s))
  {
    var t := Strip(s);
    if |t| > 0 && (t[0] == '+' || t[0] == '-') then
      if |t| > 1 && AllDigits(t[1..]) then
        Some(if t[0] == '-' then 0 - DigitsValue(t[1..]) else DigitsValue(t[1..]))
      else None
    else if t != [] && AllDigits(t) then Some(DigitsValue(t))
    else None
  }

  /** `str(n)` for a natural number: its decimal digits, no leading zero. */
  function ShowNat(n: nat): (s: string)
    ensures s != [] && AllDigits(s) && s[0] != '+' && s[0] != '-'
    ensures |s| > 1 ==> s[0] != '0'
    decreases n
  {
    if n < 10 then [('0' as int + n) as char]
    else ShowNat(n / 10) + [('0' as int + n % 10) as char]
  }

  /** `str(i)`: a minus sign before a negative number's digits. */
  function ShowInt(i: int): (s: string) {
    if i < 0 then "-" + ShowNat(0 - i) else ShowNat(i)
  }

  /** The digits of `ShowNat(n)` are worth `n`. */
  lemma {:induction false} ShowNatValue(n: nat)
    ensures DigitsValue(ShowNat(n)) == n
    decreases n
  {
    if n >= 10 {
      var s := ShowNat(n);
      assert s[..|s| - 1] == ShowNat(n / 10);
      ShowNatValue(n / 10);
    }
  }

  /** The decimal form of an integer, unpadded, reads back as the integer. */
  lemma ParseShowInt(i: int)
    ensures ParseIntString(ShowInt(i)) == Some(i)
  {
    var t := ShowInt(i);
    assert IsStripped(t) by { assert t[0] == '-' || IsDigit(t[0]); assert IsDigit(t[|t| - 1]); }
    StripFixesStripped(t);
    if i < 0 {
      assert t[1..] == ShowNat(0 - i);
      ShowNatValue(0 - i);
    } else {
      ShowNatValue(i);
    }
  }

  /** Reading back the decimal form of an integer gives the integer, even with whitespace around it. */
  lemma ParseShowRoundTrip(i: int, pad: string)
    requires forall k :: 0 <= k < |pad| ==> IsSpace(pad[k])
    ensures ParseIntString(pad + ShowInt(i) + pad) == Some(i)
  {
    var t := ShowInt(i);
    assert IsStripped(t) by { assert t[0] == '-' || IsDigit(t[0]); assert IsDigit(t[|t| - 1]); }
    StripAroundStripped(pad, t);
    StripFixesStripped(t);
    ParseShowInt(i);
  }

  /** An `int` field read in pydantic's lax mode: absent gives the default (None when the field
      is required); a JSON integer is itself, a boolean is 0 or 1, and a string validates iff it
      holds a signed decimal literal once stripped, giving that literal's value. */
  function AsInt(v: Option<Json>, default: Option<int>): (r: Option<int>)
    ensures v.None? ==> r == default
    ensures v.Some? ==> (r.Some? <==> v.value.JInt? || v.value.JBool?
                                      || (v.value.JStr? && IsIntLiteral(Strip(v.value.s))))
    ensures v.Some? && v.value.JInt? ==> r == Some(v.value.i)
    ensures v.Some? && v.value.JBool? ==> r == Some(if v.value.b then 1 else 0)
  {
    match v
    case None => default
    case Some(JInt(i)) => Some(i)
    case Some(JBool(b)) => Some(if b then 1 else 0)
    case Some(JStr(s)) => ParseIntString(s)
    case Some(_) => None
  }

  /** A string holding an integer's decimal form, with or without whitespace around it, is read
      as that integer. */
  lemma AsIntReadsDecimal(i: int, pad: string, default: Option<int>)
    requires forall k :: 0 <= k < |pad| ==> IsSpace(pad[k])
    ensures AsInt(Some(JStr(pad + ShowInt(i) + pad)), default) == Some(i)
  {
    ParseShowRoundTrip(i, pad);
  }

  /** Keep a present value only when it meets a bound. */
  function Bounded(v: Option<int>, lo: int, hi: Option<int>): (r: Option<int>)
    ensures r.Some? <==> v.Some? && lo <= v.value && (hi.None? || v.value <= hi.value)
    ensures r.Some? ==> r == v
  {
    if v.Some? && lo <= v.value && (hi.None? || v.value <= hi.value) then v else None
  }

  /** A validated `TextFieldCoordinate`. */
  datatype Descriptor = Descriptor(
    fieldType: FieldType, fieldName: string, x: int, y: int,
    fontSize: int, fontColor: string, fontFamily: string, align: string)

  /** The declared constraints of a descriptor: field_name of 1..50 characters,
      non-negative coordinates and a font size of 8..200 inclusive; align is unrestricted. */
  predicate ValidDescriptor(d: Descriptor) {
    1 <= |d.fieldName| <= 50 && d.x >= 0 && d.y >= 0 && 8 <= d.fontSize <= 200
  }

  /** The descriptor's fields, in declaration order, as named in an error report. */
  datatype FieldKey = FieldTypeKey | FieldNameKey | XKey | YKey | FontSizeKey | FontColorKey | FontFamilyKey | AlignKey

  function FieldTypeOf(o: Object): Option<FieldType> {
    match Choice(o, ["field_type", "field"])
    case Some(JStr(s)) => ParseFieldType(s)
    case _ => None
  }

  function FieldNameOf(o: Object): Option<string> {
    var n := AsString(Choice(o, ["field_name", "label"]), None);
    if n.Some? && 1 <= |n.value| <= 50 then n else None
  }

  function XOf(o: Object): Option<int> { Bounded(AsInt(Get(o, "x"), None), 0, None) }
  function YOf(o: Object): Option<int> { Bounded(AsInt(Get(o, "y"), None), 0, None) }
  function FontSizeOf(o: Object): Option<int> { Bounded(AsInt(Get(o, "font_size"), Some(40)), 8, Some(200)) }
  function FontColorOf(o: Object): Option<string> { AsString(Choice(o, ["font_color", "color"]), Some("#000000")) }
  function FontFamilyOf(o: Object): Option<string> { AsString(Get(o, "font_family"), Some("Arial")) }
  function AlignOf(o: Object): Option<string> { AsString(Get(o, "align"), Some("left")) }

  /** The failing fields of an object, in declaration order. */
  function DescriptorErrors(o: Object): seq<FieldKey> {
    (if FieldTypeOf(o).None? then [FieldTypeKey] else [])
    + (if FieldNameOf(o).None? then [FieldNameKey] else [])
    + (if XOf(o).None? then [XKey] else [])
    + (if YOf(o).None? then [YKey] else [])
    + (if FontSizeOf(o).None? then [FontSizeKey] else [])
    + (if FontColorOf(o).None? then [FontColorKey] else [])
    + (if FontFamilyOf(o).None? then [FontFamilyKey] else [])
    + (if AlignOf(o).None? then [AlignKey] else [])
  }

  /** `TextFieldCoordinate(**o)`. */
  function ValidateDescriptor(o: Object): (r: Result<Descriptor, seq<FieldKey>>)
    ensures r.Ok? ==> ValidDescriptor(r.value)
    ensures r.Err? ==> r.error != []
  {
    var errs := DescriptorErrors(o);
    if errs != [] then Err(errs)
    else
      Ok(Descriptor(FieldTypeOf(o).value, FieldNameOf(o).value, XOf(o).value, YOf(o).value,
                    FontSizeOf(o).value, FontColorOf(o).value, FontFamilyOf(o).value, AlignOf(o).value))
  }

  /** `model_dump()`: the descriptor under its canonical field names, the enum as its value. */
  function Dump(d: Descriptor): (o: Object)
    ensures "field_type" in o && "field_name" in o && "x" in o && "y" in o && "font_size" in o
            && "font_color" in o && "font_family" in o && "align" in o
  {
    map["field_type" := JStr(FieldTypeValue(d.fieldType)), "field_name" := JStr(d.fieldName),
        "x" := JInt(d.x), "y" := JInt(d.y), "font_size" := JInt(d.fontSize),
        "font_color" := JStr(d.fontColor), "font_family" := JStr(d.fontFamily), "align" := JStr(d.align)]
  }

  /** Each field of a dump, by key. */
  lemma DumpFields(d: Descriptor)
    ensures var o := Dump(d);
            o["field_type"] == JStr(FieldTypeValue(d.fieldType)) && o["field_name"] == JStr(d.fieldName)
            && o["x"] == JInt(d.x) && o["y"] == JInt(d.y) && o["font_size"] == JInt(d.fontSize)
            && o["font_color"] == JStr(d.fontColor) && o["font_family"] == JStr(d.fontFamily)
            && o["align"] == JStr(d.align)
  {
  }

  /** Validating a dumped valid descriptor gives it back: what a template stores is what was accepted. */
  lemma DumpValidateRoundTrip(d: Descriptor)
    requires ValidDescriptor(d)
    ensures ValidateDescriptor(Dump(d)) == Ok(d)
  {
    var o := Dump(d);
    assert Choice(o, ["field_type", "field"]) == Some(JStr(FieldTypeValue(d.fieldType)));
    assert Choice(o, ["field_name", "label"]) == Some(JStr(d.fieldName));
    assert Choice(o, ["font_color", "color"]) == Some(JStr(d.fontColor));
    FieldTypeRoundTrip(d.fieldType);
  }

  /** Validation normalises aliases away: re-validating the dump of an accepted object accepts the same descriptor. */
  lemma ValidateIdempotent(o: Object)
    requires ValidateDescriptor(o).Ok?
    ensures ValidateDescriptor(Dump(ValidateDescriptor(o).value)) == ValidateDescriptor(o)
  {
    DumpValidateRoundTrip(ValidateDescriptor(o).value);
  }

  /** An object with only the required keys, spelled with their aliases, takes the documented defaults. */
  lemma DescriptorDefaults(o: Object, t: FieldType, name: string, x: int, y: int)
    requires o == map["field" := JStr(FieldTypeValue(t)), "label" := JStr(name), "x" := JInt(x), "y" := JInt(y)]
    requires 1 <= |name| <= 50 && x >= 0 && y >= 0
    ensures ValidateDescriptor(o) == Ok(Descriptor(t, name, x, y, 40, "#000000", "Arial", "left"))
  {
    assert FieldTypeOf(o) == Some(t) by {
      assert "field_type" !in o;
      assert Choice(o, ["field"]) == Some(JStr(FieldTypeValue(t)));
      FieldTypeRoundTrip(t);
    }
    assert FieldNameOf(o) == Some(name) by {
      assert "field_name" !in o;
      assert Choice(o, ["label"]) == Some(JStr(name));
    }
    assert XOf(o) == Some(x) && YOf(o) == Some(y);
    assert FontSizeOf(o) == Some(40) by { assert "font_size" !in o; }
    assert FontColorOf(o) == Some("#000000") by {
      assert "font_color" !in o && "color" !in o;
    }
    assert FontFamilyOf(o) == Some("Arial") && AlignOf(o) == Some("left") by {
      assert "font_family" !in o && "align" !in o;
    }
    ValidateFromFields(o, Descriptor(t, name, x, y, 40, "#000000", "Arial", "left"));
  }

  /** An object whose eight fields all read as those of `d` validates to `d`. */
  lemma ValidateFromFields(o: Object, d: Descriptor)
    requires FieldTypeOf(o) == Some(d.fieldType) && FieldNameOf(o) == Some(d.fieldName)
    requires XOf(o) == Some(d.x) && YOf(o) == Some(d.y) && FontSizeOf(o) == Some(d.fontSize)
    requires FontColorOf(o) == Some(d.fontColor) && FontFamilyOf(o) == Some(d.fontFamily) && AlignOf(o) == Some(d.align)
    ensures ValidateDescriptor(o) == Ok(d)
  {
    assert DescriptorErrors(o) == [];
  }

  /** When both spellings of a field are present, the canonical key wins over its alias. */
  lemma CanonicalKeyWins(o: Object, canonical: string, alias: string)
    requires canonical in o
    ensures Choice(o, [canonical, alias]) == Some(o[canonical])
  {
  }

  /** The five accepted type names, and nothing else. */
  lemma FieldTypeAccepts(s: string)
    ensures ParseFieldType(s).Some? <==> s in {"name", "student_id", "achievement", "date", "custom"}
  {
  }

  /** A validated `CreateTemplateRequest`. The audience is an unrestricted string here;
      the upload handler checks it separately. */
  datatype CreateRequest = CreateRequest(templateName: string, imageUrl: string, audience: string, textFields: seq<Descriptor>)

  /** Where a creation request fails. */
  datatype RequestKey =
    | TemplateNameKey
    | ImageUrlKey
    | AudienceKey
    | TextFieldsKey                            // text_fields is not a list
    | TextFieldItem(index: nat, keys: seq<FieldKey>)  // an item that is not a valid descriptor

  /** The per-item errors of a `text_fields` list, in item order, numbered from `start`. */
  function ItemErrors(items: seq<Json>, start: nat): (errs: seq<RequestKey>)
    ensures errs == [] <==> forall i :: 0 <= i < |items| ==> items[i].JObj? && ValidateDescriptor(items[i].fields).Ok?
    ensures forall e :: e in errs ==> e.TextFieldItem? && start <= e.index < start + |items|
  {
    if items == [] then []
    else
      var head :=
        if !items[0].JObj? then [TextFieldItem(start, [])]
        else if ValidateDescriptor(items[0].fields).Err? then [TextFieldItem(start, ValidateDescriptor(items[0].fields).error)]
        else [];
      var rest := ItemErrors(items[1..], start + 1);
      assert forall i :: 1 <= i < |items| ==> items[i] == items[1..][i - 1];
      head + rest
  }

  /** The descriptors of a list every item of which validates. */
  function Descriptors(items: seq<Json>): (ds: seq<Descriptor>)
    requires forall i :: 0 <= i < |items| ==> items[i].JObj? && ValidateDescriptor(items[i].fields).Ok?
    ensures |ds| == |items|
    ensures forall i :: 0 <= i < |items| ==> ds[i] == ValidateDescriptor(items[i].fields).value && ValidDescriptor(ds[i])
  {
    seq(|items|, i requires 0 <= i < |items| => ValidateDescriptor(items[i].fields).value)
  }

  /** The list under `text_fields`: absent gives the empty default. */
  function TextFieldsOf(o: Object): Option<seq<Json>> {
    match Get(o, "text_fields")
    case None => Some([])
    case Some(JArr(items)) => Some(items)
    case Some(_) => None
  }

  function TemplateNameOf(o: Object): Option<string> {
    var n := AsString(Get(o, "template_name"), None);
    if n.Some? && 1 <= |n.value| <= 100 then n else None
  }

  /** `CreateTemplateRequest(**o)`. */
  function ValidateCreate(o: Object): (r: Result<CreateRequest, seq<RequestKey>>)
    ensures r.Ok? ==> 1 <= |r.value.templateName| <= 100
    ensures r.Ok? ==> forall d :: d in r.value.textFields ==> ValidDescriptor(d)
    ensures r.Ok? && "text_fields" !in o ==> r.value.textFields == []
    ensures r.Ok? && "audience" !in o ==> r.value.audience == "student"
    ensures r.Err? ==> r.error != []
  {
    var name := TemplateNameOf(o);
    var url := AsString(Get(o, "template_image_url"), None);
    var audience := AsString(Get(o, "audience"), Some("student"));
    var fields := TextFieldsOf(o);
    var errs :=
      (if name.None? then [TemplateNameKey] else [])
      + (if url.None? then [ImageUrlKey] else [])
      + (if audience.None? then [AudienceKey] else [])
      + (if fields.None? then [TextFieldsKey] else ItemErrors(fields.value, 0));
    if errs != [] then Err(errs)
    else
      Ok(CreateRequest(name.value, url.value, audience.value, Descriptors(fields.value)))
  }
}

=== FILE: template_service.dfy ===
/** Certificate templates as a store: creation (unique per club, name and audience), lookup,
    the per-club total, the coordinate update that bumps the version, deactivation and the
    usage statistics. */
module TemplateService {
  import opened Wrappers
  import opened Seqs
  import opened Store
  import opened TemplateSchema

  const ClubMissing := "Club not found"
  const TemplateMissing := "Template not found"
  /** The 409 detail, naming the template. */
  function TemplateExists(name: string): string { "Template '" + name + "' already exists for this club" }

  /** The stored form of a descriptor list: each descriptor's `model_dump()`. */
  function DumpAll(ds: seq<Descriptor>): (os: seq<Object>)
    ensures |os| == |ds|
    ensures forall i :: 0 <= i < |ds| ==> os[i] == Dump(ds[i])
  {
    seq(|ds|, i requires 0 <= i < |ds| => Dump(ds[i]))
  }

  /** Reading back what was stored validates to the descriptors that were accepted. */
  lemma DumpAllRoundTrip(ds: seq<Descriptor>)
    requires forall d :: d in ds ==> ValidDescriptor(d)
    ensures forall i :: 0 <= i < |ds| ==> ValidateDescriptor(DumpAll(ds)[i]) == Ok(ds[i])
  {
    forall i | 0 <= i < |ds|
      ensures ValidateDescriptor(DumpAll(ds)[i]) == Ok(ds[i])
    {
      assert ds[i] in ds;
      DumpValidateRoundTrip(ds[i]);
    }
  }

  predicate ClubExists(db: Db, clubId: Id) {
    exists c :: c in db.clubs && c.id == clubId
  }

  /** A stored template with the same club, name and audience. */
  predicate SameTemplate(t: Template, clubId: Id, name: string, audience: string) {
    t.clubId == clubId && t.name == name && t.audience == audience
  }

  /** `create_template`: 404 without the club, 409 when the club already has a template with this
      name for this audience, otherwise an active template at version 1 storing the dumped fields.
      `id` and `now` stand for `uuid4()` and the insert time. */
  function CreateTemplate(db: Db, clubId: Id, req: CreateRequest, id: Id, now: int): (r: Result<(Db, Template), HttpError>)
    ensures r.Err? <==> !ClubExists(db, clubId) || exists t :: t in db.templates && SameTemplate(t, clubId, req.templateName, req.audience)
    ensures r.Err? ==> (r.error.status == NotFound <==> !ClubExists(db, clubId))
    ensures r.Err? ==> r.error.status in {NotFound, Conflict}
    ensures r.Ok? ==>
              var (db', t) := r.value;
              db' == db.(templates := db.templates + [t])
              && t.id == id && t.clubId == clubId && t.name == req.templateName && t.imageUrl == req.imageUrl
              && t.audience == req.audience && t.version == Some(1) && t.isActive
              && |t.textFields| == |req.textFields|
              && forall i :: 0 <= i < |req.textFields| ==> t.textFields[i] == Dump(req.textFields[i])
  {
    if !exists c :: c in db.clubs && c.id == clubId then
      Err(HttpError(NotFound, ClubMissing))
    else if exists t :: t in db.templates && SameTemplate(t, clubId, req.templateName, req.audience) then
      Err(HttpError(Conflict, TemplateExists(req.templateName)))
    else
      var t := Template(id, clubId, req.templateName, req.imageUrl, req.audience, DumpAll(req.textFields),
                        Some(1), true, 0, None, None, now);
      Ok((db.(templates := db.templates + [t]), t))
  }

  /** Some stored template has the id. */
  predicate HasTemplate(db: Db, id: Id) {
    exists t :: t in db.templates && t.id == id
  }

  /** `get_template`: the first template with the id, else 404. */
  function GetTemplate(db: Db, id: Id): (r: Result<Template, HttpError>)
    ensures r.Err? <==> !HasTemplate(db, id)
    ensures r.Err? ==> r.error.status == NotFound
    ensures r.Ok? ==> r.value in db.templates && r.value.id == id
  {
    match FirstWhere(db.templates, (t: Template) => t.id == id)
    case Some(t) => Ok(t)
    case None => Err(HttpError(NotFound, TemplateMissing))
  }

  /** A created template is found under its fresh id, and its stored fields read back as the
      request's descriptors. */
  lemma CreatedTemplateIsFound(db: Db, clubId: Id, req: CreateRequest, id: Id, now: int)
    requires CreateTemplate(db, clubId, req, id, now).Ok?
    requires !HasTemplate(db, id)
    requires forall d :: d in req.textFields ==> ValidDescriptor(d)
    ensures var (db', t) := CreateTemplate(db, clubId, req, id, now).value;
            GetTemplate(db', id) == Ok(t)
            && forall i :: 0 <= i < |req.textFields| ==> ValidateDescriptor(t.textFields[i]) == Ok(req.textFields[i])
  {
    var (db', t) := CreateTemplate(db, clubId, req, id, now).value;
    assert t in db'.templates;
    assert GetTemplate(db', id).value in db.templates + [t];
    DumpAllRoundTrip(req.textFields);
  }

  /** Sending the same creation request twice: the second one conflicts. The same name under
      another audience does not. */
  lemma CreateTwiceConflicts(db: Db, clubId: Id, req: CreateRequest, id: Id, now: int, req2: CreateRequest, id2: Id, now2: int)
    requires CreateTemplate(db, clubId, req, id, now).Ok?
    requires req2.templateName == req.templateName
    ensures var db' := CreateTemplate(db, clubId, req, id, now).value.0;
            var r := CreateTemplate(db', clubId, req2, id2, now2);
            (req2.audience == req.audience ==> r == Err(HttpError(Conflict, TemplateExists(req2.templateName))))
            && (req2.audience != req.audience && CreateTemplate(db, clubId, req2, id2, now2).Ok? ==> r.Ok?)
  {
    var (db', t) := CreateTemplate(db, clubId, req, id, now).value;
    assert t in db'.templates;
    var c :| c in db.clubs && c.id == clubId;
    assert c in db'.clubs;
  }

  /** `list_templates` total: the club's templates, or only its active ones; 404 without the club. */
  function ListTotal(db: Db, clubId: Id, activeOnly: bool): (r: Result<nat, HttpError>)
    ensures r.Err? <==> !ClubExists(db, clubId)
    ensures r.Ok? ==> r.value <= |db.templates|
    ensures r.Ok? ==> (r.value == 0 <==> forall t :: t in db.templates && t.clubId == clubId ==> activeOnly && !t.isActive)
  {
    if !exists c :: c in db.clubs && c.id == clubId then Err(HttpError(NotFound, ClubMissing))
    else if activeOnly then Ok(Count(db.templates, (t: Template) => t.clubId == clubId && t.isActive))
    else Ok(Count(db.templates, (t: Template) => t.clubId == clubId))
  }

  /** `(template["version"] or 1) + 1`: a missing or zero version counts as 1. */
  function NextVersion(v: Option<int>): (n: int)
    ensures v.Some? && v.value != 0 ==> n == v.value + 1
    ensures v.None? || v.value == 0 ==> n == 2
  {
    (if v.None? || v.value == 0 then 1 else v.value) + 1
  }

  function HasId(id: Id): Template -> bool {
    (t: Template) => t.id == id
  }

  /** `update_template_coordinates`: 404 for an unknown id; otherwise every row with the id gets the
      new fields, the next version and the update time, and nothing else about any template changes. */
  function UpdateCoordinates(db: Db, id: Id, fields: seq<Descriptor>, now: int): (r: Result<Db, HttpError>)
    ensures r.Err? <==> !HasTemplate(db, id)
    ensures r.Err? ==> r.error.status == NotFound
  {
    if HasTemplate(db, id) then
      Ok(db.(templates := MapWhere(db.templates, HasId(id),
        (t: Template) => t.(textFields := DumpAll(fields), version := Some(NextVersion(t.version)), updatedAt := now))))
    else
      Err(HttpError(NotFound, TemplateMissing))
  }

  /** A coordinate update replaces the fields, bumps the version and stamps the time of every row
      with the id, and changes nothing else in the database. */
  lemma UpdateChangesOnlyCoordinates(db: Db, id: Id, fields: seq<Descriptor>, now: int)
    requires UpdateCoordinates(db, id, fields, now).Ok?
    ensures var db' := UpdateCoordinates(db, id, fields, now).value;
            db' == db.(templates := db'.templates) && |db'.templates| == |db.templates|
            && forall i :: 0 <= i < |db.templates| ==>
                 var (before, after) := (db.templates[i], db'.templates[i]);
                 if before.id == id then
                   after.textFields == DumpAll(fields) && after.version == Some(NextVersion(before.version))
                   && after.updatedAt == now
                   && after == before.(textFields := after.textFields, version := after.version, updatedAt := now)
                 else after == before
  {
  }

  /** What a coordinate update never touches. */
  predicate SameIdentity(t: Template, t': Template) {
    t'.imageUrl == t.imageUrl && t'.name == t.name && t'.audience == t.audience
    && t'.isActive == t.isActive && t'.clubId == t.clubId
  }

  /** One update of a template the lookup finds: the update succeeds, the lookup then sees the new
      fields and the next version (a created template, at version 1, reads 2, then 3, ...), and
      its image, name, audience, club and active flag are unchanged. */
  lemma UpdateStep(db: Db, id: Id, fields: seq<Descriptor>, now: int)
    requires GetTemplate(db, id).Ok?
    ensures UpdateCoordinates(db, id, fields, now).Ok?
    ensures var t := GetTemplate(db, id).value;
            var t' := GetTemplate(UpdateCoordinates(db, id, fields, now).value, id);
            t'.Ok? && SameIdentity(t, t'.value) && t'.value.textFields == DumpAll(fields)
            && (t.version.Some? && t.version.value >= 1 ==> t'.value.version == Some(t.version.value + 1))
            && (t.version.None? ==> t'.value.version == Some(2))
  {
    var t := GetTemplate(db, id).value;
    assert t in db.templates && t.id == id;
    UpdateKeepsFirst(db, id, fields, now);
  }

  /** The row the lookup finds after an update is the update of the row it found before. */
  lemma UpdateKeepsFirst(db: Db, id: Id, fields: seq<Descriptor>, now: int)
    requires GetTemplate(db, id).Ok?
    ensures var t := GetTemplate(db, id).value;
            GetTemplate(UpdateCoordinates(db, id, fields, now).value, id)
            == Ok(t.(textFields := DumpAll(fields), version := Some(NextVersion(t.version)), updatedAt := now))
  {
    FirstWhereAfterUpdate(db.templates, HasId(id),
      (t: Template) => t.(textFields := DumpAll(fields), version := Some(NextVersion(t.version)), updatedAt := now));
  }

  /** `deactivate_template`: 404 for an unknown id, otherwise the rows with the id become inactive
      and nothing else about any template changes besides `updated_at`. */
  function DeactivateTemplate(db: Db, id: Id, now: int): (r: Result<Db, HttpError>)
    ensures r.Err? <==> !HasTemplate(db, id)
    ensures r.Err? ==> r.error.status == NotFound
    ensures r.Ok? ==>
              r.value == db.(templates := r.value.templates) && |r.value.templates| == |db.templates|
              && forall i :: 0 <= i < |db.templates| ==>
                   var (before, after) := (db.templates[i], r.value.templates[i]);
                   if before.id == id then after == before.(isActive := false, updatedAt := now) else after == before
  {
    if HasTemplate(db, id) then
      Ok(db.(templates := MapWhere(db.templates, HasId(id), (t: Template) => t.(isActive := false, updatedAt := now))))
    else
      Err(HttpError(NotFound, TemplateMissing))
  }

  /** After deactivation the club's active total counts exactly its other active templates. */
  lemma DeactivateActiveTotal(db: Db, id: Id, now: int, clubId: Id)
    requires DeactivateTemplate(db, id, now).Ok? && ClubExists(db, clubId)
    ensures ListTotal(DeactivateTemplate(db, id, now).value, clubId, true)
            == Ok(Count(db.templates, (t: Template) => t.clubId == clubId && t.isActive && t.id != id))
  {
    var f := (t: Template) => t.(isActive := false, updatedAt := now);
    assert DeactivateTemplate(db, id, now).value.templates == MapWhere(db.templates, HasId(id), f);
    CountAfterUpdate(db.templates, HasId(id), f, (t: Template) => t.clubId == clubId && t.isActive,
                     (t: Template) => t.clubId == clubId && t.isActive && t.id != id);
  }

  /** `get_template_stats`. */
  datatype Stats = Stats(certificateCount: nat, lastUsed: Option<int>)

  /** `MAX(generated_at)` over some generations: NULL for none. */
  function LatestGeneration(gs: seq<Generation>): (m: Option<int>)
    ensures m.None? <==> gs == []
    ensures m.Some? ==> (exists g :: g in gs && g.generatedAt == m.value) && forall g :: g in gs ==> g.generatedAt <= m.value
  {
    if gs == [] then None
    else
      var rest := LatestGeneration(gs[1..]);
      assert forall g :: g in gs[1..] ==> g in gs;
      if rest.None? || gs[0].generatedAt >= rest.value then Some(gs[0].generatedAt) else rest
  }

  /** `get_template_stats`: 404 for an unknown template; otherwise the number of generations
      recorded for it (0 when none) and the latest generation time, absent exactly when the count is 0. */
  function TemplateStats(db: Db, id: Id): (r: Result<Stats, HttpError>)
    ensures r.Err? <==> !HasTemplate(db, id)
    ensures r.Ok? ==> r.value.certificateCount == Count(db.generations, (g: Generation) => g.templateId == id)
    ensures r.Ok? ==> (r.value.lastUsed.None? <==> r.value.certificateCount == 0)
    ensures r.Ok? && r.value.lastUsed.Some? ==>
              forall g :: g in db.generations && g.templateId == id ==> g.generatedAt <= r.value.lastUsed.value
  {
    if HasTemplate(db, id) then
      var used := Filter(db.generations, (g: Generation) => g.templateId == id);
      Ok(Stats(|used|, LatestGeneration(used)))
    else
      Err(HttpError(NotFound, TemplateMissing))
  }
}

=== FILE: text.dfy ===
/** String helpers with the behaviour of the Python built-ins the source uses:
    `str.strip()`, `str.lstrip(ch)`, `str.lower()`, `str.upper()`. */
module Text {

  /** Python's `str.isspace()`: the characters `str.strip()` removes. */
  predicate IsSpace(c: char) {
    || c == ' '
    || ('\t' <= c <= '\r')
    || ('\U{1c}' <= c <= '\U{1f}')
    || c == '\U{85}' || c == '\U{a0}' || c == '\U{1680}'
    || ('\U{2000}' <= c <= '\U{200a}')
    || c == '\U{2028}' || c == '\U{2029}' || c == '\U{202f}' || c == '\U{205f}' || c == '\U{3000}'
  }

  /** The byte-order mark U+FEFF, which is not whitespace for Python. */
  const Bom: char := '\U{feff}'

  /** The number of leading characters of `s` that satisfy `p`. */
  function LeadingCount(s: string, p: char -> bool): (n: nat)
    ensures n <= |s|
    ensures forall i :: 0 <= i < n ==> p(s[i])
    ensures n == |s| || !p(s[n])
  {
    if s == [] || !p(s[0]) then 0
    else
      var n := LeadingCount(s[1..], p);
      assert forall i :: 1 <= i < n + 1 ==> s[i] == s[1..][i - 1];
      n + 1
  }

  /** The number of trailing characters of `s` that satisfy `p`. */
  function TrailingCount(s: string, p: char -> bool): (n: nat)
    ensures n <= |s|
    ensures forall i :: |s| - n <= i < |s| ==> p(s[i])
    ensures n == |s| || !p(s[|s| - n - 1])
  {
    if s == [] || !p(s[|s| - 1]) then 0
    else
      var t := s[..|s| - 1];
      var n := TrailingCount(t, p);
      assert forall i :: |s| - (n + 1) <= i < |s| - 1 ==> s[i] == t[i];
      n + 1
  }

  /** A string with no whitespace at either end. */
  predicate IsStripped(s: string) {
    s == [] || (!IsSpace(s[0]) && !IsSpace(s[|s| - 1]))
  }

  /** `s.strip()`: drop the leading whitespace, then the trailing whitespace. */
  function Strip(s: string): (r: string)
    ensures IsStripped(r)
    ensures |r| <= |s|
  {
    var t := s[LeadingCount(s, IsSpace)..];
    t[..|t| - TrailingCount(t, IsSpace)]
  }

  /** `Strip` removes whitespace and nothing else: the result is the infix of `s` that
      starts after its leading whitespace, and everything after it is whitespace. */
  lemma StripRemovesOnlySpace(s: string)
    ensures LeadingCount(s, IsSpace) + |Strip(s)| <= |s|
    ensures forall i :: 0 <= i < |Strip(s)| ==> Strip(s)[i] == s[LeadingCount(s, IsSpace) + i]
    ensures forall i :: LeadingCount(s, IsSpace) + |Strip(s)| <= i < |s| ==> IsSpace(s[i])
  {
    var k := LeadingCount(s, IsSpace);
    var t := s[k..];
    var n := TrailingCount(t, IsSpace);
    var r := t[..|t| - n];
    assert Strip(s) == r;
    forall i | k + |r| <= i < |s|
      ensures IsSpace(s[i])
    {
      assert s[i] == t[i - k];
    }
  }

  /** A stripped string is a fixed point of `Strip`, so stripping twice is stripping once. */
  lemma StripFixesStripped(s: string)
    requires IsStripped(s)
    ensures Strip(s) == s
  {
    assert LeadingCount(s, IsSpace) == 0;
    assert s[0..] == s;
    assert TrailingCount(s, IsSpace) == 0;
  }

  lemma StripIdempotent(s: string)
    ensures Strip(Strip(s)) == Strip(s)
  {
    StripFixesStripped(Strip(s));
  }

  /** Whitespace padding around a non-empty stripped string is exactly what `Strip` removes. */
  lemma StripAroundStripped(pad: string, t: string)
    requires forall k :: 0 <= k < |pad| ==> IsSpace(pad[k])
    requires t != [] && IsStripped(t)
    ensures Strip(pad + t + pad) == t
  {
    var s := pad + t + pad;
    var k := LeadingCount(s, IsSpace);
    assert s[|pad|] == t[0];
    var u := s[k..];
    assert u == t + pad;
    var n := TrailingCount(u, IsSpace);
    assert u[|u| - |pad| - 1] == t[|t| - 1];
    assert u[..|u| - n] == t;
  }

  /** The character predicate "equals `c`". */
  function Is(c: char): char -> bool {
    x => x == c
  }

  /** `s.lstrip(c)`: drops every leading occurrence of `c`. */
  function DropLeading(s: string, c: char): (r: string)
    ensures |r| <= |s| && r == s[|s| - |r|..]
    ensures forall i :: 0 <= i < |s| - |r| ==> s[i] == c
    ensures r == [] || r[0] != c
  {
    var n := LeadingCount(s, Is(c));
    assert forall i :: 0 <= i < n ==> Is(c)(s[i]);
    s[n..]
  }

  /** Case mapping of one character; only ASCII letters change. */
  function LowerChar(c: char): char {
    if 'A' <= c <= 'Z' then (c as int + 32) as char else c
  }

  function UpperChar(c: char): char {
    if 'a' <= c <= 'z' then (c as int - 32) as char else c
  }

  predicate HasNoUpper(s: string) {
    forall i :: 0 <= i < |s| ==> !('A' <= s[i] <= 'Z')
  }

  /** `s.lower()` (and SQL `LOWER`), restricted to ASCII letters. */
  function Lower(s: string): (r: string)
    ensures |r| == |s|
    ensures HasNoUpper(r)
  {
    seq(|s|, i requires 0 <= i < |s| => LowerChar(s[i]))
  }

  /** `s.upper()`, restricted to ASCII letters. */
  function Upper(s: string): (r: string)
    ensures |r| == |s|
    ensures forall i :: 0 <= i < |r| ==> !('a' <= r[i] <= 'z')
  {
    seq(|s|, i requires 0 <= i < |s| => UpperChar(s[i]))
  }

  /** Lowering a string that has no upper-case letters changes nothing. */
  lemma LowerFixesLowered(s: string)
    requires HasNoUpper(s)
    ensures Lower(s) == s
  {
  }

  lemma LowerIdempotent(s: string)
    ensures Lower(Lower(s)) == Lower(s)
  {
    LowerFixesLowered(Lower(s));
  }

  /** Python truthiness of a string: only the empty string is false. `a or b`. */
  function Or(a: string, b: string): (r: string)
    ensures r == "" ==> a == "" && b == ""
    ensures a != "" ==> r == a
  {
    if a != "" then a else b
  }
}

=== FILE: wrappers.dfy ===
/** Failure-compatible return types shared by every module of the model.
    A Python `raise HTTPException(...)` becomes an `Err`, a normal return an `Ok`. */
module Wrappers {

  /** A value that may be absent: Python's `None` versus a present value. */
  datatype Option<+T> = None | Some(value: T) {

    /** The carried value, or `default` when absent (Python's `x if x is not None else d`). */
    function GetOr(default: T): T {
      match this
      case Some(v) => v
      case None => default
    }
  }

  /** The outcome of an operation that can fail with an error of type E. */
  datatype Result<+T, +E> = Ok(value: T) | Err(error: E) {

    predicate IsFailure() {
      Err?
    }

    function PropagateFailure<U>(): Result<U, E>
      requires Err?
    {
      Err(error)
    }

    function Extract(): T
      requires Ok?
    {
      value
    }
  }

  /** An HTTP error as the handlers raise it: a status code and a short reason. */
  datatype HttpError = HttpError(status: int, reason: string)

  const BadRequest := 400
  const Unauthorized := 401
  const Forbidden := 403
  const NotFound := 404
  const Conflict := 409
  const ServerError := 500
}
